=== FILE: README.md ===
# A model of the xv6 `script` interpreter

`script` is a user program of this xv6 fork. It runs a small C-like script held
in a table of at most 40 lines of at most 32 characters each. The script can
declare `int`, `char` and `string` variables, globals included. It can define
up to four functions with typed parameters and call them. It supports `if`,
`if`-`else` and `for` blocks, assignments, `++` and `--`, the four arithmetic
operators, comparisons, `return`, and `system(…)`, which hands a command to
the shell.

This project models the interpreter's core in Dafny, in four layers:

- **Text handling** (`text.dfy`, `split.dfy`, `clean.dfy`, `literals.dfy`,
  `incdec.dfy`, `cint.dfy`). This layer covers:
  - the bounded string helpers `strcat_n` and `strcmp_n`;
  - the quote-aware `split`;
  - the line cleaning of `process_text`;
  - the literal decoders;
  - the `++`/`--` rewrite;
  - the C integer and character semantics the interpreter relies on: signed
    chars, truncating division, `atoi` and `itoa`.
- **Registry** (`registry.dfy`). This layer covers:
  - the declarations on a line;
  - the function headers and the end of each body;
  - the global variables.
- **Values** (`values.dfy`, `expr.dfy`). This layer covers:
  - variable lookup and assignment with the source's type conversions;
  - duplicate removal;
  - `calculate`, `run_expression` and the conditions.
- **Calls and blocks** (`blocks.dfy`, `engine.dfy`). This layer covers:
  - locating `if`, `if`-`else` and `for` blocks;
  - the call stack;
  - the statements of `run_line`;
  - the execution of blocks;
  - `process_text` from start to end.

The interpreter is a set of pure functions over a `State`. The state holds:
- the script text, which is rewritten in place by `++`/`--`;
- the functions;
- the globals;
- the stack of frames;
- the trace of shell commands.

Every path on which the C program prints an error and calls `exit()` becomes
a `Fail` result carrying an `Error`. Some paths with undefined behaviour in
the C program also become a definite error: division by zero, an INT result
outside 32 bits, a fifth function, a ninth variable, global or stack frame,
the CHAR right operand of a comparison, an uninitialised value, a NULL line.
Others are not modelled; "## Left out" lists them. Recursion is bounded by a
fuel count. A run either finishes (`Done`), fails with the C program's error
(`Fail`), or runs out of fuel (`OutOfFuel`).

All paths below are relative to the repository root. The one source file is
`xv6-merge/xv6/script.c`.

## Model

| member | source | states |
|---|---|---|
| CInt.Narrow | xv6-merge/xv6/script.c:1027-1032 | Storing an int in a signed char keeps it modulo 256, and leaves values in -128..127 unchanged |
| CInt.CharOf | xv6-merge/xv6/script.c:1349-1353 | The character written for a signed char value reads back as that value |
| CInt.CharOfSignedOf | xv6-merge/xv6/script.c:1349-1353 | A byte-sized character survives the round trip through its signed char value |
| CInt.TruncDiv | xv6-merge/xv6/script.c:1119-1144 | C division truncates toward zero: the remainder has the dividend's sign and is smaller than the divisor, and the quotient is no larger than the dividend |
| CInt.TruncRem | xv6-merge/xv6/script.c:1371-1376 | `%` is the remainder of the truncating division: a equals b times the quotient plus the remainder, which is smaller in size than b |
| CInt.DigitRun | xv6-merge/xv6/script.c:1221-1226 | `atoi` reads exactly the leading run of digits |
| CInt.IntLiteralTest | xv6-merge/xv6/script.c:1221 | The number test (a nonzero `atoi`, or a leading '0') holds exactly when the text starts with a digit |
| CInt.ItoaAsWritten | xv6-merge/xv6/script.c:1367-1384 | `itoa` as written produces the empty text exactly for 0 |
| CInt.ItoaDigits | xv6-merge/xv6/script.c:1367-1384 | For a positive number `itoa` writes only digits, and the first digit is not 0 |
| CInt.AtoiItoa | xv6-merge/xv6/script.c:1367-1384 | `atoi` reads back every positive number `itoa` writes |
| CInt.ItoaAsWrittenLoses | xv6-merge/xv6/script.c:1367-1384 | `itoa` writes nothing for 0 and writes `/.` for -12, which reads back as 0 |
| CInt.NegativeLeadsBelowZero | xv6-merge/xv6/script.c:1367-1384 | For a negative number, `itoa` as written starts with a character below '0' |
| CInt.ItoaAsWrittenReadBack | xv6-merge/xv6/script.c:1367-1384 | `atoi` reads back from `itoa` as written the number itself when it is positive, and 0 for zero and every negative number |
| CInt.Itoa | xv6-merge/xv6/script.c:1367-1384 | The intended `itoa` agrees with the code on positive numbers and never writes empty text |
| CInt.ItoaRoundTrip | xv6-merge/xv6/script.c:1367-1384 | Every number reads back from the intended `itoa`, whose text is an optional '-' followed by digits |
| Text.StrcatN | xv6-merge/xv6/script.c:152-164 | `strcat_n` appends the first `len` characters when `len` is positive and the result fits the 32-byte buffer; otherwise the destination is unchanged; the result always fits |
| Text.StrcmpN | xv6-merge/xv6/script.c:167-178 | `strcmp_n` answers -1, 0 or 1 |
| Text.HasPrefixIff | xv6-merge/xv6/script.c:167-178 | `strcmp_n(line, kw, len(kw)) == 0` exactly when `kw` is a prefix of the line |
| Text.StrcmpZeroIff | xv6-merge/xv6/script.c:737 | `strcmp` gives 0 exactly for equal texts |
| Text.StrcmpAntisymmetric | xv6-merge/xv6/script.c:1704-1715 | Swapping the operands of `strcmp` negates its answer |
| Text.IsFunctionIff | xv6-merge/xv6/script.c:350-369 | A text is call-shaped exactly when it is non-empty, does not start with a parenthesis, and has a '(' after its first character followed later by a ')' |
| Text.NoCloseNotFunction | xv6-merge/xv6/script.c:350-369 | A text without ')' is never call-shaped |
| Text.CallIsNotVariable | xv6-merge/xv6/script.c:371-384 | A call-shaped text without '=' is never a declaration list |
| Split.SplitPieces | xv6-merge/xv6/script.c:181-217 | `split` gives non-empty pieces, each made of the input's characters, which spell the input with exactly its unquoted delimiters removed |
| Split.SplitAvoids | xv6-merge/xv6/script.c:181-217 | A character absent from the input is absent from every piece |
| Split.SplitWithoutDelimiter | xv6-merge/xv6/script.c:181-217 | A text without the delimiter is one piece, or none when it is empty |
| Split.SplitFirst | xv6-merge/xv6/script.c:181-217 | A quote-free, non-empty first piece ended by the delimiter is split off as the first piece, and the rest is split on its own |
| Split.SplitLoop | xv6-merge/xv6/script.c:181-217 | The loop of `split` produces the reference pieces and returns their number |
| Clean.RemoveSpacesKeepsText | xv6-merge/xv6/script.c:230-275 | `remove_spaces` removes only blanks and tabs, removes every tab, and keeps every other character in order |
| Clean.RemoveSemicolon | xv6-merge/xv6/script.c:277-299 | `remove_semicolon` leaves a `for` header alone and cuts any other line just before its first unquoted ';' |
| Clean.CleanLine | xv6-merge/xv6/script.c:1401-1406 | A cleaned line is never longer than the line and never starts with `//` |
| Clean.CleanLineShape | xv6-merge/xv6/script.c:1401-1406 | A cleaned line is empty or a prefix of `RemoveSpaces(line)`, the line with its blanks and tabs removed, and it has no tab |
| Clean.CommentBlanked | xv6-merge/xv6/script.c:1405-1406 | A line starting with `//` is blanked |
| Clean.CleanText | xv6-merge/xv6/script.c:1399-1407 | Cleaning keeps one line per line, each cleaned on its own |
| Literals.CharValue | xv6-merge/xv6/script.c:386-419 | A non-NUL character comes from a three-character literal or a four-character escape |
| Literals.StringValue | xv6-merge/xv6/script.c:421-445 | A decoded text literal has no NUL |
| Literals.LetterRoundTrip | xv6-merge/xv6/script.c:386-419 | Each escape letter decodes back to the character it stands for |
| Literals.CharLiteralRoundTrip | xv6-merge/xv6/script.c:386-419 | `get_char_value` reads back the literal of every non-NUL character |
| Literals.DecodeEscaped | xv6-merge/xv6/script.c:421-445 | Decoding the escaped form of a text gives the text back |
| Literals.TextLiteralRoundTrip | xv6-merge/xv6/script.c:421-445 | `get_string_value` reads back the quoted, escaped form of every NUL-free text |
| Literals.DecodePlain | xv6-merge/xv6/script.c:421-445 | A text without backslashes decodes to itself |
| IncDec.UnchangedIff | xv6-merge/xv6/script.c:1182-1212 | `convert_inc_dec` leaves a text alone exactly when neither its first '+' nor its first '-' is doubled |
| IncDec.FirstDoubledIff | xv6-merge/xv6/script.c:1182-1212 | The test at the first '+' (or '-') succeeds exactly when that operator is doubled somewhere with no single one before it |
| IncDec.RewriteFits | xv6-merge/xv6/script.c:1182-1212 | When the buffer has room, `x++` becomes `x=x+1` and `x--` becomes `x=x-1` |
| IncDec.RewritesShortTargets | xv6-merge/xv6/script.c:1182-1212 | For targets of at most 14 characters without '+' or '-', `x++` and `x--` become `x=x+1` and `x=x-1` |
| IncDec.Idempotent | xv6-merge/xv6/script.c:1182-1212 | When the target of a `++` holds no '-', rewriting a rewritten line changes nothing |
| Values.ZeroOf | xv6-merge/xv6/script.c:461-468 | A declared variable starts with a value of its own type |
| Values.GetVar | xv6-merge/xv6/script.c:1214-1300 | `get_var` reads a name from the first local, else the first global, else fails; a digit gives an INT, a quote a CHAR and a double quote a STRING |
| Values.GetVarShadowing | xv6-merge/xv6/script.c:1245-1259 | A local hides every global of its name, and the first local of a name wins |
| Values.GetVarLiterals | xv6-merge/xv6/script.c:1221-1244 | `get_var` reads back the literal forms of positive numbers, characters and texts |
| Values.Coerce | xv6-merge/xv6/script.c:1337-1364 | Assignment is allowed exactly by the type table of `set_var`: the variable keeps its type, a CHAR widens into an INT, an INT narrows into a CHAR, and a number or character becomes text. Text made from an INT is what `itoa` as written produces: empty exactly for 0, reading back as the number when it is positive and as 0 otherwise |
| Values.SetVar | xv6-merge/xv6/script.c:1302-1365 | `set_var` fails on an undeclared name; otherwise it updates the last local of that name, else the last global, and nothing else |
| Values.SetThenGet | xv6-merge/xv6/script.c:1214-1365 | In tables without duplicates, reading a variable just assigned gives the converted value |
| Values.Table | xv6-merge/xv6/script.c:551-554 | The part of a table in use ends before the first empty name |
| Values.KeepLastSpec | xv6-merge/xv6/script.c:555-572 | Duplicate removal keeps exactly the last entry of each name: the result has no duplicates, every entry is the last of its name, and every last entry survives |
| Values.KeepLastNames | xv6-merge/xv6/script.c:555-572 | Every name in the table is still declared after duplicate removal |
| Values.KeepLastOrder | xv6-merge/xv6/script.c:564-572 | Duplicate removal keeps the entries in their original order |
| Values.KeepLastUnique | xv6-merge/xv6/script.c:555-572 | After duplicate removal no name occurs twice |
| Values.KeepLastDistinct | xv6-merge/xv6/script.c:549-581 | A table without duplicates is left unchanged |
| Values.DedupSpec | xv6-merge/xv6/script.c:549-581 | `remove_duplicate_variables` keeps the last entry of each name in the table in use, and every name in use survives |
| Values.DedupIdempotent | xv6-merge/xv6/script.c:549-581 | Removing duplicates twice is the same as once |
| Expr.OperatorOf | xv6-merge/xv6/script.c:1155-1179 | An expression has no operator exactly when it has none of `+ - * /`; `+` is tried first, then `-`, `*` and `/` |
| Expr.Arith | xv6-merge/xv6/script.c:1099-1144 | Arithmetic fails exactly on division by zero; division truncates |
| Expr.Combine | xv6-merge/xv6/script.c:991-1145 | The result of `calculate` has the type its table gives. Numbers combine exactly, and a CHAR result keeps the low byte. It fails exactly on division by zero and on an INT result outside 32 bits. `+` with text concatenates the operands as shown when they fit in the buffer, where an INT is shown as `itoa` as written shows it |
| Expr.CombineAppendsNumber | xv6-merge/xv6/script.c:1043-1052 | Text plus a non-negative INT appends what `itoa` writes, which reads back as the number; text plus 0 is the text unchanged |
| Expr.Calculate | xv6-merge/xv6/script.c:991-998 | `calculate` splits at its operator; a missing second operand is an error, and otherwise it fails with the first operand's error, else the second's, else combines the two values |
| Expr.CalculateFirstTwo | xv6-merge/xv6/script.c:995-998 | Only the first two pieces of an expression matter |
| Expr.Expression | xv6-merge/xv6/script.c:1147-1180 | An expression without an operator is `get_var` of its text |
| Expr.ExpressionParse | xv6-merge/xv6/script.c:1147-1180 | For `a op b` followed by nothing or by more of the same operator, with operands free of operators and quotes, the expression fails with the error of `a`, else of `b`, else combines their values |
| Expr.FirstTwoOperands | xv6-merge/xv6/script.c:1147-1180 | `1+2+3` evaluates to 3: the text after the second `+` is ignored |
| Expr.CompareAsWritten | xv6-merge/xv6/script.c:1675-1723 | As written, a comparison succeeds only for a number against an INT or for two texts; a right INT that fits in a signed char compares by value |
| Expr.LowByteQuirk | xv6-merge/xv6/script.c:1685-1688 | As written, `1<256` is false while `256>1` is true, and `1==257` is true |
| Expr.Compare | xv6-merge/xv6/script.c:1675-1723 | The intended comparison succeeds exactly for two numbers or two texts |
| Expr.CompareAgrees | xv6-merge/xv6/script.c:1677-1700 | Where the code reads the right operand correctly, the intended comparison agrees with it |
| Expr.CompareNumbers | xv6-merge/xv6/script.c:1689-1700 | Numbers compare by value: `a<b` exactly when `b>a`, and `==`/`!=` are equality and inequality |
| Expr.CompareTextsEqual | xv6-merge/xv6/script.c:1712-1715 | On texts, `==` and `!=` are equality and inequality |
| Expr.CompareTextsSwap | xv6-merge/xv6/script.c:1704-1711 | Swapping two texts swaps `<` with `>` and `<=` with `>=` |
| Expr.CompareAt | xv6-merge/xv6/script.c:1645-1646 | A condition is cut at its first comparison character |
| Expr.ConditionSplit | xv6-merge/xv6/script.c:1645-1655 | `a op b` is cut into `a`, `op` and `b` |
| Expr.ConditionParse | xv6-merge/xv6/script.c:1640-1659 | A condition `a op b` fails with the first operand's error, else the second's, else compares them as `calculate_condition` does as written |
| Expr.Condition | xv6-merge/xv6/script.c:1640-1673 | A condition without a comparison character is the truth of its one operand, failing with that operand's error; one with a comparison succeeds only when its left operand has a value |
| Registry.DeclKeyword | xv6-merge/xv6/script.c:451 | A declaration starts with `int `, `char ` or `string ` followed by a variable list; its type is never VOID |
| Registry.DeclOf | xv6-merge/xv6/script.c:458-468 | A piece without '=' declares exactly that name with no initialiser |
| Registry.DeclsOfPlain | xv6-merge/xv6/script.c:453-480 | Pieces without '=' declare exactly those names, in order, with no initialisers |
| Registry.DeclarationsPlain | xv6-merge/xv6/script.c:447-547 | In a declaration without '=', the declared names spell the rest of the line without its commas, and none is initialised |
| Registry.FinishFromSpec | xv6-merge/xv6/script.c:696-716 | From any point of the scan, `get_fun_finish` stops at the first line where a brace has been seen and the braces balance, or else at the last line |
| Registry.FunFinishSpec | xv6-merge/xv6/script.c:696-716 | A body ends at the first line after its header where a brace has been seen and the braces balance, or else at the last line |
| Registry.HeaderKeyword | xv6-merge/xv6/script.c:603-694 | A header is a type keyword followed by a call-shaped text |
| Registry.AddParams | xv6-merge/xv6/script.c:453-476 | The parameters of one declaration are appended after those already read, one per declared name |
| Registry.AddParamsFails | xv6-merge/xv6/script.c:458-476 | A declaration's parameters are accepted exactly when they fit in the eight slots and none has an initialiser; an initialiser that fits is reported as such, and an overflow without one as too many variables |
| Registry.AddParamsSpec | xv6-merge/xv6/script.c:461-468 | The accepted parameters are `Param(t, name)` for each declared name, in order, after those already read |
| Registry.ParamsOf | xv6-merge/xv6/script.c:677-678 | A parameter list keeps the parameters already read and has at most eight |
| Registry.ParamsOfFails | xv6-merge/xv6/script.c:672-678 | The parameter list fails exactly when its pieces declare more than eight parameters in all or some piece has an initialiser |
| Registry.ParamsOfSpec | xv6-merge/xv6/script.c:672-683 | The parameter list is the parameters the pieces declare, in order, after those already read |
| Registry.HeaderFunction | xv6-merge/xv6/script.c:603-694 | A line gives a function exactly when it is a header; the function starts at that line and has at most eight parameters |
| Registry.NameText | xv6-merge/xv6/script.c:612-621 | The name of a header is the text from the end of its keyword up to the first '(', and holds no '(' |
| Registry.ParamText | xv6-merge/xv6/script.c:615-619 | The parameter list of a header is the text between the first '(' and the next ')', and holds no ')' |
| Registry.HeaderFunctionSpec | xv6-merge/xv6/script.c:603-694 | A header `T name(list)` registers `name` with return type `T`, exactly the parameters the list declares, its own line as start and the end of its body; it fails exactly when the list declares a ninth parameter or an initialiser |
| Registry.FunctionsFrom | xv6-merge/xv6/script.c:603-694 | The loop registers at most four functions, each taken from its own header line |
| Registry.FunctionsFromComplete | xv6-merge/xv6/script.c:603-694 | The loop registers every header line, in order of the script |
| Registry.FindFunctions | xv6-merge/xv6/script.c:603-694 | `find_functions` registers at most four functions with at most eight parameters each, each at a header line |
| Registry.FindFunctionsComplete | xv6-merge/xv6/script.c:603-694 | The registered functions are exactly the header lines, in order |
| Registry.AddGlobals | xv6-merge/xv6/script.c:583-601 | Each declared global is appended with the zero of its type; a ninth global or an initialiser is an error |
| Registry.GlobalsFrom | xv6-merge/xv6/script.c:594-599 | The globals collected keep the earlier ones and number at most eight |
| Registry.DeclaredGlobalsLines | xv6-merge/xv6/script.c:593-598 | A variable is among the reference globals from line i on exactly when one of the lines from i on contributes it |
| Registry.DeclaredGlobalsAre | xv6-merge/xv6/script.c:583-601 | The reference globals are exactly the variables, at the zero of their type, that a line outside every function declares |
| Registry.GlobalsFromFails | xv6-merge/xv6/script.c:594-599 | The collection fails exactly when the lines outside every function declare a ninth global or a global with an initialiser |
| Registry.GlobalsFromSpec | xv6-merge/xv6/script.c:594-599 | The globals collected are the reference globals, in the order of the script, after those already collected |
| Registry.FindGlobalVars | xv6-merge/xv6/script.c:583-601 | `find_global_vars` gives at most eight globals with distinct names |
| Registry.FindGlobalVarsSpec | xv6-merge/xv6/script.c:583-601 | Each global is a variable, at the zero of its type, declared on a line outside every function, and is the last declaration of its name; every name so declared is a global; the collection fails exactly on a ninth global or an initialiser |
| Blocks.LineAt | xv6-merge/xv6/script.c:884-888 | A line can be read exactly when it lies within the script and the 40-line table; otherwise the read is of a NULL line |
| Blocks.ScanFrom | xv6-merge/xv6/script.c:1418-1429 | The block scan stops, if at all, at a line of the script inside the 40-line table |
| Blocks.ScanClose | xv6-merge/xv6/script.c:1418-1429 | The closing line found lies at or after the start, inside the table |
| Blocks.ScanFromSpec | xv6-merge/xv6/script.c:1418-1432 | From any point, the scan finds the first line at which the braces balance. It gives nothing when they stay open to line 40, and fails when the script ends first |
| Blocks.ScanCloseSpec | xv6-merge/xv6/script.c:1418-1432 | The block scan finds the first line at which the braces opened after the header balance. It gives nothing when they stay open to line 40, and fails when the script ends first |
| Blocks.ScanCloseLayout | xv6-merge/xv6/script.c:1418-1432 | With `{` on the line after the header, `}` on a later line and plain lines between, the scan finds that `}` |
| Blocks.Seek | xv6-merge/xv6/script.c:1439-1447 | The bounded search loop stops at the first position holding the character, or at 32 |
| Blocks.SeekAt | xv6-merge/xv6/script.c:1439-1447 | The search stops exactly at the first occurrence within the buffer |
| Blocks.CondText | xv6-merge/xv6/script.c:1438-1448 | The condition text fits the buffer |
| Blocks.CondTextOf | xv6-merge/xv6/script.c:1438-1448 | The condition of `kw(c)…` is `c` when `c` has no ')' |
| Blocks.GetIfBlock | xv6-merge/xv6/script.c:1416-1450 | An `if` body starts two lines after its header |
| Blocks.GetIfBlockSpec | xv6-merge/xv6/script.c:1416-1450 | An `if` body ends just before the line at which the braces first balance, and its condition is the header's |
| Blocks.GetIfElseBlock | xv6-merge/xv6/script.c:1452-1509 | The `else` body starts four lines after the end of the `if` body; an `if` body closing at line 37 or later, or not followed by `else`, gives no block |
| Blocks.ScanCloseFinds | xv6-merge/xv6/script.c:1418-1432 | The block scan finds the closing line of a block whenever it lies within the table |
| Blocks.GetIfElseBlockFinds | xv6-merge/xv6/script.c:1452-1509 | Conversely, an `if` body closing before line 37, an `else` line after it, and an `else` body closing within the table make exactly that block |
| Blocks.GetIfElseBlockOf | xv6-merge/xv6/script.c:1452-1509 | The same, stated with the scan results for the two bodies |
| Blocks.ElseBodyOf | xv6-merge/xv6/script.c:1467-1493 | After an `else` line, the `else` body closes where the scan after it stops |
| Blocks.GetIfBlockOnly | xv6-merge/xv6/script.c:1416-1467 | A body closing too late for an `else`, or not followed by one, gives no `if`-`else` block and the `if` block that ends before it |
| Blocks.ElseBody | xv6-merge/xv6/script.c:1467-1491 | An `else` body is found only when the line after the `if` body is `else` and the braces after it balance at the line reported |
| Blocks.GetIfElseBlockSpec | xv6-merge/xv6/script.c:1452-1509 | Each body of an `if`-`else` closes where its braces first balance, and the line between them is `else` |
| Blocks.ForHeader | xv6-merge/xv6/script.c:1514-1534 | A `for` header has clauses exactly when its four delimiters are found within the buffer |
| Blocks.ForPositionsAt | xv6-merge/xv6/script.c:1514-1525 | The four search loops stop at the first '(', the next ';', the next ';' and the next ')' |
| Blocks.ForClausesAt | xv6-merge/xv6/script.c:1514-1532 | The clauses are the texts between those delimiters |
| Blocks.ForHeaderAt | xv6-merge/xv6/script.c:1514-1534 | The initial and back clauses have `++` and `--` rewritten; the condition is kept |
| Blocks.GetForBlock | xv6-merge/xv6/script.c:1511-1556 | A line without all four `for` delimiters is no `for` block; a `for` block carries its header's clauses, and its body starts two lines after the header |
| Blocks.GetForBlockSpec | xv6-merge/xv6/script.c:1536-1554 | The body of a `for` block ends on the line before the one at which the braces after the header first balance |
| Blocks.GetForBlockFinds | xv6-merge/xv6/script.c:1511-1556 | Conversely, a complete `for` header whose braces balance within the line table is found as the block between the header and that line |
| Blocks.SpansReachClose | xv6-merge/xv6/script.c:1558-1638 | The line count a block reports moves execution to the line after its closing brace |
| Engine.ScopeOf | xv6-merge/xv6/script.c:1251-1272 | Variables can be read exactly when a frame is running: those of the running frame, then the globals |
| Values.SetVarShape | xv6-merge/xv6/script.c:1302-1365 | Assignment keeps the names and types of both tables |
| Engine.FindFunction | xv6-merge/xv6/script.c:734-743 | The function called is the first whose name compares equal |
| Engine.Argument | xv6-merge/xv6/script.c:752-826 | An argument starting with a digit is the INT its leading digits spell, and fails only outside 32 bits; one between single quotes is the character literal's value, one between double quotes the text literal's; an accepted argument is never VOID |
| Engine.ArgumentAgrees | xv6-merge/xv6/script.c:752-803 | An argument without an operator has the value the same text has as an operand, fails with the same error, and is refused when that value is VOID |
| Engine.ArgumentLeadingNumber | xv6-merge/xv6/script.c:754-765 | An argument starting with a number is that number: `1+2` passes 1 where the expression `1+2` is 3 |
| Engine.BindArgs | xv6-merge/xv6/script.c:750-830 | Binding succeeds exactly when there are no more arguments than parameters and every argument has a value of its parameter's type; argument `k` becomes a variable with parameter `k`'s name and the argument's value |
| Engine.ArgText | xv6-merge/xv6/script.c:718-748 | The argument text of a call lies between its first '(' and the next ')', and holds no ')' |
| Engine.CallArgs | xv6-merge/xv6/script.c:746-750 | The arguments are non-empty pieces without ')' that spell the argument text without its unquoted commas |
| Engine.PushFunction | xv6-merge/xv6/script.c:718-834 | A call pushes one frame and changes nothing else. The frame runs the function named before '(' from two lines after its header. A ninth frame is an error |
| Engine.PushFunctionSpec | xv6-merge/xv6/script.c:718-834 | A call without a name, or naming no registered function, is an error; with room on the stack it succeeds exactly when the arguments bind, and the new frame runs the first function of that name with the bound arguments as its variables |
| Engine.ArgumentsAreNotCalls | xv6-merge/xv6/script.c:746-750 | No argument of a call is itself call-shaped |
| Engine.Eval | xv6-merge/xv6/script.c:1147-1180 | Evaluation leaves the caller's stack, registry and the names and types of the globals as they were; without a call it changes nothing and gives the value of the call-free expression |
| Engine.Call | xv6-merge/xv6/script.c:1149-1153 | A call returns to exactly the caller's stack |
| Engine.RunFunction | xv6-merge/xv6/script.c:843-882 | A function returns a value of its declared type and pops exactly its own frame |
| Engine.RunLines | xv6-merge/xv6/script.c:849-866 | Running the lines of a body keeps the frames below, the running function, the registry and the globals' shape, and only adds to the trace |
| Engine.RunLine | xv6-merge/xv6/script.c:884-989 | Each statement takes up at least one line and keeps the frames below, the running function, the registry and the globals' shape |
| Engine.ReturnLine | xv6-merge/xv6/script.c:889-895 | A `return` line takes up one line, hands back exactly the value the text after `return ` evaluates to, and keeps the frames below, the running function, the registry and the globals' shape |
| Engine.SystemLine | xv6-merge/xv6/script.c:896-913 | A `system(...)` line takes up one line, returns nothing, and passes exactly one more command to the shell, after any the evaluation issued; that command is the string the text between the parentheses evaluates to |
| Engine.PlainLine | xv6-merge/xv6/script.c:914-988 | A line that is neither `return` nor `system` is a declaration or a statement, takes up at least one line and keeps the running frame's function |
| Engine.IfStatement | xv6-merge/xv6/script.c:924-947 | An `if` header takes up at least one line and keeps the frames below, the running function and the registry |
| Engine.IfStatementWithElse | xv6-merge/xv6/script.c:924-932 | An `if` header whose body closes before line 37, followed by an `else` line and a second body that closes within the table, runs as that `if`-`else` block (tried first) |
| Engine.IfStatementWithoutElse | xv6-merge/xv6/script.c:924-941 | An `if` header whose body closes too late for an `else`, or is not followed by one, runs as a plain `if` block |
| Engine.Simple | xv6-merge/xv6/script.c:963-988 | An assignment or a call statement takes up exactly one line, returns nothing, and keeps the names and types of the running frame's variables |
| Engine.Rewritten | xv6-merge/xv6/script.c:966-988 | A rewritten line that completes takes up one line, returns nothing and keeps the names and types of the running frame's variables |
| Engine.SplitAssignment | xv6-merge/xv6/script.c:968-969 | `n=e`, with a quote-free name and no other '=', splits at '=' into exactly `[n, e]` |
| Engine.RewrittenAssigns | xv6-merge/xv6/script.c:968-988 | A rewritten line `n=e` runs exactly as the assignment of `e` to `n` |
| Engine.RewrittenCall | xv6-merge/xv6/script.c:968-983 | A rewritten line without '=' runs exactly as a call when it is call-shaped, and fails as an unknown line otherwise |
| Engine.DeclareLine | xv6-merge/xv6/script.c:914-922 | A line reports no declarations exactly when it declares nothing |
| Engine.Declare | xv6-merge/xv6/script.c:447-547 | Declaring variables keeps the frames below, the running function and the array bounds; nothing to declare changes nothing; a full frame makes any declaration fail |
| Engine.DeclarePlain | xv6-merge/xv6/script.c:447-546 | Declarations without initialisers that fit append each name, at the zero of the type, to the running frame in order |
| Engine.DeclareInitialised | xv6-merge/xv6/script.c:447-546 | A declaration `t n = e` with a call-free `e` appends `n` and then gives it the value of `e`, converted to `t` |
| Engine.Store | xv6-merge/xv6/script.c:985-988 | `set_var` on the running frame and the globals succeeds exactly when `set_var` on those tables does, stores exactly its result, and keeps the names and types of the variables |
| Engine.Assign | xv6-merge/xv6/script.c:985-988 | An assignment keeps the frames below, the running function, and the names and types of the variables |
| Engine.AssignPlain | xv6-merge/xv6/script.c:985-988 | Assigning a call-free expression stores its value as `set_var` does and changes neither the script nor the shell trace |
| Engine.Statement | xv6-merge/xv6/script.c:923-988 | `if`, `for`, assignment and call statements take up at least one line and keep the running frame's function |
| Engine.RunIf | xv6-merge/xv6/script.c:1558-1572 | An `if` block reports its span; it completes only when its condition evaluates, and when the condition is false it changes nothing and returns nothing |
| Engine.IfTrueBranch | xv6-merge/xv6/script.c:1558-1569 | When its condition holds, an `if` block runs exactly its body lines, and reports their outcome, state, `return` value and error |
| Engine.RunIfElse | xv6-merge/xv6/script.c:1574-1600 | An `if`-`else` block reports the span of both bodies and completes only when its condition evaluates |
| Engine.IfElseTrueBranch | xv6-merge/xv6/script.c:1574-1600 | When its condition holds, an `if`-`else` block runs its `if` body exactly as an `if` block with that condition and body would |
| Engine.IfElseFalseBranch | xv6-merge/xv6/script.c:1586-1600 | When its condition fails, an `if`-`else` block runs exactly its `else` body |
| Engine.Clause | xv6-merge/xv6/script.c:1604-1611 | A `for` clause that completes keeps the frames below, the running function and the registry |
| Engine.ClauseWithoutAssignment | xv6-merge/xv6/script.c:1604-1611 | A clause without '=' leaves the state as it is |
| Engine.ClauseAssigns | xv6-merge/xv6/script.c:1604-1609 | A clause `n=e` is exactly the assignment of `e` to `n` |
| Engine.RunFor | xv6-merge/xv6/script.c:1602-1638 | A `for` block reports its span; it is the loop run after the initial clause (or that clause's failure), and unless a `return` ends it, it stops where the condition is false |
| Engine.ForLoop | xv6-merge/xv6/script.c:1614-1636 | The loop of a `for` block reports its span; unless a `return` in the body ends it, it stops in a state where its condition is false |
| Engine.CommentSkipped | xv6-merge/xv6/script.c:1405-1406 | A comment line is stepped over without changing anything |
| Engine.MainName | xv6-merge/xv6/script.c:839 | The initial call names `main` |
| Engine.PushSound | xv6-merge/xv6/script.c:744-832 | A new frame holds no more variables than the fixed table allows |
| Engine.Start | xv6-merge/xv6/script.c:1397-1412 | Set-up gives one frame, running `main`, within the array bounds |
| Engine.ProcessText | xv6-merge/xv6/script.c:1397-1414 | A finished run has popped every frame, stays within the array bounds, and returns a value of `main`'s declared type |

## Left out

- Reading the script file (`read_script`) and `main`'s argument handling are
  I/O. The model starts from the lines as a sequence.
- `run_command` forks and execs a shell command. The model appends the
  command to the state's trace instead.
- `printf` messages and `exit()` are not modelled. An error path is a `Fail`
  carrying the matching `Error`.
- Memory management is not modelled: `malloc`, `free`, `free_split` and the
  `value` pointers of `Var`. `Frame.return_var` is not modelled either, since
  the code never reads it.
- Undefined behaviour is a definite error, not whatever the C program happens
  to do. Cases:
  - an empty operand (`EmptyOperand`);
  - division by zero (`DivByZero`, Expr.Arith);
  - an INT literal, argument or result outside 32 bits (`Overflow`, in
    Values.GetVar, Engine.Argument and Expr.Combine);
  - the CHAR right operand of a comparison (`CharRightOperand`);
  - a fifth function (`TooManyFunctions`, `fun_list` has four entries);
  - a ninth variable, global or stack frame;
  - a global or parameter with an initialiser;
  - reading a line past the end of the script or past the 40-line table.
- The 24-byte name buffers are not modelled: a name, a split piece or a
  condition operand longer than 23 characters overruns its buffer in the C
  program (`Var.name`, `Function.name`, `str_left` and `str_right` of
  `get_condition_result`, the pieces of `split`). The model keeps the whole
  text instead of failing.
- More than eight arguments in a call, or eight pieces in `split_param`,
  overrun the C array. The model binds them against the parameters and
  reports a type error for the first argument without a parameter.
- A function that ends without `return` fails with `MissingReturn`. The C
  program reads an uninitialised return value there. So a `void` function
  cannot be called successfully in the model.
- A variable declared with an initialiser that reads the variable itself sees
  the zero of its type. In the C program an INT or CHAR is uninitialised at
  that point.
- Evaluating with an empty call stack fails with `NoFrame`. In the C program
  that reads frame -1. `ProcessText` never does this.
- Engine.ProcessText: the run is bounded by fuel. A script that loops forever,
  or runs longer than the fuel allows, ends in `OutOfFuel`.
- Engine.FindFunction: two functions with the same name are not rejected; the
  first one wins, as in the code.
- Engine.Statement: a call followed by more text (`f(1)+2`) is evaluated as the
  call alone, as the code does. This contract does not describe that.
- Engine.DeclareLine: duplicate removal in the running frame happens on every
  statement, as in the code. The contract states only the preserved
  structure, not the deduplicated contents.
- IncDec.Idempotent: the rewrite is idempotent only when the target of a
  `++` holds no '-'. A line such as `a--b++` is rewritten again on a second
  pass, so the lemma requires that case away.
- Engine.Simple: the contract does not say that the script line is replaced
  by its rewritten form, because a call made by the line may rewrite lines
  of its own body.
- Engine.RunIfElse: its own contract states the span and that the condition
  evaluates. Which body runs is stated by Engine.IfElseTrueBranch and
  Engine.IfElseFalseBranch.
- Expr.Expression: its own contract covers only text without an operator.
  The `a op b` case is stated by Expr.ExpressionParse.
- Registry.AddParams: its own contract states the count and the prefix. The
  `(type, name)` pairs are stated by Registry.AddParamsSpec, and the
  initialiser error by Registry.AddParamsFails.
- Registry.ParamsOf: its own contract states sizes only. The parameters are
  stated by Registry.ParamsOfSpec, and the failures by Registry.ParamsOfFails.
- Registry.HeaderFunction: its own contract states the start line and the
  parameter bound. The name, return type, parameters and end line are stated
  by Registry.HeaderFunctionSpec.
- Registry.GlobalsFrom: its own contract states sizes and the prefix. What it
  collects is stated by Registry.GlobalsFromSpec and Registry.GlobalsFromFails.
- Registry.FindGlobalVars: its own contract states distinct names and the
  bound. Which globals it gives is stated by Registry.FindGlobalVarsSpec.
- Engine.PushFunction: its own contract states the new frame's function and
  bound. The bound arguments and the choice of function are stated by
  Engine.PushFunctionSpec.
- Characters are Dafny `char` values. Only their low byte matters where the C
  code reads a `char` as a number. Multi-byte encodings are not modelled.

## Findings

| source | as written | input that shows it | evidently intended | confidence | as-written member | corrected member |
|---|---|---|---|---|---|---|
| xv6-merge/xv6/script.c:1367-1384 | `itoa` loops while `n != 0` and adds `'0'` to the C remainder | 0 formats as empty text, so `string s=0` leaves `s` empty; -12 formats as `/.`, which reads back as 0 (CInt.ItoaAsWrittenLoses) | "0" for zero and a leading '-' for a negative number, so every number reads back (CInt.ItoaRoundTrip) | high, not executed | CInt.ItoaAsWritten | CInt.Itoa |
| xv6-merge/xv6/script.c:1685-1688 | the right operand of a numeric comparison is read through `int *` when it is a CHAR and through `char *` when it is an INT | `1<256` is false and `1==257` is true (Expr.LowByteQuirk) | each operand read by its own type, so numbers compare by value (Expr.CompareNumbers) | high, not executed | Expr.CompareAsWritten | Expr.Compare |

The interpreter follows the code as written: text made from an INT uses
`ItoaAsWritten` (Values.Coerce, Expr.Combine), and conditions use
`CompareAsWritten` (Expr.Condition). The corrected definitions stand beside
them, with the intended properties proved. On positive numbers `Itoa` is the
code's `itoa`, and `Compare` agrees with the code wherever the code reads the
right operand correctly (Expr.CompareAgrees).

=== FILE: blocks.dfy ===
/**
  The block headers of a body: `if (c)`, `if (c) … else …` and
  `for (init; c; back)`, each followed by a braced body. A block is found by
  scanning for the line at which the braces opened after the header balance
  again (`get_if_block`, `get_if_else_block`, `get_for_block`).
 */
module Blocks {
  import opened Text
  import opened Values
  import opened Registry
  import opened IncDec

  datatype IfBlock = IfBlock(start: int, end: int, condition: string)

  datatype IfElseBlock = IfElseBlock(ifStart: int, ifEnd: int, elseStart: int, elseEnd: int, condition: string)

  datatype ForBlock = ForBlock(start: int, end: int, init: string, condition: string, back: string)

  /** A line of the script: past the last line the table holds NULL, and past
      its 40 entries there is no table at all. */
  function LineAt(text: seq<string>, i: int): (r: Result<string>)
    ensures r.Ok? <==> 0 <= i < |text| && i < MaxLines
    ensures r.Ok? ==> r.value == text[i]
    ensures r.Fatal? ==> r.err == NullLine
  {
    if 0 <= i < |text| && i < MaxLines then Ok(text[i]) else Fatal(NullLine)
  }

  /** The brace loop shared by the three block readers, from line `i` with the
      running count: stop at the first line after which the count is not
      positive, or give up at the end of the table. */
  function ScanFrom(text: seq<string>, i: nat, count: int): (r: Result<Option<nat>>)
    ensures r.Ok? && r.value.Some? ==> i <= r.value.value < |text| && r.value.value < MaxLines
    decreases MaxLines - i
  {
    match LineAt(text, i)
    case Fatal(e) => Fatal(e)
    case Ok(line) =>
      var c := count + (if Opens(line) then 1 else 0) - (if Closes(line) then 1 else 0);
      if c > 0 then
        if i + 1 < MaxLines then ScanFrom(text, i + 1, c) else Ok(None)
      else Ok(Some(i))
  }

  /** The line closing the block that opens at `from`. */
  function ScanClose(text: seq<string>, from: nat): (r: Result<Option<nat>>)
    ensures r.Ok? && r.value.Some? ==> from <= r.value.value < |text| && r.value.value < MaxLines
  {
    ScanFrom(text, from, 0)
  }

  /** The braces of `text[from..j+1]` are still open. */
  predicate OpenAfter(text: seq<string>, from: nat, j: nat)
    requires from <= j < |text|
  {
    Depth(text, from, j + 1) > 0
  }

  /** Line `k` closes the block opened at `from`: the braces balance there and
      not before. */
  predicate ClosesAt(text: seq<string>, from: nat, k: nat) {
    && from <= k < |text|
    && !OpenAfter(text, from, k)
    && forall j :: from <= j < k ==> OpenAfter(text, from, j)
  }

  lemma {:induction false} ScanFromSpec(text: seq<string>, from: nat, i: nat)
    requires from <= i <= |text|
    requires forall j :: from <= j < i ==> OpenAfter(text, from, j)
    requires i < MaxLines
    ensures var r := ScanFrom(text, i, Depth(text, from, i));
      && (r.Ok? && r.value.Some? ==> ClosesAt(text, from, r.value.value))
      && (r.Ok? && r.value.None? ==>
            MaxLines <= |text| && forall j :: from <= j < MaxLines ==> OpenAfter(text, from, j))
      && (r.Fatal? ==>
            r.err == NullLine && |text| < MaxLines && forall j :: from <= j < |text| ==> OpenAfter(text, from, j))
    decreases MaxLines - i
  {
    if i < |text| {
      var line := text[i];
      var c := Depth(text, from, i) + (if Opens(line) then 1 else 0) - (if Closes(line) then 1 else 0);
      assert c == Depth(text, from, i + 1);
      if c > 0 && i + 1 < MaxLines {
        assert OpenAfter(text, from, i);
        ScanFromSpec(text, from, i + 1);
      }
    }
  }

  /** `ScanClose` finds the first line at which the braces opened from `from`
      balance, gives nothing when they are still open at the end of the
      40-line table, and fails when the script ends first. */
  lemma ScanCloseSome(text: seq<string>, from: nat)
    requires from < MaxLines
    requires ScanClose(text, from).Ok? && ScanClose(text, from).value.Some?
    ensures ClosesAt(text, from, ScanClose(text, from).value.value)
  {
    ScanCloseSpec(text, from);
  }

  lemma ScanCloseSpec(text: seq<string>, from: nat)
    requires from < MaxLines
    ensures var r := ScanClose(text, from);
      && (r.Ok? && r.value.Some? ==> ClosesAt(text, from, r.value.value))
      && (r.Ok? && r.value.None? ==>
            MaxLines <= |text| && forall j :: from <= j < MaxLines ==> OpenAfter(text, from, j))
      && (r.Fatal? ==>
            r.err == NullLine && |text| < MaxLines && forall j :: from <= j < |text| ==> OpenAfter(text, from, j))
  {
    if from <= |text| {
      ScanFromSpec(text, from, from);
    }
  }

  /** Neither opens nor closes a block. */
  predicate Plain(line: string) {
    !Opens(line) && !Closes(line)
  }

  lemma {:induction false} DepthPlain(text: seq<string>, a: nat, b: nat)
    requires a <= b <= |text|
    requires forall j :: a <= j < b ==> Plain(text[j])
    ensures Depth(text, a, b) == 0
    decreases b - a
  {
    if a < b {
      DepthPlain(text, a, b - 1);
    }
  }

  /** The usual layout: an opening line, plain lines, then a closing line at
      `c` is closed at `c`. */
  lemma ScanCloseLayout(text: seq<string>, from: nat, c: nat)
    requires from < c < |text| && c < MaxLines
    requires Opens(text[from]) && Closes(text[c])
    requires forall j :: from < j < c ==> Plain(text[j])
    ensures ScanClose(text, from) == Ok(Some(c))
  {
    ScanCloseSpec(text, from);
    forall j | from <= j < c
      ensures OpenAfter(text, from, j)
    {
      DepthPlain(text, from + 1, j + 1);
      DepthSplit(text, from, from + 1, j + 1);
    }
    DepthPlain(text, from + 1, c);
    DepthSplit(text, from, from + 1, c);
    assert Depth(text, from, c + 1) == 0;
    assert !OpenAfter(text, from, c);
  }

  lemma {:induction false} DepthSplit(text: seq<string>, a: nat, m: nat, b: nat)
    requires a <= m <= b <= |text|
    ensures Depth(text, a, b) == Depth(text, a, m) + Depth(text, m, b)
    decreases b - m
  {
    if m < b {
      DepthSplit(text, a, m, b - 1);
    }
  }

  /** The C search loop `for (; i < 32 && line[i] != c; i++)` from `from`:
      the first `c` within the line buffer, or the first index past it. */
  function Seek(line: string, c: char, from: nat): (j: nat)
    ensures j >= from
    ensures from <= MaxLineLength ==> j <= MaxLineLength
    ensures j < MaxLineLength ==> At(line, j) == c
    ensures forall k :: from <= k < j ==> At(line, k) != c
    decreases MaxLineLength - from
  {
    if from >= MaxLineLength || At(line, from) == c then from
    else Seek(line, c, from + 1)
  }

  lemma {:induction false} SeekAt(line: string, c: char, from: nat, j: nat)
    requires from <= j < MaxLineLength && At(line, j) == c
    requires forall k :: from <= k < j ==> At(line, k) != c
    ensures Seek(line, c, from) == j
    decreases j - from
  {
    if from < j {
      SeekAt(line, c, from + 1, j);
    }
  }

  /** The condition of an `if` line: the text between its first '(' and the
      next ')', each position taken as 0 when it is not found in the buffer. */
  function CondText(line: string): (r: string)
    ensures |r| < MaxLineLength
  {
    var i := Seek(line, '(', 0);
    var pos1 := if i < MaxLineLength then i else 0;
    var i2 := Seek(line, ')', i);
    var pos2 := if i2 < MaxLineLength then i2 else 0;
    StrcatN([], Drop(line, pos1 + 1), pos2 - pos1 - 1)
  }

  /** `if (c) …` has condition `c` when the keyword has no '(' and `c` has
      no ')'. */
  lemma CondTextOf(kw: string, c: string, rest: string)
    requires '(' !in kw && ')' !in c && ')' !in kw
    requires |kw| + |c| + 1 < MaxLineLength
    ensures CondText(kw + "(" + c + ")" + rest) == c
  {
    var line := kw + "(" + c + ")" + rest;
    var p1 := |kw|;
    var p2 := |kw| + 1 + |c|;
    assert line[p1] == '(' && line[p2] == ')';
    forall k | 0 <= k < p1 ensures At(line, k) != '(' {
      assert line[k] == kw[k];
    }
    SeekAt(line, '(', 0, p1);
    forall k | p1 <= k < p2 ensures At(line, k) != ')' {
      if k > p1 {
        assert line[k] == c[k - p1 - 1];
      }
    }
    SeekAt(line, ')', p1, p2);
    assert Drop(line, p1 + 1)[..|c|] == c;
  }

  /** `get_if_block` at line `i`. */
  function GetIfBlock(text: seq<string>, i: nat): (r: Result<Option<IfBlock>>)
    requires i < |text|
    ensures r.Ok? && r.value.Some? ==> r.value.value.start == i + 2 && r.value.value.end >= i
  {
    match ScanClose(text, i + 1)
    case Fatal(e) => Fatal(e)
    case Ok(None) => Ok(None)
    case Ok(Some(k)) => Ok(Some(IfBlock(i + 2, k - 1, CondText(text[i]))))
  }

  /** The body of an `if` block ends on the line before the one at which the
      braces after the header first balance. */
  lemma GetIfBlockSpec(text: seq<string>, i: nat)
    requires i + 1 < MaxLines && i < |text|
    requires GetIfBlock(text, i).Ok? && GetIfBlock(text, i).value.Some?
    ensures var b := GetIfBlock(text, i).value.value;
      && b.condition == CondText(text[i])
      && ClosesAt(text, i + 1, b.end + 1)
  {
    ScanCloseSome(text, i + 1);
    var k := ScanClose(text, i + 1).value.value;
    assert GetIfBlock(text, i).value.value.end + 1 == k;
  }

  /** `get_if_else_block` at line `i`: the `if` body must close before line
      37, the next line must be `else`, and the `else` body must close
      within the table. */
  function GetIfElseBlock(text: seq<string>, i: nat): (r: Result<Option<IfElseBlock>>)
    requires i < |text|
    ensures r.Ok? && r.value.Some? ==>
      var b := r.value.value;
      && b.ifStart == i + 2 && b.ifEnd >= i && b.elseStart == b.ifEnd + 4 && b.elseEnd >= b.ifEnd + 2
    ensures var c := ScanClose(text, i + 1);
      c.Ok? && c.value.Some? && c.value.value >= MaxLines - 3 ==> r == Ok(None)
    ensures var c := ScanClose(text, i + 1);
      (c.Ok? && c.value.Some? && c.value.value < MaxLines - 3 && c.value.value + 1 < |text|
       && Strcmp(text[c.value.value + 1], "else") != 0) ==> r == Ok(None)
  {
    match ScanClose(text, i + 1)
    case Fatal(e) => Fatal(e)
    case Ok(None) => Ok(None)
    case Ok(Some(k)) =>
      if k >= MaxLines - 3 then Ok(None)
      else
        match ElseBody(text, k)
        case Fatal(e) => Fatal(e)
        case Ok(None) => Ok(None)
        case Ok(Some(k2)) => Ok(Some(IfElseBlock(i + 2, k - 1, k + 3, k2 - 1, CondText(text[i]))))
  }

  /** After a body closing at `k`: when the next line is `else`, the line
      where the braces after it balance. */
  function ElseBody(text: seq<string>, k: nat): (r: Result<Option<nat>>)
    requires k + 2 < MaxLines
    ensures r.Ok? && r.value.Some? ==>
      && k + 1 < |text| && Strcmp(text[k + 1], "else") == 0
      && ClosesAt(text, k + 2, r.value.value)
  {
    match LineAt(text, k + 1)
    case Fatal(e) => Fatal(e)
    case Ok(next) =>
      if Strcmp(next, "else") != 0 then Ok(None)
      else
        match ScanClose(text, k + 2)
        case Fatal(e) => Fatal(e)
        case Ok(None) => Ok(None)
        case Ok(Some(k2)) => ScanCloseSome(text, k + 2); Ok(Some(k2))
  }

  /** The two bodies of an `if`-`else` block: the first closes where the
      braces after the header balance, the line after it is `else`, and the
      second closes where the braces after that balance. */
  lemma GetIfElseBlockSpec(text: seq<string>, i: nat)
    requires i + 1 < MaxLines && i < |text|
    requires GetIfElseBlock(text, i).Ok? && GetIfElseBlock(text, i).value.Some?
    ensures var b := GetIfElseBlock(text, i).value.value;
      && b.condition == CondText(text[i])
      && ClosesAt(text, i + 1, b.ifEnd + 1)
      && Strcmp(text[b.ifEnd + 2], "else") == 0
      && ClosesAt(text, b.ifEnd + 3, b.elseEnd + 1)
  {
    ScanCloseSome(text, i + 1);
    var k := ScanClose(text, i + 1).value.value;
    var k2 := ElseBody(text, k).value.value;
    var b := GetIfElseBlock(text, i).value.value;
    assert b.ifEnd + 1 == k && b.elseEnd + 1 == k2;
  }

  /** A block has one closing line. */
  lemma ClosesAtUnique(text: seq<string>, from: nat, k: nat, k': nat)
    requires ClosesAt(text, from, k) && ClosesAt(text, from, k')
    ensures k == k'
  {
  }

  /** Conversely, `ScanClose` finds the closing line of a block whenever it
      lies within the table. */
  lemma ScanCloseFinds(text: seq<string>, from: nat, k: nat)
    requires from < MaxLines && k < MaxLines && ClosesAt(text, from, k)
    ensures ScanClose(text, from) == Ok(Some(k))
  {
    ScanCloseSpec(text, from);
    var r := ScanClose(text, from);
    if r.Ok? && r.value.Some? {
      ClosesAtUnique(text, from, k, r.value.value);
    }
  }

  /** Conversely, an `if` body closing before line 37, followed by an `else`
      line and an `else` body closing within the table, is found as that
      block. */
  lemma GetIfElseBlockFinds(text: seq<string>, i: nat, k: nat, k2: nat)
    requires i + 1 < MaxLines && i < |text|
    requires ClosesAt(text, i + 1, k) && k < MaxLines - 3
    requires k + 1 < |text| && Strcmp(text[k + 1], "else") == 0
    requires ClosesAt(text, k + 2, k2) && k2 < MaxLines
    ensures GetIfElseBlock(text, i) == Ok(Some(IfElseBlock(i + 2, k - 1, k + 3, k2 - 1, CondText(text[i]))))
  {
    ScanCloseFinds(text, i + 1, k);
    ScanCloseFinds(text, k + 2, k2);
    ElseBodyOf(text, k, k2);
    GetIfElseBlockOf(text, i, k, k2);
  }

  /** A body closing at `k` that is too late in the table for an `else`, or
      is not followed by one, is an `if` block and not an `if`-`else`
      block. */
  lemma GetIfBlockOnly(text: seq<string>, i: nat, k: nat)
    requires i + 1 < MaxLines && i < |text|
    requires ClosesAt(text, i + 1, k) && k < MaxLines
    requires k >= MaxLines - 3 || (k + 1 < |text| && Strcmp(text[k + 1], "else") != 0)
    ensures GetIfElseBlock(text, i) == Ok(None)
    ensures GetIfBlock(text, i) == Ok(Some(IfBlock(i + 2, k - 1, CondText(text[i]))))
  {
    ScanCloseFinds(text, i + 1, k);
  }

  lemma GetIfElseBlockOf(text: seq<string>, i: nat, k: nat, k2: nat)
    requires i < |text| && k < MaxLines - 3
    requires ScanClose(text, i + 1) == Ok(Some(k)) && ElseBody(text, k) == Ok(Some(k2))
    ensures GetIfElseBlock(text, i) == Ok(Some(IfElseBlock(i + 2, k - 1, k + 3, k2 - 1, CondText(text[i]))))
  {
  }

  /** The `else` body after a body closing at `k` is found where the scan
      after the `else` line stops. */
  lemma ElseBodyOf(text: seq<string>, k: nat, k2: nat)
    requires k + 2 < MaxLines && k + 1 < |text| && Strcmp(text[k + 1], "else") == 0
    requires ScanClose(text, k + 2) == Ok(Some(k2))
    ensures ElseBody(text, k) == Ok(Some(k2))
  {
  }

  /** Where the four search loops of `get_for_block` stop: the first '(',
      then a ';', the next ';' and the next ')'. */
  function ForPositions(line: string): (nat, nat, nat, nat) {
    var pos1 := Seek(line, '(', 0);
    var pos2 := Seek(line, ';', pos1 + 1);
    var pos3 := Seek(line, ';', pos2 + 1);
    (pos1, pos2, pos3, Seek(line, ')', pos3 + 1))
  }

  /** The text strictly between positions `p` and `q` of a line. */
  function Between(line: string, p: nat, q: nat): string {
    StrcatN([], Drop(line, p + 1), q - p - 1)
  }

  /** The three clauses of a `for` line, when all four delimiters are found
      within the line buffer. */
  function ForClauses(line: string): (r: Option<(string, string, string)>)
  {
    var (pos1, pos2, pos3, pos4) := ForPositions(line);
    if pos1 >= MaxLineLength || pos2 >= MaxLineLength || pos3 >= MaxLineLength || pos4 >= MaxLineLength then None
    else Some((Between(line, pos1, pos2), Between(line, pos2, pos3), Between(line, pos3, pos4)))
  }

  /** The clauses of a `for` block, with `++` and `--` rewritten in the first
      and the third. */
  function ForHeader(line: string): (r: Option<(string, string, string)>)
    ensures r.None? <==> ForClauses(line).None?
  {
    match ForClauses(line)
    case None => None
    case Some((init, cond, back)) => Some((ConvertIncDec(init), cond, ConvertIncDec(back)))
  }

  lemma SliceAt(line: string, p: nat, s: string)
    requires p + |s| <= |line| && line[p..p + |s|] == s
    requires |s| < MaxLineLength
    ensures StrcatN([], Drop(line, p), |s|) == s
  {
    assert Drop(line, p)[..|s|] == line[p..p + |s|];
  }

  /** No `c` among `line[from..to]`. */
  predicate Free(line: string, c: char, from: nat, to: nat)
    requires from <= to <= |line|
  {
    forall k :: from <= k < to ==> line[k] != c
  }

  lemma ForPositionsAt(line: string, p1: nat, p2: nat, p3: nat, p4: nat)
    requires p1 < p2 < p3 < p4 < |line| && p4 < MaxLineLength
    requires line[p1] == '(' && line[p2] == ';' && line[p3] == ';' && line[p4] == ')'
    requires Free(line, '(', 0, p1) && Free(line, ';', p1 + 1, p2)
    requires Free(line, ';', p2 + 1, p3) && Free(line, ')', p3 + 1, p4)
    ensures ForPositions(line) == (p1, p2, p3, p4)
  {
    SeekAt(line, '(', 0, p1);
    SeekAt(line, ';', p1 + 1, p2);
    SeekAt(line, ';', p2 + 1, p3);
    SeekAt(line, ')', p3 + 1, p4);
  }

  lemma BetweenSlice(line: string, p: nat, q: nat)
    requires p < q <= |line| && q < MaxLineLength
    ensures Between(line, p, q) == line[p + 1..q]
  {
    SliceAt(line, p + 1, line[p + 1..q]);
  }

  /** The clauses of a `for` line whose '(', ';', ';' and ')' sit at `p1` to
      `p4` within the line buffer, with no earlier occurrence of each in its
      stretch, are the texts between them. */
  lemma ForClausesAt(line: string, p1: nat, p2: nat, p3: nat, p4: nat)
    requires p1 < p2 < p3 < p4 < |line| && p4 < MaxLineLength
    requires line[p1] == '(' && line[p2] == ';' && line[p3] == ';' && line[p4] == ')'
    requires Free(line, '(', 0, p1) && Free(line, ';', p1 + 1, p2)
    requires Free(line, ';', p2 + 1, p3) && Free(line, ')', p3 + 1, p4)
    ensures ForClauses(line) == Some((line[p1 + 1..p2], line[p2 + 1..p3], line[p3 + 1..p4]))
  {
    ForPositionsAt(line, p1, p2, p3, p4);
    BetweenSlice(line, p1, p2);
    BetweenSlice(line, p2, p3);
    BetweenSlice(line, p3, p4);
  }

  /** The same, with the `++` and `--` rewriting of the first and third
      clauses. */
  lemma ForHeaderAt(line: string, p1: nat, p2: nat, p3: nat, p4: nat)
    requires p1 < p2 < p3 < p4 < |line| && p4 < MaxLineLength
    requires line[p1] == '(' && line[p2] == ';' && line[p3] == ';' && line[p4] == ')'
    requires Free(line, '(', 0, p1) && Free(line, ';', p1 + 1, p2)
    requires Free(line, ';', p2 + 1, p3) && Free(line, ')', p3 + 1, p4)
    ensures ForHeader(line) == Some((ConvertIncDec(line[p1 + 1..p2]), line[p2 + 1..p3], ConvertIncDec(line[p3 + 1..p4])))
  {
    ForClausesAt(line, p1, p2, p3, p4);
  }

  /** `get_for_block` at line `i`: the header first, then the body. */
  function GetForBlock(text: seq<string>, i: nat): (r: Result<Option<ForBlock>>)
    requires i < |text|
    ensures ForHeader(text[i]).None? ==> r == Ok(None)
    ensures r.Ok? && r.value.Some? ==>
      var b := r.value.value;
      && b.start == i + 2 && b.end >= i
      && ForHeader(text[i]) == Some((b.init, b.condition, b.back))
  {
    ForBlockOf(i, ForHeader(text[i]), ScanClose(text, i + 1))
  }

  /** The block a `for` header at line `i` makes from its clauses and the
      line at which its body closes. */
  function ForBlockOf(i: nat, h: Option<(string, string, string)>, scan: Result<Option<nat>>): Result<Option<ForBlock>>
  {
    if h.None? then Ok(None)
    else
      match scan
      case Fatal(e) => Fatal(e)
      case Ok(None) => Ok(None)
      case Ok(Some(k)) => Ok(Some(ForBlock(i + 2, k - 1, h.value.0, h.value.1, h.value.2)))
  }

  /** The body of a `for` block ends on the line before the one at which the
      braces after the header first balance. */
  lemma GetForBlockSpec(text: seq<string>, i: nat, b: ForBlock)
    requires i + 1 < MaxLines && i < |text|
    requires GetForBlock(text, i) == Ok(Some(b))
    ensures ClosesAt(text, i + 1, b.end + 1)
  {
    var h := ForHeader(text[i]);
    assert ForBlockOf(i, h, ScanClose(text, i + 1)) == Ok(Some(b));
    ForBlockOfCloses(text, i, h, b);
  }

  /** The block `ForBlockOf` builds from the scan after line `i` ends just
      before the line at which that scan found the braces balanced. */
  lemma ForBlockOfCloses(text: seq<string>, i: nat, h: Option<(string, string, string)>, b: ForBlock)
    requires i + 1 < MaxLines && ForBlockOf(i, h, ScanClose(text, i + 1)) == Ok(Some(b))
    ensures ClosesAt(text, i + 1, b.end + 1)
  {
    ScanCloseSome(text, i + 1);
  }

  /** Conversely, a `for` header with all its delimiters whose body closes
      within the table is found as that block. */
  lemma GetForBlockFinds(text: seq<string>, i: nat, k: nat)
    requires i + 1 < MaxLines && i < |text| && ForHeader(text[i]).Some?
    requires ClosesAt(text, i + 1, k) && k < MaxLines
    ensures GetForBlock(text, i) == Ok(Some(ForBlock(i + 2, k - 1,
      ForHeader(text[i]).value.0, ForHeader(text[i]).value.1, ForHeader(text[i]).value.2)))
  {
    var h := ForHeader(text[i]);
    ScanCloseFinds(text, i + 1, k);
    assert GetForBlock(text, i) == ForBlockOf(i, h, Ok(Some(k)));
    ForBlockOfSome(i, h, k);
  }

  /** A `for` header and a closing line make the block between them. */
  lemma ForBlockOfSome(i: nat, h: Option<(string, string, string)>, k: nat)
    requires h.Some?
    ensures ForBlockOf(i, h, Ok(Some(k))) == Ok(Some(ForBlock(i + 2, k - 1, h.value.0, h.value.1, h.value.2)))
  {
  }

  /** Lines a block takes up, counted from its header: `end - start + 4`. */
  function IfSpan(b: IfBlock): int {
    b.end - b.start + 4
  }

  function IfElseSpan(b: IfElseBlock): int {
    b.elseEnd - b.ifStart + 4
  }

  function ForSpan(b: ForBlock): int {
    b.end - b.start + 4
  }

  /** A block at line `i` spans from its header to its closing line, so the
      lines after it are the lines after that closing line. */
  lemma SpansReachClose(text: seq<string>, i: nat)
    requires i < |text|
    ensures var r := GetIfBlock(text, i);
      r.Ok? && r.value.Some? ==> i + IfSpan(r.value.value) == r.value.value.end + 2 && IfSpan(r.value.value) >= 2
    ensures var r := GetIfElseBlock(text, i);
      r.Ok? && r.value.Some? ==> i + IfElseSpan(r.value.value) == r.value.value.elseEnd + 2 && IfElseSpan(r.value.value) >= 4
    ensures var r := GetForBlock(text, i);
      r.Ok? && r.value.Some? ==> i + ForSpan(r.value.value) == r.value.value.end + 2 && ForSpan(r.value.value) >= 2
  {
  }
}

=== FILE: cint.dfy ===
/**
  C integer semantics the interpreter relies on: 32-bit `int` (signed overflow
  is undefined in C, so the interpreter reports it), signed 8-bit `char`
  (x86 xv6), division truncating toward zero, and the `atoi`/`itoa` pair.
 */
module CInt {

  const IntMin: int := -0x8000_0000
  const IntMax: int := 0x7fff_ffff

  predicate InInt32(n: int) {
    IntMin <= n <= IntMax
  }

  type Int32 = n: int | IntMin <= n <= IntMax

  /** The value range of a signed `char`. */
  type SChar = c: int | -128 <= c <= 127

  function Abs(x: int): (r: int)
    ensures r >= 0
  {
    if x < 0 then -x else x
  }

  /** The low byte of `n` read back as a signed char: what a store of an `int`
      into a `char` (or a `char *` read of an `int`) yields on x86. */
  function Narrow(n: int): (c: SChar)
    ensures (n - c) % 256 == 0
    ensures -128 <= n <= 127 ==> c == n
  {
    var b := n % 256;
    if b >= 128 then b - 256 else b
  }

  /** The byte a character of the script occupies. */
  function ByteOf(ch: char): (b: int)
    ensures 0 <= b < 256
  {
    (ch as int) % 256
  }

  /** A character of the script read as a signed char. */
  function SignedOf(ch: char): SChar {
    Narrow(ch as int)
  }

  /** The character whose byte is the signed char `c`. */
  function CharOf(c: SChar): (ch: char)
    ensures SignedOf(ch) == c
    ensures ch as int < 256
  {
    ((c + 256) % 256) as char
  }

  lemma {:induction false} CharOfSignedOf(ch: char)
    requires ch as int < 256
    ensures CharOf(SignedOf(ch)) == ch
  {
    var b := ch as int;
    if b >= 128 {
      assert b % 256 == b;
      assert SignedOf(ch) == b - 256;
    } else {
      assert b % 256 == b;
      assert SignedOf(ch) == b;
    }
  }

  /** C99 `/`: the quotient truncated toward zero; the remainder it leaves has
      the sign of the dividend and is smaller in magnitude than the divisor. */
  function TruncDiv(a: int, b: int): (q: int)
    requires b != 0
    ensures a >= 0 ==> 0 <= a - b * q < Abs(b)
    ensures a < 0 ==> -Abs(b) < a - b * q <= 0
    ensures Abs(q) <= Abs(a)
  {
    var q0 := Abs(a) / Abs(b);
    TruncDivCases(a, b, q0);
    if (a < 0) == (b < 0) then q0 else -q0
  }

  lemma TruncDivCases(a: int, b: int, q0: int)
    requires b != 0 && q0 == Abs(a) / Abs(b)
    ensures var q := if (a < 0) == (b < 0) then q0 else -q0;
      && (a >= 0 ==> 0 <= a - b * q < Abs(b))
      && (a < 0 ==> -Abs(b) < a - b * q <= 0)
      && Abs(q) <= Abs(a)
  {
    var x, y := Abs(a), Abs(b);
    DivBounds(x, y);
    var r := x - y * q0;
    assert 0 <= r < y;
    var q := if (a < 0) == (b < 0) then q0 else -q0;
    if b < 0 {
      NegMul(y, q);
      assert b * q == -(y * q);
    } else {
      assert b * q == y * q;
    }
    if (a < 0) == (b < 0) {
      assert y * q == y * q0;
    } else {
      NegMul(y, q0);
      assert y * q == -(y * q0);
    }
  }

  lemma NegMul(y: int, q: int)
    ensures y * -q == -(y * q)
    ensures -y * q == -(y * q)
  {
  }

  lemma DivBounds(x: nat, y: nat)
    requires y > 0
    ensures 0 <= x - y * (x / y) < y
    ensures x / y <= x
  {
    var q := x / y;
    var r := x % y;
    assert x == y * q + r;
    assert 0 <= r < y;
    MulMono(y, q);
  }

  lemma MulMono(y: nat, q: nat)
    requires y > 0
    ensures q <= y * q
  {
  }

  /** C99 `%`, paired with `TruncDiv`. */
  function TruncRem(a: int, b: int): (r: int)
    requires b != 0
    ensures a == b * TruncDiv(a, b) + r
    ensures Abs(r) < Abs(b)
  {
    a - b * TruncDiv(a, b)
  }

  lemma {:induction false} TruncDivShrinks(n: int)
    requires n != 0
    ensures Abs(TruncDiv(n, 10)) < Abs(n)
  {
    var q := TruncDiv(n, 10);
    if n > 0 {
      assert 0 <= n - 10 * q < 10;
      assert q >= 0 && q < n;
    } else {
      assert -10 < n - 10 * q <= 0;
      assert q <= 0 && q > n;
    }
  }

  predicate IsDigit(ch: char) {
    '0' <= ch <= '9'
  }

  function DigitValue(ch: char): nat
    requires IsDigit(ch)
  {
    ch as int - '0' as int
  }

  /** Length of the leading run of decimal digits. */
  function DigitRun(s: string): (n: nat)
    ensures n <= |s|
    ensures forall i :: 0 <= i < n ==> IsDigit(s[i])
    ensures n < |s| ==> !IsDigit(s[n])
  {
    if |s| == 0 || !IsDigit(s[0]) then 0 else 1 + DigitRun(s[1..])
  }

  /** The decimal value of a string of digits. */
  function DigitsValue(ds: string): nat
    requires forall i :: 0 <= i < |ds| ==> IsDigit(ds[i])
  {
    if |ds| == 0 then 0 else DigitsValue(ds[..|ds| - 1]) * 10 + DigitValue(ds[|ds| - 1])
  }

  /** xv6 `atoi` (ulib): the value of the leading decimal-digit run, with no sign
      and no leading blanks; a text that does not start with a digit reads 0. */
  function Atoi(s: string): nat {
    DigitsValue(s[..DigitRun(s)])
  }

  lemma {:induction false} DigitsValueZero(ds: string)
    requires forall i :: 0 <= i < |ds| ==> IsDigit(ds[i])
    requires DigitsValue(ds) == 0
    ensures forall i :: 0 <= i < |ds| ==> ds[i] == '0'
  {
    if |ds| > 0 {
      DigitsValueZero(ds[..|ds| - 1]);
      forall i | 0 <= i < |ds|
        ensures ds[i] == '0'
      {
        if i < |ds| - 1 {
          assert ds[i] == ds[..|ds| - 1][i];
        }
      }
    }
  }

  /** The literal test `atoi(p) != 0 || p[0] == '0'` the interpreter applies
      holds exactly when the text starts with a digit. */
  lemma {:induction false} IntLiteralTest(s: string)
    requires |s| > 0
    ensures (Atoi(s) != 0 || s[0] == '0') <==> IsDigit(s[0])
  {
    if IsDigit(s[0]) && s[0] != '0' {
      var ds := s[..DigitRun(s)];
      assert ds[0] == s[0];
      if Atoi(s) == 0 {
        DigitsValueZero(ds);
        assert false;
      }
    }
    if !IsDigit(s[0]) {
      assert DigitRun(s) == 0;
      assert s[..0] == [];
    }
  }

  function DigitChar(r: int): (ch: char)
    requires -10 < r < 10
  {
    ('0' as int + r) as char
  }

  /** The interpreter's `itoa` as written: decimal digits of `n` built from
      the C remainder, so 0 formats as the empty text and a negative number
      yields characters below '0'. */
  function ItoaAsWritten(n: int): (s: string)
    ensures s == [] <==> n == 0
    decreases Abs(n)
  {
    if n == 0 then []
    else
      TruncDivShrinks(n);
      ItoaAsWritten(TruncDiv(n, 10)) + [DigitChar(TruncRem(n, 10))]
  }

  lemma {:induction false} ItoaDigits(n: int)
    requires n > 0
    ensures forall i :: 0 <= i < |ItoaAsWritten(n)| ==> IsDigit(ItoaAsWritten(n)[i])
    ensures |ItoaAsWritten(n)| > 0 && ItoaAsWritten(n)[0] != '0'
    decreases n
  {
    var q := TruncDiv(n, 10);
    var r := TruncRem(n, 10);
    assert 0 <= r < 10;
    assert q >= 0;
    if q > 0 {
      TruncDivShrinks(n);
      ItoaDigits(q);
      assert ItoaAsWritten(n) == ItoaAsWritten(q) + [DigitChar(r)];
      assert ItoaAsWritten(n)[0] == ItoaAsWritten(q)[0];
    } else {
      assert ItoaAsWritten(n) == [DigitChar(r)];
      assert r == n;
    }
  }

  /** Round trip: `atoi` reads back what `itoa` writes for every positive number. */
  lemma {:induction false} AtoiItoa(n: int)
    requires n > 0
    ensures Atoi(ItoaAsWritten(n)) == n
    decreases n
  {
    var s := ItoaAsWritten(n);
    ItoaDigits(n);
    AllDigitsRun(s);
    assert s[..DigitRun(s)] == s;
    var q := TruncDiv(n, 10);
    var r := TruncRem(n, 10);
    assert 0 <= r < 10 && q >= 0;
    assert n == 10 * q + r;
    LastDigit(n, q, r);
    if q > 0 {
      TruncDivShrinks(n);
      AtoiItoa(q);
      ItoaDigits(q);
      AllDigitsRun(ItoaAsWritten(q));
      assert ItoaAsWritten(q)[..DigitRun(ItoaAsWritten(q))] == ItoaAsWritten(q);
    } else {
      assert ItoaAsWritten(q) == [];
    }
  }

  /** The text of `n` is the text of `n / 10` and then the last digit. */
  lemma LastDigit(n: int, q: int, r: int)
    requires n > 0 && q == TruncDiv(n, 10) && r == TruncRem(n, 10) && 0 <= r < 10 && q >= 0
    requires forall i :: 0 <= i < |ItoaAsWritten(n)| ==> IsDigit(ItoaAsWritten(n)[i])
    ensures forall i :: 0 <= i < |ItoaAsWritten(q)| ==> IsDigit(ItoaAsWritten(q)[i])
    ensures DigitsValue(ItoaAsWritten(n)) == DigitsValue(ItoaAsWritten(q)) * 10 + r
  {
    var s := ItoaAsWritten(n);
    assert s == ItoaAsWritten(q) + [DigitChar(r)];
    assert s[..|s| - 1] == ItoaAsWritten(q);
    assert forall i :: 0 <= i < |ItoaAsWritten(q)| ==> ItoaAsWritten(q)[i] == s[i];
  }

  lemma {:induction false} AllDigitsRun(s: string)
    requires forall i :: 0 <= i < |s| ==> IsDigit(s[i])
    ensures DigitRun(s) == |s|
  {
    if |s| > 0 {
      AllDigitsRun(s[1..]);
    }
  }

  /** What `itoa` writes for zero and for a negative number: nothing, and
      characters that are not digits, so neither reads back. */
  lemma ItoaAsWrittenLoses()
    ensures ItoaAsWritten(0) == []
    ensures ItoaAsWritten(-12) == "/."
    ensures Atoi(ItoaAsWritten(-12)) == 0
  {
    assert TruncDiv(-12, 10) == -1 && TruncRem(-12, 10) == -2;
    assert TruncDiv(-1, 10) == 0 && TruncRem(-1, 10) == -1;
    assert ItoaAsWritten(-1) == "/";
  }

  /** For a negative number `itoa` as written starts with a character below
      '0': the C remainder of the leading digit is negative. */
  lemma {:induction false} NegativeLeadsBelowZero(n: int)
    requires n < 0
    ensures |ItoaAsWritten(n)| > 0 && ItoaAsWritten(n)[0] < '0'
    decreases -n
  {
    var q := TruncDiv(n, 10);
    var r := TruncRem(n, 10);
    assert -10 < r <= 0 && q <= 0;
    TruncDivShrinks(n);
    if q == 0 {
      assert ItoaAsWritten(n) == [DigitChar(r)];
    } else {
      NegativeLeadsBelowZero(q);
      assert ItoaAsWritten(n) == ItoaAsWritten(q) + [DigitChar(r)];
    }
  }

  /** What `atoi` reads back from the text `itoa` writes: the number itself
      when it is positive, and 0 for zero and every negative number. */
  lemma ItoaAsWrittenReadBack(n: int)
    ensures Atoi(ItoaAsWritten(n)) == if n > 0 then n else 0
  {
    if n > 0 {
      AtoiItoa(n);
    } else if n < 0 {
      NegativeLeadsBelowZero(n);
      assert DigitRun(ItoaAsWritten(n)) == 0;
    }
  }

  /** `itoa` as evidently intended: "0" for zero and a '-' before the digits
      of a negative number; on positive numbers it is the code's `itoa`. */
  function Itoa(n: int): (s: string)
    ensures n > 0 ==> s == ItoaAsWritten(n)
    ensures |s| > 0
  {
    if n == 0 then "0"
    else if n < 0 then (ItoaDigits(-n); "-" + ItoaAsWritten(-n))
    else (ItoaDigits(n); ItoaAsWritten(n))
  }

  /** A decimal number with an optional leading '-'. */
  function SignedAtoi(s: string): int {
    if |s| > 0 && s[0] == '-' then 0 - Atoi(s[1..]) as int else Atoi(s) as int
  }

  /** Every number reads back from what `Itoa` writes, which is a '-' for a
      negative number followed by decimal digits. */
  lemma ItoaRoundTrip(n: int)
    ensures SignedAtoi(Itoa(n)) == n
    ensures forall i :: 0 <= i < |Itoa(n)| ==> IsDigit(Itoa(n)[i]) || (i == 0 && n < 0 && Itoa(n)[i] == '-')
  {
    if n > 0 {
      AtoiItoa(n);
      ItoaDigits(n);
    } else if n < 0 {
      NegativeRoundTrip(n);
    } else {
      assert Atoi("0") == DigitsValue("0");
    }
  }

  lemma NegativeRoundTrip(n: int)
    requires n < 0
    ensures SignedAtoi(Itoa(n)) == n
    ensures forall i :: 1 <= i < |Itoa(n)| ==> IsDigit(Itoa(n)[i])
  {
    var d := ItoaAsWritten(-n);
    var s := Itoa(n);
    assert s == "-" + d;
    AtoiItoa(-n);
    ItoaDigits(-n);
    assert s[1..] == d;
    forall i | 1 <= i < |s|
      ensures IsDigit(s[i])
    {
      assert s[i] == d[i - 1];
    }
  }
}

=== FILE: clean.dfy ===
/**
  Line cleaning applied to every line before anything else runs: drop tabs and
  the blanks that carry no meaning, cut the line at its first unquoted ';'
  (except a `for` header, whose ';' are syntax), and blank `//` comment lines.
 */
module Clean {
  import opened Text
  import opened Split

  /** A blank at `i` that follows one of the keywords after which a blank is
      significant; the test looks at the original line. */
  predicate KeywordBefore(line: string, i: int)
    requires 0 <= i <= |line|
  {
    || (i >= 4 && HasPrefix(line[i - 4..], "void"))
    || (i >= 3 && HasPrefix(line[i - 3..], "int"))
    || (i >= 4 && HasPrefix(line[i - 4..], "char"))
    || (i >= 6 && HasPrefix(line[i - 6..], "string"))
    || (i >= 6 && HasPrefix(line[i - 6..], "return"))
  }

  /** Whether `remove_spaces` keeps the character at `i`: never a tab; a blank
      only inside quotes or right after a keyword; everything else. */
  predicate KeepsAt(line: string, i: int)
    requires 0 <= i < |line|
  {
    && line[i] != '\t'
    && (line[i] != ' ' || QuotesAfter(line[..i]).Inside() || KeywordBefore(line, i))
  }

  function KeptPrefix(line: string, n: nat): (r: string)
    requires n <= |line|
    ensures |r| <= n
  {
    if n == 0 then []
    else KeptPrefix(line, n - 1) + (if KeepsAt(line, n - 1) then [line[n - 1]] else [])
  }

  /** `remove_spaces`. */
  function RemoveSpaces(line: string): (r: string)
    ensures |r| <= |line|
  {
    KeptPrefix(line, |line|)
  }

  /** `s` without its blanks and tabs. */
  function Visible(s: string): string {
    if |s| == 0 then []
    else Visible(s[..|s| - 1]) + (if s[|s| - 1] == ' ' || s[|s| - 1] == '\t' then [] else [s[|s| - 1]])
  }

  /** A character `remove_spaces` drops is a blank or a tab, and it never
      keeps a tab. */
  lemma KeepsAtBlank(line: string, i: int)
    requires 0 <= i < |line|
    ensures KeepsAt(line, i) ==> line[i] != '\t'
    ensures !KeepsAt(line, i) ==> line[i] == ' ' || line[i] == '\t'
  {
  }

  lemma VisibleSnoc(s: string, c: char)
    ensures Visible(s + [c]) == Visible(s) + (if c == ' ' || c == '\t' then [] else [c])
  {
    assert (s + [c])[..|s|] == s;
  }

  lemma {:induction false} KeptPrefixVisible(line: string, n: nat)
    requires n <= |line|
    ensures Visible(KeptPrefix(line, n)) == Visible(line[..n])
    ensures '\t' !in KeptPrefix(line, n)
  {
    if n > 0 {
      KeptPrefixVisible(line, n - 1);
      var k := KeptPrefix(line, n - 1);
      var c := line[n - 1];
      assert line[..n] == line[..n - 1] + [c];
      VisibleSnoc(line[..n - 1], c);
      KeepsAtBlank(line, n - 1);
      if KeepsAt(line, n - 1) {
        assert KeptPrefix(line, n) == k + [c];
        VisibleSnoc(k, c);
      } else {
        assert KeptPrefix(line, n) == k;
      }
    }
  }

  /** `remove_spaces` removes only blanks and tabs, every tab, and keeps every
      other character in order. */
  lemma RemoveSpacesKeepsText(line: string)
    ensures Visible(RemoveSpaces(line)) == Visible(line)
    ensures '\t' !in RemoveSpaces(line)
  {
    KeptPrefixVisible(line, |line|);
    assert line[..|line|] == line;
  }

  /** Index of the first ';' outside quotes, or the length of the line. */
  function FirstCut(line: string, from: nat): (j: nat)
    requires from <= |line|
    ensures from <= j <= |line|
    ensures j < |line| ==> IsCut(line, ';', j)
    ensures forall k :: from <= k < j ==> !IsCut(line, ';', k)
    decreases |line| - from
  {
    if from == |line| then from
    else if IsCut(line, ';', from) then from
    else FirstCut(line, from + 1)
  }

  /** `remove_semicolon`: a `for` header is left alone; any other line loses
      everything from its first unquoted ';' on. */
  function RemoveSemicolon(line: string): (r: string)
    ensures |r| <= |line| && r == line[..|r|]
    ensures !HasPrefix(line, "for") ==> forall k :: 0 <= k < |r| ==> !IsCut(line, ';', k)
    ensures !HasPrefix(line, "for") && |r| < |line| ==> IsCut(line, ';', |r|)
    ensures HasPrefix(line, "for") ==> r == line
  {
    if HasPrefix(line, "for") then line
    else line[..FirstCut(line, 0)]
  }

  /** The cleaning loop of `process_text` for one line. */
  function CleanLine(line: string): (r: string)
    ensures |r| <= |line|
    ensures r == [] || !(|r| >= 2 && r[0] == '/' && r[1] == '/')
  {
    var t := RemoveSemicolon(RemoveSpaces(line));
    if |t| >= 2 && t[0] == '/' && t[1] == '/' then [] else t
  }

  function CleanText(lines: seq<string>): (r: seq<string>)
    ensures |r| == |lines|
    ensures forall i :: 0 <= i < |r| ==> r[i] == CleanLine(lines[i])
  {
    if |lines| == 0 then [] else CleanText(lines[..|lines| - 1]) + [CleanLine(lines[|lines| - 1])]
  }

  /** A cleaned line that is not a blanked comment is a prefix of the line
      with its insignificant blanks removed, cut before the first unquoted ';'. */
  lemma CleanLineShape(line: string)
    ensures CleanLine(line) == RemoveSpaces(line)[..|CleanLine(line)|] || CleanLine(line) == []
    ensures '\t' !in CleanLine(line)
  {
    RemoveSpacesKeepsText(line);
    var t := RemoveSpaces(line);
    var u := RemoveSemicolon(t);
    assert forall c :: c in u ==> c in t;
  }

  lemma {:induction false} KeptPrefixGrows(line: string, n: nat, m: nat)
    requires n <= m <= |line|
    ensures |KeptPrefix(line, n)| <= |KeptPrefix(line, m)|
    ensures KeptPrefix(line, m)[..|KeptPrefix(line, n)|] == KeptPrefix(line, n)
    decreases m - n
  {
    if n < m {
      KeptPrefixGrows(line, n, m - 1);
      var a := KeptPrefix(line, n);
      var b := KeptPrefix(line, m - 1);
      assert KeptPrefix(line, m)[..|b|] == b;
      assert b[..|a|] == a;
    }
  }

  /** A line whose first two characters are `//` is blanked entirely. */
  lemma CommentBlanked(line: string)
    requires |line| >= 2 && line[0] == '/' && line[1] == '/'
    ensures CleanLine(line) == []
  {
    assert KeepsAt(line, 0) && KeepsAt(line, 1);
    assert KeptPrefix(line, 1) == ['/'];
    assert KeptPrefix(line, 2) == ['/', '/'];
    KeptPrefixGrows(line, 2, |line|);
    var t := RemoveSpaces(line);
    assert t[0] == '/' && t[1] == '/';
    assert !HasPrefix(t, "for");
    assert !IsCut(t, ';', 0) && !IsCut(t, ';', 1);
    assert FirstCut(t, 0) >= 2;
  }
}

=== FILE: engine.dfy ===
/**
  The interpreter proper: the call stack (`push_function`, `run_function`),
  the statements of a body (`run_line`) and the execution of blocks
  (`run_if_block`, `run_if_else_block`, `run_for_block`). A run is bounded by
  a fuel count: every step of the mutually recursive group spends one unit,
  and a run that uses it all up ends in `OutOfFuel` instead of a result.
 */
module Engine {
  import opened CInt
  import opened Text
  import opened Split
  import opened Literals
  import opened IncDec
  import opened Values
  import opened Expr
  import opened Registry
  import opened Blocks
  import opened Clean

  const MaxStack: int := 8

  /** The statement keywords `run_line` tests for. */
  const ReturnKw: string := "return"
  const SystemKw: string := "system("
  const IfKw: string := "if"
  const ForKw: string := "for"

  /** A call in progress: the function, the line it starts running at, and
      its variable table (parameters first). */
  datatype Frame = Frame(func: Function, current: int, vars: seq<Var>)

  /** Everything a run reads and writes: the script (statements are rewritten
      in place), the registry, the globals, the call stack, and the commands
      handed to the shell, in order. */
  datatype State = State(text: seq<string>, funcs: seq<Function>, globals: seq<Var>, stack: seq<Frame>, trace: seq<string>)

  /** The outcome of a step of the interpreter. */
  datatype Exec<T> = Done(st: State, val: T) | Fail(err: Error) | OutOfFuel

  /** What `run_line` reports: the lines it took up, and the value of a
      `return` when one was executed. */
  datatype Step = Step(lines: int, ret: Option<Value>)

  function Top(st: State): Frame
    requires |st.stack| > 0
  {
    st.stack[|st.stack| - 1]
  }

  /** The running frame with a new variable table. */
  function SetTop(st: State, vars: seq<Var>): (r: State)
    requires |st.stack| > 0
    ensures |r.stack| == |st.stack| && r.stack[..|st.stack| - 1] == st.stack[..|st.stack| - 1]
    ensures Top(r) == Top(st).(vars := vars)
  {
    st.(stack := st.stack[|st.stack| - 1 := Top(st).(vars := vars)])
  }

  /** The variables a statement can see: the running frame's and the globals. */
  function ScopeOf(st: State): (r: Result<Scope>)
    ensures r.Ok? <==> |st.stack| > 0
    ensures r.Ok? ==> r.value == Scope(Top(st).vars, st.globals)
  {
    if |st.stack| == 0 then Fatal(NoFrame) else Ok(Scope(Top(st).vars, st.globals))
  }

  /** The bounds of the C arrays: at most 8 globals, 8 frames and 8 variables
      in each frame. */
  predicate Sound(st: State) {
    && |st.globals| <= MaxVars
    && |st.stack| <= MaxStack
    && forall k :: 0 <= k < |st.stack| ==> |st.stack[k].vars| <= MaxVars
  }

  /** What every statement leaves alone: the registry, the number of lines,
      the frames below the running one, the running frame's function, the
      names and types of the globals, and the array bounds. */
  predicate Kept(st: State, st': State)
    requires |st.stack| > 0
  {
    && st'.funcs == st.funcs
    && |st'.text| == |st.text|
    && |st'.stack| == |st.stack|
    && st'.stack[..|st.stack| - 1] == st.stack[..|st.stack| - 1]
    && Top(st').func == Top(st).func
    && SameShape(st'.globals, st.globals)
    && st.trace <= st'.trace
    && (Sound(st) ==> Sound(st'))
  }

  lemma KeptTrans(a: State, b: State, c: State)
    requires |a.stack| > 0 && |b.stack| > 0
    requires Kept(a, b) && Kept(b, c)
    ensures Kept(a, c)
  {
  }

  /** A call leaves the caller exactly as it found it, apart from the
      globals' values, the script text and the shell trace. */
  predicate Returned(st: State, st': State) {
    && st'.funcs == st.funcs
    && |st'.text| == |st.text|
    && st'.stack == st.stack
    && SameShape(st'.globals, st.globals)
    && st.trace <= st'.trace
    && (Sound(st) ==> Sound(st'))
  }

  /** The index of the first registered function named `name`, or the
      number of functions. */
  function FindFunction(funcs: seq<Function>, name: string): (k: nat)
    ensures k <= |funcs|
    ensures k < |funcs| ==> Strcmp(name, funcs[k].name) == 0
    ensures forall j :: 0 <= j < k ==> Strcmp(name, funcs[j].name) != 0
  {
    if |funcs| == 0 then 0
    else if Strcmp(name, funcs[0].name) == 0 then 0
    else 1 + FindFunction(funcs[1..], name)
  }

  /** The value of one argument of a call, read in the caller's scope: a
      number, a character or text literal with both quotes, or else an
      expression, which must have a value. */
  function Argument(p: string, sc: Result<Scope>): (r: Result<Value>)
    ensures r.Ok? ==> r.value != Void
    ensures IsDigit(At(p, 0)) ==> (r.Ok? <==> InInt32(Atoi(p))) && (r.Ok? ==> r.value == IntV(Atoi(p)))
    ensures !IsDigit(At(p, 0)) && At(p, 0) == '\'' && p[|p| - 1] == '\'' ==> r == Ok(CharV(SignedOf(CharValue(p))))
    ensures !IsDigit(At(p, 0)) && At(p, 0) == '"' && p[|p| - 1] == '"' ==> r == Ok(StrV(StringValue(p)))
  {
    NumberTest(p);
    if Atoi(p) != 0 || At(p, 0) == '0' then
      if InInt32(Atoi(p)) then Ok(IntV(Atoi(p))) else Fatal(Overflow)
    else if At(p, 0) == '\'' && p[|p| - 1] == '\'' then Ok(CharV(SignedOf(CharValue(p))))
    else if At(p, 0) == '"' && p[|p| - 1] == '"' then Ok(StrV(StringValue(p)))
    else
      match sc
      case Fatal(e) => Fatal(e)
      case Ok(s) =>
        match Expression(p, s)
        case Fatal(e) => Fatal(e)
        case Ok(v) => if v == Void then Fatal(UnknownVariable) else Ok(v)
  }

  /** The number test of `push_function` holds exactly for a leading digit. */
  lemma NumberTest(p: string)
    ensures (Atoi(p) != 0 || At(p, 0) == '0') <==> IsDigit(At(p, 0))
  {
    if |p| > 0 {
      IntLiteralTest(p);
    } else {
      assert DigitRun(p) == 0;
    }
  }

  /** The variable table of a new frame: argument `i` becomes parameter `i`,
      whose type it must have exactly. */
  function BindArgs(params: seq<Param>, args: seq<string>, sc: Result<Scope>): (r: Result<seq<Var>>)
    ensures r.Ok? ==> |r.value| == |args| <= |params|
    ensures r.Ok? <==>
      && |args| <= |params|
      && forall k :: 0 <= k < |args| ==>
           Argument(args[k], sc).Ok? && TypeOf(Argument(args[k], sc).value) == params[k].t
    ensures r.Ok? ==> forall k :: 0 <= k < |args| ==>
      r.value[k] == Var(params[k].name, Argument(args[k], sc).value)
    decreases |args|
  {
    if |args| == 0 then Ok([])
    else
      match Argument(args[0], sc)
      case Fatal(e) => Fatal(e)
      case Ok(v) =>
        if |params| == 0 || TypeOf(v) != params[0].t then Fatal(TypeError)
        else
          match BindArgs(params[1..], args[1..], sc)
          case Fatal(e) =>
            assert forall k :: 1 <= k < |args| ==> args[k] == args[1..][k - 1];
            Fatal(e)
          case Ok(rest) => Ok([Var(params[0].name, v)] + rest)
  }

  /** The text of a call between its first '(' and the next ')'; it holds
      no ')'. */
  function ArgText(call: string): (r: string)
    ensures ')' !in r
    ensures |call| < MaxLineLength && Seek(call, '(', 0) < |call| ==>
      r == call[Seek(call, '(', 0) + 1..IndexFrom(call, ')', Seek(call, '(', 0) + 1)]
  {
    var pos1 := Seek(call, '(', 0);
    var pos2 := Seek(call, ')', pos1);
    CopyAvoids(call, pos1, pos2, ')');
    if |call| < MaxLineLength && pos1 < |call| then
      SeekFindsClose(call, pos1);
      CopyUpTo(call, pos1, pos2, IndexFrom(call, ')', pos1 + 1));
      StrcatN([], Drop(call, pos1 + 1), pos2 - pos1 - 1)
    else
      StrcatN([], Drop(call, pos1 + 1), pos2 - pos1 - 1)
  }

  /** The bounded search for ')' from `pos1` finds what the unbounded one
      from `pos1 + 1` finds, or runs past the end of the line when there is
      no ')'. */
  lemma SeekFindsClose(call: string, pos1: nat)
    requires |call| < MaxLineLength && pos1 < |call| && call[pos1] != ')'
    ensures pos1 + 1 <= IndexFrom(call, ')', pos1 + 1) <= |call|
    ensures IndexFrom(call, ')', pos1 + 1) < |call| ==> Seek(call, ')', pos1) == IndexFrom(call, ')', pos1 + 1)
    ensures IndexFrom(call, ')', pos1 + 1) == |call| ==> |call| <= Seek(call, ')', pos1) <= MaxLineLength
  {
    var q := IndexFrom(call, ')', pos1 + 1);
    var p2 := Seek(call, ')', pos1);
    assert At(call, pos1) != ')';
    if q < |call| {
      assert At(call, q) == ')';
    }
  }

  /** The copy from just after `pos1`, `p2 - pos1 - 1` characters long, is
      the text up to `q` when `q` is where the copy stops. */
  lemma CopyUpTo(call: string, pos1: nat, p2: int, q: nat)
    requires |call| < MaxLineLength && pos1 + 1 <= q <= |call|
    requires q < |call| ==> p2 == q
    requires q == |call| ==> |call| <= p2 <= MaxLineLength
    ensures StrcatN([], Drop(call, pos1 + 1), p2 - pos1 - 1) == call[pos1 + 1..q]
  {
    var d := Drop(call, pos1 + 1);
    var len := p2 - pos1 - 1;
    if len <= 0 {
      assert q == pos1 + 1;
    } else if q < |call| {
      assert d[..len] == call[pos1 + 1..q];
    } else {
      assert d[..Min(len, |d|)] == call[pos1 + 1..q];
    }
  }

  /** The arguments of a call: its argument text cut at the commas outside
      quotes. The pieces are non-empty, hold no ')', and together are the
      argument text without those commas. */
  function CallArgs(call: string): (r: seq<string>)
    ensures AllNonEmpty(r) && Concat(r) == Split.Kept(ArgText(call), ',')
    ensures forall k :: 0 <= k < |r| ==> ')' !in r[k]
  {
    SplitPieces(ArgText(call), ',');
    SplitAvoids(ArgText(call), ',', ')');
    Split.Split(ArgText(call), ',')
  }

  /** `push_function`: find the function named before the first '(' and push
      a frame for it holding the arguments between that '(' and the next ')'. */
  function PushFunction(st: State, call: string): (r: Result<State>)
    ensures r.Ok? ==> |r.value.stack| == |st.stack| + 1 && r.value.stack[..|st.stack|] == st.stack
    ensures r.Ok? ==> r.value == st.(stack := r.value.stack)
    ensures r.Ok? ==>
      var f := Top(r.value);
      && f.func in st.funcs && Strcmp(StrcatN([], call, Seek(call, '(', 0)), f.func.name) == 0
      && f.current == f.func.start + 2
      && |f.vars| <= |f.func.params|
    ensures (&& |st.stack| >= MaxStack
             && FindFunction(st.funcs, StrcatN([], call, Seek(call, '(', 0))) < |st.funcs|
             && Seek(call, '(', 0) >= 1) ==> r == Fatal(StackOverflow)
  {
    var pos1 := Seek(call, '(', 0);
    if pos1 < 1 then Fatal(NotFunction)
    else
      var name := StrcatN([], call, pos1);
      var k := FindFunction(st.funcs, name);
      if k == |st.funcs| then Fatal(UnknownFunction)
      else if |st.stack| >= MaxStack then Fatal(StackOverflow)
      else
        var f := st.funcs[k];
        match BindArgs(f.params, CallArgs(call), ScopeOf(st))
        case Fatal(e) => Fatal(e)
        case Ok(vars) =>
          var st' := st.(stack := st.stack + [Frame(f, f.start + 2, vars)]);
          assert st'.stack[..|st.stack|] == st.stack;
          Ok(st')
  }

  /** A call is pushed when it names a registered function, the stack has
      room and every argument binds; the new frame runs that function with
      the bound arguments. */
  lemma PushFunctionSpec(st: State, call: string)
    ensures var pos1 := Seek(call, '(', 0);
      var k := FindFunction(st.funcs, StrcatN([], call, pos1));
      && (pos1 < 1 ==> PushFunction(st, call) == Fatal(NotFunction))
      && (pos1 >= 1 && k == |st.funcs| ==> PushFunction(st, call) == Fatal(UnknownFunction))
      && (pos1 >= 1 && k < |st.funcs| && |st.stack| < MaxStack ==>
            (PushFunction(st, call).Ok? <==> BindArgs(st.funcs[k].params, CallArgs(call), ScopeOf(st)).Ok?))
      && (PushFunction(st, call).Ok? ==>
            && k < |st.funcs| && Top(PushFunction(st, call).value).func == st.funcs[k]
            && Top(PushFunction(st, call).value).vars == BindArgs(st.funcs[k].params, CallArgs(call), ScopeOf(st)).value)
  {
  }

  /** `run_expression`: a call-shaped text is a call, anything else is
      evaluated in the running frame. */
  function Eval(st: State, e: string, fuel: nat): (r: Exec<Value>)
    ensures r.Done? ==> Returned(st, r.st)
    ensures r.Done? && !IsFunction(e) ==>
      r.st == st && ScopeOf(st).Ok? && Expression(e, ScopeOf(st).value) == Ok(r.val)
    decreases fuel, 0
  {
    if fuel == 0 then OutOfFuel
    else if IsFunction(e) then Call(st, e, fuel - 1)
    else
      match ScopeOf(st)
      case Fatal(err) => Fail(err)
      case Ok(sc) =>
        match Expression(e, sc)
        case Fatal(err) => Fail(err)
        case Ok(v) => Done(st, v)
  }

  /** A call: push the frame, run the body, and come back to the caller. */
  function Call(st: State, call: string, fuel: nat): (r: Exec<Value>)
    ensures r.Done? ==> Returned(st, r.st)
    decreases fuel, 1
  {
    match PushFunction(st, call)
    case Fatal(e) => Fail(e)
    case Ok(st1) => RunFunction(st1, fuel)
  }

  /** `run_function`: run the lines of the body up to the line before its
      closing brace; a `return` whose value has the declared type pops the
      frame. */
  function RunFunction(st: State, fuel: nat): (r: Exec<Value>)
    requires |st.stack| > 0
    ensures r.Done? ==> TypeOf(r.val) == Top(st).func.retType
    ensures r.Done? ==>
      && r.st.stack == st.stack[..|st.stack| - 1]
      && r.st.funcs == st.funcs && |r.st.text| == |st.text|
      && SameShape(r.st.globals, st.globals)
      && st.trace <= r.st.trace
      && (Sound(st) ==> Sound(r.st))
    decreases fuel, 0
  {
    if fuel == 0 then OutOfFuel
    else
      var f := Top(st);
      match RunLines(st, f.current, f.func.end - 1, fuel - 1)
      case Fail(e) => Fail(e)
      case OutOfFuel => OutOfFuel
      case Done(st1, ret) =>
        match ret
        case None => Fail(MissingReturn)
        case Some(v) =>
          if TypeOf(v) != f.func.retType then Fail(ReturnTypeError)
          else
            assert st1.stack[..|st.stack| - 1] == st.stack[..|st.stack| - 1];
            Done(st1.(stack := st1.stack[..|st1.stack| - 1]), v)
  }

  /** The loop over the lines `i..end` of a body: each statement takes up the
      lines it reports, and a `return` ends the loop. */
  function RunLines(st: State, i: int, end: int, fuel: nat): (r: Exec<Option<Value>>)
    requires |st.stack| > 0
    ensures r.Done? ==> Kept(st, r.st)
    decreases fuel, 0
  {
    if fuel == 0 then OutOfFuel
    else if i > end then Done(st, None)
    else
      match RunLine(st, i, fuel - 1)
      case Fail(e) => Fail(e)
      case OutOfFuel => OutOfFuel
      case Done(st1, step) =>
        if step.ret.Some? then Done(st1, step.ret)
        else
          match RunLines(st1, i + step.lines, end, fuel - 1)
          case Fail(e) => Fail(e)
          case OutOfFuel => OutOfFuel
          case Done(st2, ret) => KeptTrans(st, st1, st2); Done(st2, ret)
  }

  /** A call evaluated for its effects leaves the running frame alone. */
  lemma ReturnedKept(st: State, st': State)
    requires |st.stack| > 0 && Returned(st, st')
    ensures Kept(st, st')
  {
  }

  /** `run_line`: one statement, tried in this order: an empty line, `return`,
      `system(…)`, a declaration, `if`, `for`, and else an assignment or a
      call, after `++` and `--` are rewritten in the script itself. */
  function RunLine(st: State, i: int, fuel: nat): (r: Exec<Step>)
    requires |st.stack| > 0
    ensures r.Done? ==> Kept(st, r.st) && r.val.lines >= 1
    decreases fuel, 2
  {
    if fuel == 0 then OutOfFuel
    else
      match LineAt(st.text, i)
      case Fatal(e) => Fail(e)
      case Ok(line) =>
        if At(line, 0) == Nul then Done(st, Step(1, None))
        else if HasPrefix(line, ReturnKw) then ReturnLine(st, line, fuel - 1)
        else if HasPrefix(line, SystemKw) then SystemLine(st, line, fuel - 1)
        else PlainLine(st, i, line, fuel - 1)
  }

  /** `return e`: the value of the text after the keyword and its space. */
  function ReturnLine(st: State, line: string, fuel: nat): (r: Exec<Step>)
    requires |st.stack| > 0
    ensures r.Done? ==> Kept(st, r.st) && r.val.lines == 1 && r.val.ret.Some?
    ensures r.Done? ==>
      Eval(st, Drop(line, 7), fuel).Done? && r.val.ret == Some(Eval(st, Drop(line, 7), fuel).val)
    decreases fuel, 3
  {
    match Eval(st, Drop(line, 7), fuel)
    case Fail(e) => Fail(e)
    case OutOfFuel => OutOfFuel
    case Done(st1, v) => ReturnedKept(st, st1); Done(st1, Step(1, Some(v)))
  }

  /** `system(e)`: the text between the parentheses must evaluate to text,
      which is handed to the shell. */
  function SystemLine(st: State, line: string, fuel: nat): (r: Exec<Step>)
    requires |st.stack| > 0
    ensures r.Done? ==> Kept(st, r.st) && r.val == Step(1, None)
    ensures r.Done? ==> |r.st.trace| > 0 && st.trace <= r.st.trace[..|r.st.trace| - 1]
    ensures r.Done? ==>
      var e := Eval(st, StrcatN([], Drop(line, 7), |line| - 8), fuel);
      e.Done? && e.val.StrV? && r.st.trace[|r.st.trace| - 1] == e.val.s
    decreases fuel, 3
  {
    match Eval(st, StrcatN([], Drop(line, 7), |line| - 8), fuel)
    case Fail(e) => Fail(e)
    case OutOfFuel => OutOfFuel
    case Done(st1, v) =>
      if !v.StrV? then Fail(TypeError)
      else
        ReturnedKept(st, st1);
        var st2 := st1.(trace := st1.trace + [v.s]);
        assert st2.trace[..|st2.trace| - 1] == st1.trace;
        Done(st2, Step(1, None))
  }

  /** A line that is neither empty, `return` nor `system`: the declaration
      step, and when nothing was declared, the rest of the statement. */
  function PlainLine(st: State, i: int, line: string, fuel: nat): (r: Exec<Step>)
    requires |st.stack| > 0
    ensures r.Done? ==> Kept(st, r.st) && r.val.lines >= 1
    decreases fuel, 3
  {
    match DeclareLine(st, line, fuel)
    case Fail(e) => Fail(e)
    case OutOfFuel => OutOfFuel
    case Done(st1, n) =>
      if n > 0 then Done(st1, Step(1, None))
      else
        match Statement(st1, i, fuel)
        case Fail(e) => Fail(e)
        case OutOfFuel => OutOfFuel
        case Done(st2, step) => KeptTrans(st, st1, st2); Done(st2, step)
  }

  /** The declaration step of `run_line`: declare the variables of the line
      (if it is a declaration) in the running frame, then remove duplicate
      names from the frame, keeping the last. Gives the number declared. */
  function DeclareLine(st: State, line: string, fuel: nat): (r: Exec<nat>)
    requires |st.stack| > 0
    ensures r.Done? ==> Kept(st, r.st)
    ensures r.Done? ==> (r.val == 0 <==> Declarations(line).None? || Declarations(line).value.1 == [])
    decreases fuel, 2
  {
    if fuel == 0 then OutOfFuel
    else
      var (t, ds) := if Declarations(line).Some? then Declarations(line).value else (IntT, []);
      match Declare(st, t, ds, fuel - 1)
      case Fail(e) => Fail(e)
      case OutOfFuel => OutOfFuel
      case Done(st1, _) =>
        var st2 := SetTop(st1, Dedup(Top(st1).vars));
        DedupTopKept(st1);
        KeptTrans(st, st1, st2);
        Done(st2, |ds|)
  }

  /** Removing duplicate names from the running frame keeps the state. */
  lemma DedupTopKept(st: State)
    requires |st.stack| > 0
    ensures Kept(st, SetTop(st, Dedup(Top(st).vars)))
  {
    var st2 := SetTop(st, Dedup(Top(st).vars));
    DedupSpec(Top(st).vars);
    if Sound(st) {
      forall k | 0 <= k < |st2.stack|
        ensures |st2.stack[k].vars| <= MaxVars
      {
        if k < |st.stack| - 1 {
          assert st2.stack[k] == st2.stack[..|st.stack| - 1][k];
        }
      }
    }
  }

  /** Declare `ds` one after the other: each name enters the running frame
      with the zero of its type, and then takes the value of its initialiser
      when it has one. A ninth variable is an error. */
  function Declare(st: State, t: VarType, ds: seq<Decl>, fuel: nat): (r: Exec<()>)
    requires |st.stack| > 0 && t != VoidT
    ensures r.Done? ==> Kept(st, r.st)
    ensures fuel > 0 && |ds| == 0 ==> r == Done(st, ())
    ensures fuel > 0 && |ds| > 0 && |Top(st).vars| >= MaxVars ==> r == Fail(TooManyVars)
    decreases fuel, 1
  {
    if fuel == 0 then OutOfFuel
    else if |ds| == 0 then Done(st, ())
    else if |Top(st).vars| >= MaxVars then Fail(TooManyVars)
    else
      var st1 := SetTop(st, Top(st).vars + [Var(ds[0].name, ZeroOf(t))]);
      assert Kept(st, st1);
      match ds[0].init
      case None =>
        (match Declare(st1, t, ds[1..], fuel - 1)
         case Fail(e) => Fail(e)
         case OutOfFuel => OutOfFuel
         case Done(st2, u) => KeptTrans(st, st1, st2); Done(st2, u))
      case Some(e) =>
        match Assign(st1, ds[0].name, e, fuel - 1)
        case Fail(e) => Fail(e)
        case OutOfFuel => OutOfFuel
        case Done(st2, _) =>
          KeptTrans(st, st1, st2);
          match Declare(st2, t, ds[1..], fuel - 1)
          case Fail(e) => Fail(e)
          case OutOfFuel => OutOfFuel
          case Done(st3, u) => KeptTrans(st, st2, st3); Done(st3, u)
  }

  /** Declarations without initialisers that fit in the frame append each
      name, at the zero of its type, to the running frame, and change
      nothing else. */
  lemma {:induction false} DeclarePlain(st: State, t: VarType, ds: seq<Decl>, fuel: nat)
    requires |st.stack| > 0 && t != VoidT && !HasInit(ds)
    requires |Top(st).vars| + |ds| <= MaxVars && fuel > |ds|
    ensures Declare(st, t, ds, fuel) == Done(SetTop(st, Top(st).vars + ZeroVars(t, ds)), ())
    decreases |ds|
  {
    if |ds| == 0 {
      assert Top(st).vars + ZeroVars(t, ds) == Top(st).vars;
      assert st.stack[|st.stack| - 1 := Top(st)] == st.stack;
    } else {
      assert ds[0].init.None?;
      HasInitTail(ds);
      var st1 := SetTop(st, Top(st).vars + [Var(ds[0].name, ZeroOf(t))]);
      DeclarePlain(st1, t, ds[1..], fuel - 1);
      assert ZeroVars(t, ds) == [Var(ds[0].name, ZeroOf(t))] + ZeroVars(t, ds[1..]);
      AppendAssoc(Top(st).vars, [Var(ds[0].name, ZeroOf(t))], ZeroVars(t, ds[1..]));
      assert SetTop(st1, Top(st1).vars + ZeroVars(t, ds[1..])) == SetTop(st, Top(st).vars + ZeroVars(t, ds));
    }
  }

  /** A declaration with a call-free initialiser appends the name to the
      running frame, holding the initialiser's value, read with the new
      variable in scope and converted to the declared type. */
  lemma DeclareInitialised(st: State, t: VarType, n: string, e: string, fuel: nat)
    requires |st.stack| > 0 && t != VoidT && !IsFunction(e)
    requires Declare(st, t, [Decl(n, Some(e))], fuel).Done?
    ensures var locals := Top(st).vars + [Var(n, ZeroOf(t))];
      var v := Expression(e, Scope(locals, st.globals));
      && v.Ok? && Coerce(ZeroOf(t), v.value).Ok?
      && Top(Declare(st, t, [Decl(n, Some(e))], fuel).st).vars == Top(st).vars + [Var(n, Coerce(ZeroOf(t), v.value).value)]
  {
    var locals := Top(st).vars + [Var(n, ZeroOf(t))];
    var st1 := SetTop(st, locals);
    var ds := [Decl(n, Some(e))];
    assert ds[1..] == [];
    var a := Assign(st1, n, e, fuel - 1);
    AssignPlain(st1, n, e, fuel - 1);
    var st2 := a.st;
    assert Declare(st, t, ds, fuel) == Done(st2, ());
    var sc := Scope(locals, st.globals);
    var v := Expression(e, sc).value;
    var last := |locals| - 1;
    assert locals[last].name == n;
    var k, nv :| 0 <= k < |sc.locals| && sc.locals[k].name == n
      && (forall j :: k < j < |sc.locals| ==> sc.locals[j].name != n)
      && Coerce(sc.locals[k].val, v) == Ok(nv)
      && Scope(Top(st2).vars, st2.globals) == Scope(sc.locals[k := Var(n, nv)], sc.globals);
    assert k == last;
    assert locals[last := Var(n, nv)] == Top(st).vars + [Var(n, nv)];
  }

  /** `set_var` on the running frame and the globals. */
  function Store(st: State, name: string, v: Value): (r: Result<State>)
    requires |st.stack| > 0
    ensures r.Ok? <==> SetVar(Scope(Top(st).vars, st.globals), name, v).Ok?
    ensures r.Ok? ==> |r.value.stack| == |st.stack|
    ensures r.Ok? ==>
      && SetVar(Scope(Top(st).vars, st.globals), name, v) == Ok(Scope(Top(r.value).vars, r.value.globals))
      && Kept(st, r.value) && SameShape(Top(r.value).vars, Top(st).vars)
      && r.value.text == st.text && r.value.trace == st.trace
  {
    match SetVar(Scope(Top(st).vars, st.globals), name, v)
    case Fatal(err) => Fatal(err)
    case Ok(sc) =>
      SetVarShape(Scope(Top(st).vars, st.globals), name, v);
      assert |sc.locals| == |Top(st).vars|;
      Ok(SetTop(st, sc.locals).(globals := sc.globals))
  }

  /** `set_var(name, run_expression(e))`. */
  function Assign(st: State, name: string, e: string, fuel: nat): (r: Exec<()>)
    requires |st.stack| > 0
    ensures r.Done? ==> Kept(st, r.st) && SameShape(Top(r.st).vars, Top(st).vars)
    decreases fuel, 1
  {
    match Eval(st, e, fuel)
    case Fail(err) => Fail(err)
    case OutOfFuel => OutOfFuel
    case Done(st1, v) =>
      ReturnedKept(st, st1);
      match Store(st1, name, v)
      case Fatal(err) => Fail(err)
      case Ok(st2) => KeptTrans(st, st1, st2); Done(st2, ())
  }

  /** An assignment of a call-free expression stores its value as `set_var`
      does and touches neither the script nor the shell trace. */
  lemma AssignPlain(st: State, name: string, e: string, fuel: nat)
    requires |st.stack| > 0 && !IsFunction(e) && Assign(st, name, e, fuel).Done?
    ensures var r := Assign(st, name, e, fuel);
      var sc := Scope(Top(st).vars, st.globals);
      && r.st.text == st.text && r.st.trace == st.trace
      && Expression(e, sc).Ok?
      && SetVar(sc, name, Expression(e, sc).value) == Ok(Scope(Top(r.st).vars, r.st.globals))
  {
  }

  /** The rest of `run_line` after the declaration step: `if`, `for`, and
      else an assignment or a call. */
  function Statement(st: State, i: int, fuel: nat): (r: Exec<Step>)
    requires |st.stack| > 0
    ensures r.Done? ==> Kept(st, r.st) && r.val.lines >= 1
    decreases fuel, 1
  {
    if fuel == 0 then OutOfFuel
    else
      match LineAt(st.text, i)
      case Fatal(e) => Fail(e)
      case Ok(line) =>
        if HasPrefix(line, IfKw) then IfStatement(st, i, fuel - 1)
        else if HasPrefix(line, ForKw) then
          match GetForBlock(st.text, i)
          case Fatal(e) => Fail(e)
          case Ok(Some(b)) => RunFor(st, b, fuel - 1)
          case Ok(None) => Fail(UnknownLine)
        else Simple(st, i, line, fuel - 1)
  }

  /** An `if` line: an if-else block when the `if` block is followed by an
      `else`, a plain `if` block otherwise. */
  function IfStatement(st: State, i: int, fuel: nat): (r: Exec<Step>)
    requires |st.stack| > 0 && 0 <= i < |st.text|
    ensures r.Done? ==> Kept(st, r.st) && r.val.lines >= 1
    decreases fuel, 2
  {
    match GetIfElseBlock(st.text, i)
    case Fatal(e) => Fail(e)
    case Ok(Some(b)) => RunIfElse(st, b, fuel)
    case Ok(None) =>
      match GetIfBlock(st.text, i)
      case Fatal(e) => Fail(e)
      case Ok(Some(b)) => RunIf(st, b, fuel)
      case Ok(None) => Fail(UnknownLine)
  }

  /** An `if` header whose body closes at `k` before line 37, followed by an
      `else` line and a second body closing at `k2`, runs as that
      `if`-`else` block. */
  lemma IfStatementWithElse(st: State, i: int, k: nat, k2: nat, fuel: nat)
    requires |st.stack| > 0 && 0 <= i < |st.text| && i + 1 < MaxLines
    requires ClosesAt(st.text, i + 1, k) && k < MaxLines - 3
    requires k + 1 < |st.text| && Strcmp(st.text[k + 1], "else") == 0
    requires ClosesAt(st.text, k + 2, k2) && k2 < MaxLines
    ensures IfStatement(st, i, fuel) ==
      RunIfElse(st, IfElseBlock(i + 2, k - 1, k + 3, k2 - 1, CondText(st.text[i])), fuel)
  {
    GetIfElseBlockFinds(st.text, i, k, k2);
  }

  /** An `if` header whose body closes at `k`, and is either too late in the
      table for an `else` or not followed by one, runs as a plain `if`
      block. */
  lemma IfStatementWithoutElse(st: State, i: int, k: nat, fuel: nat)
    requires |st.stack| > 0 && 0 <= i < |st.text| && i + 1 < MaxLines
    requires ClosesAt(st.text, i + 1, k) && k < MaxLines
    requires k >= MaxLines - 3 || (k + 1 < |st.text| && Strcmp(st.text[k + 1], "else") != 0)
    ensures IfStatement(st, i, fuel) == RunIf(st, IfBlock(i + 2, k - 1, CondText(st.text[i])), fuel)
  {
    GetIfBlockOnly(st.text, i, k);
  }

  /** Any other line: `++` and `--` are rewritten in the script itself, then
      the rewritten line runs. */
  function Simple(st: State, i: int, line: string, fuel: nat): (r: Exec<Step>)
    requires |st.stack| > 0 && 0 <= i < |st.text|
    ensures r.Done? ==> Kept(st, r.st) && r.val == Step(1, None)
    ensures r.Done? ==> SameShape(Top(r.st).vars, Top(st).vars)
    decreases fuel, 3
  {
    var st1 := st.(text := st.text[i := ConvertIncDec(line)]);
    var r := Rewritten(st1, ConvertIncDec(line), fuel);
    RewrittenKept(st, st1, r);
    r
  }

  /** What the rewritten line keeps of the script's state, it keeps of the
      state before the rewrite. */
  lemma RewrittenKept(st: State, st1: State, r: Exec<Step>)
    requires |st.stack| > 0 && st1 == st.(text := st1.text) && |st1.text| == |st.text|
    requires r.Done? ==> Kept(st1, r.st) && SameShape(Top(r.st).vars, Top(st1).vars)
    ensures r.Done? ==> Kept(st, r.st) && SameShape(Top(r.st).vars, Top(st).vars)
  {
    if r.Done? {
      KeptTrans(st, st1, r.st);
    }
  }

  /** A rewritten line with exactly one '=' outside quotes is an assignment,
      and else it must be a call. */
  function Rewritten(st: State, line: string, fuel: nat): (r: Exec<Step>)
    requires |st.stack| > 0
    ensures r.Done? ==> Kept(st, r.st) && r.val == Step(1, None)
    ensures r.Done? ==> SameShape(Top(r.st).vars, Top(st).vars)
    decreases fuel, 2
  {
    var pieces := Split.Split(line, '=');
    if |pieces| != 2 then
      if IsFunction(line) then
        match Call(st, line, fuel)
        case Fail(e) => Fail(e)
        case OutOfFuel => OutOfFuel
        case Done(st1, _) =>
          ReturnedKept(st, st1);
          assert Top(st1) == Top(st);
          Done(st1, Step(1, None))
      else Fail(UnknownLine)
    else
      match Assign(st, pieces[0], pieces[1], fuel)
      case Fail(e) => Fail(e)
      case OutOfFuel => OutOfFuel
      case Done(st1, _) => Done(st1, Step(1, None))
  }

  /** A rewritten line `n=e` runs as the assignment of `e` to `n`. */
  lemma RewrittenAssigns(st: State, n: string, e: string, fuel: nat)
    requires |st.stack| > 0
    requires n != [] && e != [] && '=' !in n && '=' !in e && '\'' !in n && '"' !in n
    ensures var r := Rewritten(st, n + "=" + e, fuel);
      var a := Assign(st, n, e, fuel);
      && r.Done? == a.Done? && r.Fail? == a.Fail?
      && (r.Done? ==> r.st == a.st)
      && (r.Fail? ==> r.err == a.err)
  {
    SplitAssignment(n, e);
  }

  /** A rewritten line without '=' runs as a call when it is call-shaped,
      and is an unknown line otherwise. */
  lemma RewrittenCall(st: State, line: string, fuel: nat)
    requires |st.stack| > 0 && '=' !in line
    ensures !IsFunction(line) ==> Rewritten(st, line, fuel) == Fail(UnknownLine)
    ensures var r := Rewritten(st, line, fuel);
      var c := Call(st, line, fuel);
      IsFunction(line) ==>
        && r.Done? == c.Done? && r.Fail? == c.Fail?
        && (r.Done? ==> r.st == c.st)
        && (r.Fail? ==> r.err == c.err)
  {
    SplitWithoutDelimiter(line, '=');
  }

  /** `run_if_block`. */
  function RunIf(st: State, b: IfBlock, fuel: nat): (r: Exec<Step>)
    requires |st.stack| > 0
    ensures r.Done? ==> Kept(st, r.st) && r.val.lines == IfSpan(b)
    ensures r.Done? ==> Condition(b.condition, Scope(Top(st).vars, st.globals)).Ok?
    ensures r.Done? && !Condition(b.condition, Scope(Top(st).vars, st.globals)).value ==>
      r.st == st && r.val.ret == None
    decreases fuel, 1
  {
    if fuel == 0 then OutOfFuel
    else
      match Condition(b.condition, Scope(Top(st).vars, st.globals))
      case Fatal(e) => Fail(e)
      case Ok(false) => Done(st, Step(IfSpan(b), None))
      case Ok(true) =>
        match RunLines(st, b.start, b.end, fuel - 1)
        case Fail(e) => Fail(e)
        case OutOfFuel => OutOfFuel
        case Done(st1, ret) => Done(st1, Step(IfSpan(b), ret))
  }

  /** `run_if_else_block`. */
  function RunIfElse(st: State, b: IfElseBlock, fuel: nat): (r: Exec<Step>)
    requires |st.stack| > 0
    ensures r.Done? ==> Kept(st, r.st) && r.val.lines == IfElseSpan(b)
    ensures r.Done? ==> Condition(b.condition, Scope(Top(st).vars, st.globals)).Ok?
    decreases fuel, 1
  {
    if fuel == 0 then OutOfFuel
    else
      match Condition(b.condition, Scope(Top(st).vars, st.globals))
      case Fatal(e) => Fail(e)
      case Ok(c) =>
        match (if c then RunLines(st, b.ifStart, b.ifEnd, fuel - 1) else RunLines(st, b.elseStart, b.elseEnd, fuel - 1))
        case Fail(e) => Fail(e)
        case OutOfFuel => OutOfFuel
        case Done(st1, ret) => Done(st1, Step(IfElseSpan(b), ret))
  }

  /** When its condition holds, an `if`-`else` block runs its `if` part
      exactly as an `if` block with the same condition and body would. */
  lemma IfElseTrueBranch(st: State, b: IfElseBlock, fuel: nat)
    requires |st.stack| > 0
    requires Condition(b.condition, Scope(Top(st).vars, st.globals)) == Ok(true)
    ensures var r := RunIfElse(st, b, fuel);
      var r' := RunIf(st, IfBlock(b.ifStart, b.ifEnd, b.condition), fuel);
      && r.Done? == r'.Done? && r.Fail? == r'.Fail?
      && (r.Done? ==> r.st == r'.st && r.val.ret == r'.val.ret)
      && (r.Fail? ==> r.err == r'.err)
  {
    if fuel > 0 {
      var inner := RunLines(st, b.ifStart, b.ifEnd, fuel - 1);
      assert RunIfElse(st, b, fuel) == match inner
        case Fail(e) => Fail(e)
        case OutOfFuel => OutOfFuel
        case Done(st1, ret) => Done(st1, Step(IfElseSpan(b), ret));
      assert RunIf(st, IfBlock(b.ifStart, b.ifEnd, b.condition), fuel) == match inner
        case Fail(e) => Fail(e)
        case OutOfFuel => OutOfFuel
        case Done(st1, ret) => Done(st1, Step(IfSpan(IfBlock(b.ifStart, b.ifEnd, b.condition)), ret));
    }
  }

  /** When its condition holds, an `if` block runs its body and nothing
      else, and reports a `return` from it. */
  lemma IfTrueBranch(st: State, b: IfBlock, fuel: nat)
    requires |st.stack| > 0 && fuel > 0
    requires Condition(b.condition, Scope(Top(st).vars, st.globals)) == Ok(true)
    ensures var r := RunIf(st, b, fuel);
      var r' := RunLines(st, b.start, b.end, fuel - 1);
      && r.Done? == r'.Done? && r.Fail? == r'.Fail?
      && (r.Done? ==> r.st == r'.st && r.val.ret == r'.val)
      && (r.Fail? ==> r.err == r'.err)
  {
    var inner := RunLines(st, b.start, b.end, fuel - 1);
    assert RunIf(st, b, fuel) == match inner
      case Fail(e) => Fail(e)
      case OutOfFuel => OutOfFuel
      case Done(st1, ret) => Done(st1, Step(IfSpan(b), ret));
  }

  /** When its condition fails, an `if`-`else` block runs its `else` body
      and nothing else, and reports a `return` from it. */
  lemma IfElseFalseBranch(st: State, b: IfElseBlock, fuel: nat)
    requires |st.stack| > 0 && fuel > 0
    requires Condition(b.condition, Scope(Top(st).vars, st.globals)) == Ok(false)
    ensures var r := RunIfElse(st, b, fuel);
      var r' := RunLines(st, b.elseStart, b.elseEnd, fuel - 1);
      && r.Done? == r'.Done? && r.Fail? == r'.Fail?
      && (r.Done? ==> r.st == r'.st && r.val.ret == r'.val)
      && (r.Fail? ==> r.err == r'.err)
  {
    var inner := RunLines(st, b.elseStart, b.elseEnd, fuel - 1);
    assert RunIfElse(st, b, fuel) == match inner
      case Fail(e) => Fail(e)
      case OutOfFuel => OutOfFuel
      case Done(st1, ret) => Done(st1, Step(IfElseSpan(b), ret));
  }

  /** An `init` or `back` clause of a `for`: an assignment when it splits
      into exactly two pieces at '=', and nothing otherwise. */
  function Clause(st: State, clause: string, fuel: nat): (r: Exec<()>)
    requires |st.stack| > 0
    ensures r.Done? ==> Kept(st, r.st)
    decreases fuel, 2
  {
    var pieces := Split.Split(clause, '=');
    if |pieces| == 2 then Assign(st, pieces[0], pieces[1], fuel) else Done(st, ())
  }

  /** A text `n=e` with a quote-free name and no other '=' splits at '='
      into exactly the name and the value. */
  lemma SplitAssignment(n: string, e: string)
    requires n != [] && e != [] && '=' !in n && '=' !in e && '\'' !in n && '"' !in n
    ensures Split.Split(n + "=" + e, '=') == [n, e]
  {
    SplitFirst(n, '=', e);
    SplitWithoutDelimiter(e, '=');
    assert n + "=" + e == n + ['='] + e;
  }

  /** A clause without '=' leaves the state as it is. */
  lemma ClauseWithoutAssignment(st: State, clause: string, fuel: nat)
    requires |st.stack| > 0 && '=' !in clause
    ensures Clause(st, clause, fuel) == Done(st, ())
  {
    SplitWithoutDelimiter(clause, '=');
  }

  /** A clause `n=e` is the assignment of `e` to `n`. */
  lemma ClauseAssigns(st: State, n: string, e: string, fuel: nat)
    requires |st.stack| > 0
    requires n != [] && e != [] && '=' !in n && '=' !in e && '\'' !in n && '"' !in n
    ensures Clause(st, n + "=" + e, fuel) == Assign(st, n, e, fuel)
  {
    SplitAssignment(n, e);
  }

  /** `run_for_block`: the initial clause, then the loop. */
  function RunFor(st: State, b: ForBlock, fuel: nat): (r: Exec<Step>)
    requires |st.stack| > 0
    ensures r.Done? ==> Kept(st, r.st) && r.val.lines == ForSpan(b)
    ensures r.Done? && r.val.ret == None ==>
      Condition(b.condition, Scope(Top(r.st).vars, r.st.globals)) == Ok(false)
    ensures fuel > 0 && Clause(st, b.init, fuel - 1).Done? ==>
      r == ForLoop(Clause(st, b.init, fuel - 1).st, b, fuel - 1)
    ensures fuel > 0 && Clause(st, b.init, fuel - 1).Fail? ==> r == Fail(Clause(st, b.init, fuel - 1).err)
    decreases fuel, 3
  {
    if fuel == 0 then OutOfFuel
    else
      match Clause(st, b.init, fuel - 1)
      case Fail(e) => Fail(e)
      case OutOfFuel => OutOfFuel
      case Done(st1, _) =>
        match ForLoop(st1, b, fuel - 1)
        case Fail(e) => Fail(e)
        case OutOfFuel => OutOfFuel
        case Done(st2, step) => KeptTrans(st, st1, st2); Done(st2, step)
  }

  /** The `while` of `run_for_block`: test, body, back clause, again; a
      `return` in the body ends the loop. */
  function ForLoop(st: State, b: ForBlock, fuel: nat): (r: Exec<Step>)
    requires |st.stack| > 0
    ensures r.Done? ==> Kept(st, r.st) && r.val.lines == ForSpan(b)
    ensures r.Done? && r.val.ret == None ==>
      Condition(b.condition, Scope(Top(r.st).vars, r.st.globals)) == Ok(false)
    decreases fuel, 1
  {
    if fuel == 0 then OutOfFuel
    else
      match Condition(b.condition, Scope(Top(st).vars, st.globals))
      case Fatal(e) => Fail(e)
      case Ok(false) => Done(st, Step(ForSpan(b), None))
      case Ok(true) =>
        match RunLines(st, b.start, b.end, fuel - 1)
        case Fail(e) => Fail(e)
        case OutOfFuel => OutOfFuel
        case Done(st1, Some(v)) => Done(st1, Step(ForSpan(b), Some(v)))
        case Done(st1, None) =>
          match Clause(st1, b.back, fuel - 1)
          case Fail(e) => Fail(e)
          case OutOfFuel => OutOfFuel
          case Done(st2, _) =>
            match ForLoop(st2, b, fuel - 1)
            case Fail(e) => Fail(e)
            case OutOfFuel => OutOfFuel
            case Done(st3, step) => KeptTrans(st, st1, st2); KeptTrans(st, st2, st3); Done(st3, step)
  }

  /** The text between the '(' of a call and the next ')' has no ')', so no
      argument of a call is itself a call: this is why `Argument` evaluates
      with the call-free evaluator. */
  lemma ArgumentsAreNotCalls(call: string)
    ensures forall k :: 0 <= k < |CallArgs(call)| ==> !IsFunction(CallArgs(call)[k])
  {
    SplitAvoids(ArgText(call), ',', ')');
    var args := CallArgs(call);
    forall k | 0 <= k < |args|
      ensures !IsFunction(args[k])
    {
      NoCloseNotFunction(args[k]);
    }
  }

  /** An argument without an operator is read as the same text would be
      read as an operand, except that a VOID value is refused. */
  lemma ArgumentAgrees(p: string, s: Scope)
    requires NoOperator(p)
    ensures Expression(p, s).Ok? && Expression(p, s).value != Void ==> Argument(p, Ok(s)) == Expression(p, s)
    ensures Expression(p, s).Fatal? ==> Argument(p, Ok(s)) == Expression(p, s)
    ensures Expression(p, s) == Ok(Void) ==> Argument(p, Ok(s)) == Fatal(UnknownVariable)
  {
    assert OperatorOf(p) == None;
    if Atoi(p) != 0 || At(p, 0) == '0' {
      assert |p| > 0;
    }
  }

  /** An argument that starts with a number is that number: `f(1+2)` passes
      1, where the same text as an expression is 3. */
  lemma ArgumentLeadingNumber(s: Scope)
    ensures Argument("1+2", Ok(s)) == Ok(IntV(1))
    ensures Expression("1+2", s) == Ok(IntV(3))
  {
    assert DigitRun("1+2") == 1 && DigitRun("1") == 1 && DigitRun("2") == 1;
    assert Atoi("1+2") == 1 && Atoi("1") == 1 && Atoi("2") == 2;
    assert "1+2" == "1" + [Symbol(Add)] + "2" + [];
    ExpressionParse("1", Add, "2", [], s);
  }

  /** A comment line of the script becomes an empty line, which the
      interpreter steps over without touching anything. */
  lemma CommentSkipped(lines: seq<string>, st: State, i: nat, fuel: nat)
    requires st.text == CleanText(lines) && |st.stack| > 0 && fuel > 0
    requires i < |lines| && i < MaxLines
    requires |lines[i]| >= 2 && lines[i][0] == '/' && lines[i][1] == '/'
    ensures RunLine(st, i, fuel) == Done(st, Step(1, None))
  {
    CommentBlanked(lines[i]);
  }

  lemma MainName()
    ensures StrcatN([], "main()", Seek("main()", '(', 0)) == "main"
  {
    assert Seek("main()", '(', 4) == 4;
    assert Seek("main()", '(', 0) == 4;
  }

  /** A new frame holds no more variables than its function has parameters. */
  lemma PushSound(st: State, call: string)
    requires Sound(st) && forall f :: f in st.funcs ==> |f.params| <= MaxVars
    requires PushFunction(st, call).Ok?
    ensures Sound(PushFunction(st, call).value)
  {
    var st1 := PushFunction(st, call).value;
    PushFunctionSpec(st, call);
    assert |st.stack| < MaxStack;
    forall k | 0 <= k < |st1.stack|
      ensures |st1.stack[k].vars| <= MaxVars
    {
      if k < |st.stack| {
        assert st1.stack[k] == st1.stack[..|st.stack|][k];
      } else {
        assert Top(st1).func in st.funcs;
      }
    }
  }

  /** The set-up of `process_text`: clean every line, collect the functions
      and the globals, and push the frame of `main()`. */
  function Start(lines: seq<string>): (r: Result<State>)
    ensures r.Ok? ==> |r.value.stack| == 1 && |r.value.text| == |lines| && Sound(r.value)
    ensures r.Ok? ==> Top(r.value).func in r.value.funcs && Strcmp("main", Top(r.value).func.name) == 0
  {
    var text := CleanText(lines);
    match FindFunctions(text)
    case Fatal(e) => Fatal(e)
    case Ok(funcs) =>
      match FindGlobalVars(text, funcs)
      case Fatal(e) => Fatal(e)
      case Ok(globals) =>
        var st := State(text, funcs, globals, [], []);
        match PushFunction(st, "main()")
        case Fatal(e) => Fatal(e)
        case Ok(st1) =>
          MainName();
          PushSound(st, "main()");
          Ok(st1)
  }

  /** `process_text` followed by `execute_text`: set up, then run `main`. A
      run that finishes has popped every frame, and its value has `main`'s
      declared type. */
  function ProcessText(lines: seq<string>, fuel: nat): (r: Exec<Value>)
    ensures r.Done? ==> r.st.stack == [] && |r.st.text| == |lines| && Sound(r.st)
    ensures r.Done? ==> exists f :: f in r.st.funcs && Strcmp("main", f.name) == 0 && TypeOf(r.val) == f.retType
  {
    match Start(lines)
    case Fatal(e) => Fail(e)
    case Ok(st) => RunFunction(st, fuel)
  }
}

=== FILE: expr.dfy ===
/**
  Call-free evaluation: `calculate` (two operands, one operator, the type
  table of the interpreter), the operator choice of `run_expression`, and the
  conditions of `if` and `for` (`get_condition_result`, `calculate_condition`).
 */
module Expr {
  import opened CInt
  import opened Text
  import opened Split
  import opened Values

  datatype Op = Add | Sub | Mul | Div

  function Symbol(op: Op): (c: char)
    ensures Delimiter(c)
  {
    match op
    case Add => '+'
    case Sub => '-'
    case Mul => '*'
    case Div => '/'
  }

  /** The operator `run_expression` splits on: the first of '+', '-', '*', '/'
      that occurs anywhere in the text, tried in that order. */
  function OperatorOf(e: string): (r: Option<Op>)
    ensures r == None <==> '+' !in e && '-' !in e && '*' !in e && '/' !in e
    ensures r.Some? ==> Symbol(r.value) in e
    ensures r == Some(Sub) ==> '+' !in e
    ensures r == Some(Mul) ==> '+' !in e && '-' !in e
    ensures r == Some(Div) ==> '+' !in e && '-' !in e && '*' !in e
  {
    if IndexOf(e, '+') < |e| then Some(Add)
    else if IndexOf(e, '-') < |e| then Some(Sub)
    else if IndexOf(e, '*') < |e| then Some(Mul)
    else if IndexOf(e, '/') < |e| then Some(Div)
    else None
  }

  /** The mathematical result of an operator on two C ints, with C's
      truncating division. */
  function Arith(a: int, b: int, op: Op): (r: Result<int>)
    ensures r.Fatal? <==> op == Div && b == 0
    ensures r.Ok? && op == Div ==> Abs(r.value) <= Abs(a) && Abs(a - b * r.value) < Abs(b)
  {
    match op
    case Add => Ok(a + b)
    case Sub => Ok(a - b)
    case Mul => Ok(a * b)
    case Div => if b == 0 then Fatal(DivByZero) else Ok(TruncDiv(a, b))
  }

  /** The text form of a value when it is appended to text: what `itoa`
      writes for an int (nothing for 0), the single character (none for NUL)
      for a char. */
  function Shown(v: Value): string {
    match v
    case IntV(n) => ItoaAsWritten(n)
    case CharV(c) => UntilNul([CharOf(c)])
    case StrV(s) => s
    case Void => []
  }

  predicate Numeric(t: VarType) {
    t == IntT || t == CharT
  }

  /** The result type of `calculate`, as a table: numbers mixed with an int
      give INT, two chars give CHAR, '+' with text on either side gives text,
      and everything else gives VOID. */
  function ResultType(lt: VarType, rt: VarType, op: Op): VarType {
    if Numeric(lt) && Numeric(rt) then (if lt == CharT && rt == CharT then CharT else IntT)
    else if op == Add && lt == StringT && rt != VoidT then StringT
    else if op == Add && rt == StringT && Numeric(lt) then StringT
    else VoidT
  }

  function NumberOf(v: Value): int {
    match v
    case IntV(n) => n
    case CharV(c) => c
    case _ => 0
  }

  /** The branches of `calculate` after both operands are read. */
  function Combine(l: Value, r: Value, op: Op): (res: Result<Value>)
    ensures res.Ok? ==> TypeOf(res.value) == ResultType(TypeOf(l), TypeOf(r), op)
    ensures res.Fatal? <==>
      Numeric(TypeOf(l)) && Numeric(TypeOf(r)) &&
      (|| Arith(NumberOf(l), NumberOf(r), op).Fatal?
       || ((TypeOf(l) == IntT || TypeOf(r) == IntT) && !InInt32(Arith(NumberOf(l), NumberOf(r), op).value)))
    ensures res.Ok? && res.value.IntV? ==> res.value.i == Arith(NumberOf(l), NumberOf(r), op).value
    ensures res.Ok? && res.value.CharV? ==> (Arith(NumberOf(l), NumberOf(r), op).value - res.value.c) % 256 == 0
    ensures res.Ok? && res.value.StrV? ==>
      res.value.s == (if |Shown(l)| + |Shown(r)| < MaxLineLength then Shown(l) + Shown(r) else Shown(l))
  {
    if Numeric(TypeOf(l)) && Numeric(TypeOf(r)) then
      match Arith(NumberOf(l), NumberOf(r), op)
      case Fatal(e) => Fatal(e)
      case Ok(n) =>
        if l.CharV? && r.CharV? then Ok(CharV(Narrow(n)))
        else if InInt32(n) then Ok(IntV(n))
        else Fatal(Overflow)
    else if ResultType(TypeOf(l), TypeOf(r), op) == StringT then
      Ok(StrV(StrcatN(Shown(l), Shown(r), |Shown(r)|)))
    else Ok(Void)
  }

  /** Text plus a non-negative int appends what `itoa` writes, which reads
      back as the number; for 0 that is nothing at all. */
  lemma CombineAppendsNumber(s: string, n: int)
    requires 0 <= n <= IntMax && |s| + |ItoaAsWritten(n)| < MaxLineLength
    ensures Combine(StrV(s), IntV(n), Add) == Ok(StrV(s + ItoaAsWritten(n)))
    ensures Atoi(ItoaAsWritten(n)) == n
    ensures n == 0 ==> Combine(StrV(s), IntV(n), Add) == Ok(StrV(s))
  {
    ItoaAsWrittenReadBack(n);
  }

  /** `calculate`: split on the operator and combine the values of the first
      two pieces; text after a second operator is ignored. */
  function Calculate(e: string, op: Op, sc: Scope): (r: Result<Value>)
    ensures var ps := Split.Split(e, Symbol(op));
      && (|ps| < 2 && (|ps| == 0 || GetVar(ps[0], sc).Ok?) ==> r == Fatal(EmptyOperand))
      && (r.Ok? ==>
            && |ps| >= 2 && GetVar(ps[0], sc).Ok? && GetVar(ps[1], sc).Ok?
            && r == Combine(GetVar(ps[0], sc).value, GetVar(ps[1], sc).value, op))
  {
    var pieces := Split.Split(e, Symbol(op));
    if |pieces| == 0 then Fatal(EmptyOperand)
    else
      match GetVar(pieces[0], sc)
      case Fatal(err) => Fatal(err)
      case Ok(l) =>
        if |pieces| < 2 then Fatal(EmptyOperand)
        else
          match GetVar(pieces[1], sc)
          case Fatal(err) => Fatal(err)
          case Ok(r) => Combine(l, r, op)
  }

  /** Only the first two pieces of the split matter. */
  lemma CalculateFirstTwo(e: string, e': string, op: Op, sc: Scope)
    requires |Split.Split(e, Symbol(op))| >= 2 && |Split.Split(e', Symbol(op))| >= 2
    requires Split.Split(e, Symbol(op))[..2] == Split.Split(e', Symbol(op))[..2]
    ensures Calculate(e, op, sc) == Calculate(e', op, sc)
  {
    assert Split.Split(e, Symbol(op))[0] == Split.Split(e, Symbol(op))[..2][0];
    assert Split.Split(e, Symbol(op))[1] == Split.Split(e, Symbol(op))[..2][1];
  }

  /** `run_expression` on text that is not call-shaped: the operator chosen by
      `OperatorOf`, or a single operand. */
  function Expression(e: string, sc: Scope): (r: Result<Value>)
    ensures OperatorOf(e).None? ==> r == GetVar(e, sc)
  {
    match OperatorOf(e)
    case Some(op) => Calculate(e, op, sc)
    case None => GetVar(e, sc)
  }

  predicate NoOperator(s: string) {
    '+' !in s && '-' !in s && '*' !in s && '/' !in s
  }

  /** `a op b …`: with operands free of operators (and no quote in `a`), and
      nothing after `b` but more of the same operator, the expression
      combines the values of `a` and `b`; text from a second operator on is
      ignored. */
  lemma ExpressionParse(a: string, op: Op, b: string, rest: string, sc: Scope)
    requires a != [] && NoOperator(a) && '\'' !in a && '"' !in a
    requires b != [] && NoOperator(b) && '\'' !in b && '"' !in b
    requires rest == [] || (rest[0] == Symbol(op) && OperatorOf(rest) == Some(op))
    ensures var r := Expression(a + [Symbol(op)] + b + rest, sc);
      && (GetVar(a, sc).Fatal? ==> r == Fatal(GetVar(a, sc).err))
      && (GetVar(a, sc).Ok? && GetVar(b, sc).Fatal? ==> r == Fatal(GetVar(b, sc).err))
      && (GetVar(a, sc).Ok? && GetVar(b, sc).Ok? ==> r == Combine(GetVar(a, sc).value, GetVar(b, sc).value, op))
  {
    var e := a + [Symbol(op)] + b + rest;
    JoinedOperator(a, op, b, rest);
    JoinedPieces(a, op, b, rest);
    assert Split.Split(e, Symbol(op))[0] == a && Split.Split(e, Symbol(op))[1] == b;
  }

  /** `a op b …` is split at `op` when its operands hold no operator. */
  lemma JoinedOperator(a: string, op: Op, b: string, rest: string)
    requires NoOperator(a) && NoOperator(b)
    requires rest == [] || (rest[0] == Symbol(op) && OperatorOf(rest) == Some(op))
    ensures OperatorOf(a + [Symbol(op)] + b + rest) == Some(op)
  {
    var e := a + [Symbol(op)] + b + rest;
    assert Symbol(op) in e;
    forall c | c in e
      ensures c in a || c == Symbol(op) || c in b || c in rest
    {
    }
  }

  /** The first two pieces of `a op b …` at `op` are `a` and `b`. */
  lemma JoinedPieces(a: string, op: Op, b: string, rest: string)
    requires a != [] && NoOperator(a) && '\'' !in a && '"' !in a
    requires b != [] && NoOperator(b) && '\'' !in b && '"' !in b
    requires rest == [] || rest[0] == Symbol(op)
    ensures var ps := Split.Split(a + [Symbol(op)] + b + rest, Symbol(op));
      |ps| >= 2 && ps[0] == a && ps[1] == b
  {
    var p := Symbol(op);
    assert a + [p] + b + rest == a + [p] + (b + rest);
    SplitFirst(a, p, b + rest);
    if rest == [] {
      assert b + rest == b;
      SplitWithoutDelimiter(b, p);
    } else {
      assert b + rest == b + [p] + rest[1..];
      SplitFirst(b, p, rest[1..]);
    }
  }

  /** `1+2+3` is 3: only the first two operands are added. */
  lemma FirstTwoOperands(sc: Scope)
    ensures Expression("1+2+3", sc) == Ok(IntV(3))
  {
    assert DigitRun("1") == 1 && DigitRun("2") == 1;
    assert Atoi("1") == 1 && Atoi("2") == 2;
    assert "1+2+3" == "1" + [Symbol(Add)] + "2" + "+3";
    ExpressionParse("1", Add, "2", "+3", sc);
  }

  /** Whether a comparison operator holds for an outcome whose sign orders
      the operands; `=` and `!` on their own never hold. */
  predicate Holds(op: string, c: int) {
    if op == ">" then c > 0
    else if op == "<" then c < 0
    else if op == ">=" then c >= 0
    else if op == "<=" then c <= 0
    else if op == "==" then c == 0
    else if op == "!=" then c != 0
    else false
  }

  /** `calculate_condition` as written. Numbers compare by value, except
      that the right operand is read through the wrong type: an INT counts by
      its low byte as a signed char, and a CHAR has no defined reading. Texts
      compare with `strcmp`. Text against a number is an error. */
  function CompareAsWritten(l: Value, r: Value, op: string): (res: Result<bool>)
    ensures res.Ok? <==> (Numeric(TypeOf(l)) && r.IntV?) || (l.StrV? && r.StrV?)
    ensures Numeric(TypeOf(l)) && r.CharV? ==> res == Fatal(CharRightOperand)
    ensures res.Ok? && r.IntV? && -128 <= r.i <= 127 ==> res.value == Holds(op, NumberOf(l) - r.i)
  {
    if Numeric(TypeOf(l)) && Numeric(TypeOf(r)) then
      if r.CharV? then Fatal(CharRightOperand)
      else Ok(Holds(op, NumberOf(l) - Narrow(r.i)))
    else if l.StrV? && r.StrV? then
      Ok(Holds(op, Strcmp(l.s, r.s)))
    else Fatal(CompareError)
  }

  /** The INT right operand read as a signed char: 256 compares as 0, so
      `1<256` is false while `256>1` is true. */
  lemma LowByteQuirk()
    ensures CompareAsWritten(IntV(1), IntV(256), "<") == Ok(false)
    ensures CompareAsWritten(IntV(256), IntV(1), ">") == Ok(true)
    ensures CompareAsWritten(IntV(1), IntV(257), "==") == Ok(true)
  {
    assert Narrow(256) == 0;
    assert Narrow(257) == 1;
  }

  /** `calculate_condition` as evidently intended: each operand is read by
      its own type. Numbers (INT or CHAR) compare by value, texts with
      `strcmp`, and anything else is an error. */
  function Compare(l: Value, r: Value, op: string): (res: Result<bool>)
    ensures res.Ok? <==> (Numeric(TypeOf(l)) && Numeric(TypeOf(r))) || (l.StrV? && r.StrV?)
  {
    if Numeric(TypeOf(l)) && Numeric(TypeOf(r)) then Ok(Holds(op, NumberOf(l) - NumberOf(r)))
    else if l.StrV? && r.StrV? then Ok(Holds(op, Strcmp(l.s, r.s)))
    else Fatal(CompareError)
  }

  /** Where the code reads the right operand correctly (an INT that fits in a
      signed char), the intended comparison agrees with it. */
  lemma CompareAgrees(l: Value, r: Value, op: string)
    requires Numeric(TypeOf(l)) && r.IntV? && -128 <= r.i <= 127
    ensures CompareAsWritten(l, r, op) == Compare(l, r, op)
  {
    assert Narrow(r.i) == r.i;
  }

  /** Numbers compare by value: `a<b` exactly when `b>a`, and `==` is
      equality of the numbers, whatever their size. */
  lemma CompareNumbers(a: Int32, b: Int32)
    ensures Compare(IntV(a), IntV(b), "<") == Ok(a < b)
    ensures Compare(IntV(a), IntV(b), "<") == Compare(IntV(b), IntV(a), ">")
    ensures Compare(IntV(a), IntV(b), "==") == Ok(a == b)
    ensures Compare(IntV(a), IntV(b), "!=") == Ok(a != b)
  {
  }

  /** On script text, `==` and `!=` are text equality and inequality. */
  lemma CompareTextsEqual(a: string, b: string)
    requires CText(a) && CText(b)
    ensures Compare(StrV(a), StrV(b), "==") == Ok(a == b)
    ensures Compare(StrV(a), StrV(b), "!=") == Ok(a != b)
  {
    StrcmpZeroIff(a, b);
  }

  /** Reversing the operands of a text comparison reverses `<` and `>`. */
  lemma CompareTextsSwap(a: string, b: string)
    requires CText(a) && CText(b)
    ensures Compare(StrV(a), StrV(b), "<") == Compare(StrV(b), StrV(a), ">")
    ensures Compare(StrV(a), StrV(b), "<=") == Compare(StrV(b), StrV(a), ">=")
  {
    StrcmpAntisymmetric(a, b);
  }

  predicate IsCompareChar(c: char) {
    c == '>' || c == '<' || c == '=' || c == '!'
  }

  /** Index of the first comparison character, or `|part|`. */
  function CompareAt(part: string): (i: nat)
    ensures i <= |part|
    ensures i < |part| ==> IsCompareChar(part[i])
    ensures forall k :: 0 <= k < i ==> !IsCompareChar(part[k])
  {
    if |part| == 0 || IsCompareChar(part[0]) then 0 else 1 + CompareAt(part[1..])
  }

  /** A value as the truth of a condition: a nonzero number, or text whose
      first character is not NUL. */
  predicate Truthy(v: Value) {
    match v
    case IntV(n) => n != 0
    case CharV(c) => c != 0
    case StrV(s) => At(s, 0) != Nul
    case Void => false
  }

  /** `get_condition_result`: split at the first comparison character (with
      a following '=' as part of the operator), compare the two operands, or
      with no comparison take the truth of a single operand. */
  function Condition(part: string, sc: Scope): (r: Result<bool>)
    ensures CompareAt(part) == |part| ==>
      && (r.Ok? <==> GetVar(part, sc).Ok?)
      && (r.Ok? ==> r.value == Truthy(GetVar(part, sc).value))
      && (r.Fatal? ==> r.err == GetVar(part, sc).err)
    ensures CompareAt(part) < |part| && r.Ok? ==>
      GetVar(StrcatN([], part, CompareAt(part)), sc).Ok?
  {
    var i := CompareAt(part);
    if i < |part| then
      var two := At(part, i + 1) == '=';
      var op := [part[i]] + (if two then "=" else "");
      var left := StrcatN([], part, i);
      var right := Drop(part, i + |op|);
      match GetVar(left, sc)
      case Fatal(e) => Fatal(e)
      case Ok(l) =>
        match GetVar(right, sc)
        case Fatal(e) => Fatal(e)
        case Ok(rv) => CompareAsWritten(l, rv, op)
    else
      match GetVar(part, sc)
      case Fatal(e) => Fatal(e)
      case Ok(v) => Ok(Truthy(v))
  }

  /** Parsing a condition: `a op b`, for operands without comparison
      characters and one of the six operators, compares `a` with `b`. */
  lemma ConditionParse(a: string, op: string, b: string, sc: Scope)
    requires 0 < |a| < MaxLineLength
    requires forall k :: 0 <= k < |a| ==> !IsCompareChar(a[k])
    requires op in {">", "<", ">=", "<=", "==", "!="}
    requires |b| > 0 && b[0] != '='
    ensures var r := Condition(a + op + b, sc);
      && (GetVar(a, sc).Fatal? ==> r == Fatal(GetVar(a, sc).err))
      && (GetVar(a, sc).Ok? && GetVar(b, sc).Fatal? ==> r == Fatal(GetVar(b, sc).err))
      && (GetVar(a, sc).Ok? && GetVar(b, sc).Ok? ==> r == CompareAsWritten(GetVar(a, sc).value, GetVar(b, sc).value, op))
  {
    ConditionSplit(a, op, b);
  }

  /** Where `get_condition_result` cuts `a op b`. */
  lemma ConditionSplit(a: string, op: string, b: string)
    requires 0 < |a| < MaxLineLength
    requires forall k :: 0 <= k < |a| ==> !IsCompareChar(a[k])
    requires op in {">", "<", ">=", "<=", "==", "!="}
    requires |b| > 0 && b[0] != '='
    ensures var part := a + op + b;
      && CompareAt(part) == |a| < |part|
      && StrcatN([], part, |a|) == a
      && [part[|a|]] + (if At(part, |a| + 1) == '=' then "=" else "") == op
      && Drop(part, |a| + |op|) == b
  {
    var part := a + op + b;
    assert part[..|a|] == a;
    assert forall k :: 0 <= k < |a| ==> part[k] == a[k];
    var i := CompareAt(part);
    assert i == |a| by {
      assert part[|a|] == op[0];
    }
    assert At(part, |a| + 1) == '=' <==> |op| == 2;
    assert [part[|a|]] + (if |op| == 2 then "=" else "") == op;
  }

}

=== FILE: incdec.dfy ===
/**
  `convert_inc_dec`: the statement forms `x++` and `x--` are rewritten in place
  to the assignments `x=x+1` and `x=x-1`, within the line buffer's bound.
 */
module IncDec {
  import opened Text

  /** The first `op` of `s` is immediately followed by a second one (the
      character after the end of a line reads as NUL). */
  predicate FirstDoubled(s: string, op: char) {
    At(s, IndexOf(s, op) + 1) == op
  }

  /** The assignment that replaces the operator found at `i`: the text before
      it, '=', that text again, then `tail` ("+1" or "-1"); each append is
      dropped when the line buffer would overflow. */
  function Rewrite(part: string, i: nat, tail: string): string
    requires i <= |part|
  {
    var target := StrcatN([], part, i);
    StrcatN(StrcatN(part[..i] + "=", target, |target|), tail, |tail|)
  }

  function ConvertIncDec(part: string): (r: string) {
    var i := IndexOf(part, '+');
    if FirstDoubled(part, '+') then Rewrite(part, i, "+1")
    else
      var j := IndexOf(part, '-');
      if FirstDoubled(part, '-') then Rewrite(part, j, "-1")
      else part
  }

  /** The first occurrence of `op` is followed by another `op`, stated without
      the search function. */
  predicate DoubledAt(s: string, op: char, i: int) {
    0 <= i && i + 1 < |s| && s[i] == op && s[i + 1] == op && op !in s[..i]
  }

  /** The first `op` of `s` sits at `k` (or there is none when `k == |s|`). */
  predicate FirstAt(s: string, op: char, k: int) {
    0 <= k <= |s| && (k < |s| ==> s[k] == op) && op !in s[..k]
  }

  lemma IndexOfFirstAt(s: string, op: char, k: int)
    requires FirstAt(s, op, k)
    ensures IndexOf(s, op) == k
  {
  }

  lemma FirstDoubledIff(s: string, op: char)
    requires op != Nul
    ensures FirstDoubled(s, op) <==> exists i :: DoubledAt(s, op, i)
  {
    var i := IndexOf(s, op);
    if exists k :: DoubledAt(s, op, k) {
      var k :| DoubledAt(s, op, k);
      IndexOfFirstAt(s, op, k);
    }
    if FirstDoubled(s, op) {
      assert DoubledAt(s, op, i);
    }
  }

  /** The rewrite leaves a line alone exactly when neither its first '+' nor
      its first '-' is doubled. */
  lemma UnchangedIff(s: string)
    ensures ConvertIncDec(s) == s <==> !FirstDoubled(s, '+') && !FirstDoubled(s, '-')
  {
    if FirstDoubled(s, '+') {
      var i := IndexOf(s, '+');
      RewriteShape(s, i, "+1");
    } else if FirstDoubled(s, '-') {
      var j := IndexOf(s, '-');
      RewriteShape(s, j, "-1");
    }
  }

  /** A rewrite whose appends all fit: the target, '=', the target, the tail. */
  lemma RewriteFits(part: string, i: nat, tail: string)
    requires 0 < i <= |part| && 0 < |tail| && 2 * i + 1 + |tail| < MaxLineLength
    ensures Rewrite(part, i, tail) == part[..i] + "=" + part[..i] + tail
  {
  }

  /** `x++` becomes `x=x+1` and `x--` becomes `x=x-1` for a target without
      '+' or '-' that is short enough for the result to fit a line. */
  lemma RewritesShortTargets(x: string)
    requires 0 < |x| <= 14 && '+' !in x && '-' !in x
    ensures ConvertIncDec(x + "++") == x + "=" + x + "+1"
    ensures ConvertIncDec(x + "--") == x + "=" + x + "-1"
  {
    var p := x + "++";
    assert p[..|x|] == x;
    IndexOfFirstAt(p, '+', |x|);
    RewriteFits(p, |x|, "+1");
    var m := x + "--";
    assert m[..|x|] == x;
    assert '+' !in m;
    IndexOfFirstAt(m, '+', |m|);
    IndexOfFirstAt(m, '-', |x|);
    RewriteFits(m, |x|, "-1");
  }

  /** Shape of a rewrite of the operator at `i`: the target, '=', and then what
      fitted of the target and the tail. */
  lemma {:induction false} RewriteShape(part: string, i: nat, tail: string)
    requires i <= |part|
    ensures var r := Rewrite(part, i, tail);
      && |r| >= i + 1 && r[..i] == part[..i] && r[i] == '='
      && exists v: string, w: string ::
           && (v == part[..i] || v == [])
           && (w == tail || w == [])
           && r == part[..i] + "=" + v + w
  {
    var target := StrcatN([], part, i);
    var head := part[..i] + "=";
    var mid := StrcatN(head, target, |target|);
    var r := StrcatN(mid, tail, |tail|);
    assert target == part[..i] || target == [];
    var v: string := if mid == head then [] else target;
    assert mid == head + v;
    var w: string := if r == mid then [] else tail;
    assert r == mid + w;
    assert r == part[..i] + "=" + v + w;
  }

  /** In a rewritten line the operator just written is not doubled. */
  lemma {:induction false} OwnOperatorNotDoubled(x: string, v: string, w: string, op: char)
    requires v == x || v == []
    requires w == [op, '1'] || w == []
    requires op !in x && op != '=' && op != '1' && op != Nul
    ensures !FirstDoubled(x + "=" + v + w, op)
  {
    var r := x + "=" + v + w;
    if w == [] {
      assert op !in r;
      IndexOfFirstAt(r, op, |r|);
    } else {
      var k := |x| + 1 + |v|;
      assert r[k] == op && r[k + 1] == '1';
      assert r[..k] == x + "=" + v;
      IndexOfFirstAt(r, op, k);
    }
  }

  /** In a rewritten line another operator is doubled only when it already was
      within the target. */
  lemma {:induction false} OtherOperatorNotDoubled(x: string, v: string, w: string, op: char)
    requires v == x || v == []
    requires op !in w && op != '=' && op != Nul
    requires !FirstDoubled(x, op)
    ensures !FirstDoubled(x + "=" + v + w, op)
  {
    var r := x + "=" + v + w;
    var i := IndexOf(x, op);
    if i < |x| {
      assert x[..i] == r[..i];
      IndexOfFirstAt(r, op, i);
      if i + 1 < |x| {
        assert r[i + 1] == x[i + 1];
      } else {
        assert r[i + 1] == '=';
      }
    } else {
      assert op !in r;
      IndexOfFirstAt(r, op, |r|);
    }
  }

  /** Applying the rewrite to its own output changes nothing, as long as the
      target of a `++` holds no '-' (an `a--b++` line is rewritten twice). */
  lemma Idempotent(s: string)
    requires FirstDoubled(s, '+') ==> '-' !in s[..IndexOf(s, '+')]
    ensures ConvertIncDec(ConvertIncDec(s)) == ConvertIncDec(s)
  {
    if FirstDoubled(s, '+') {
      var i := IndexOf(s, '+');
      var x := s[..i];
      RewriteShape(s, i, "+1");
      var v: string, w: string :| (v == x || v == []) && (w == "+1" || w == []) && Rewrite(s, i, "+1") == x + "=" + v + w;
      OwnOperatorNotDoubled(x, v, w, '+');
      IndexOfFirstAt(x, '-', |x|);
      OtherOperatorNotDoubled(x, v, w, '-');
    } else if FirstDoubled(s, '-') {
      var j := IndexOf(s, '-');
      var x := s[..j];
      RewriteShape(s, j, "-1");
      var v: string, w: string :| (v == x || v == []) && (w == "-1" || w == []) && Rewrite(s, j, "-1") == x + "=" + v + w;
      OwnOperatorNotDoubled(x, v, w, '-');
      TargetNotDoubled(s, j);
      OtherOperatorNotDoubled(x, v, w, '+');
    }
  }

  /** When the first '+' of `s` is not doubled, it is not doubled within the
      text before the first '-' either. */
  lemma TargetNotDoubled(s: string, j: nat)
    requires j == IndexOf(s, '-') && j < |s|
    requires !FirstDoubled(s, '+')
    ensures !FirstDoubled(s[..j], '+')
  {
    var x := s[..j];
    var i := IndexOf(x, '+');
    if i < |x| {
      assert x[..i] == s[..i];
      IndexOfFirstAt(s, '+', i);
      if i + 1 < |x| {
        assert x[i + 1] == s[i + 1];
      }
    }
  }
}

=== FILE: literals.dfy ===
/**
  Character and text literals: `'c'`, `'\x'` and `"..."` with the C escapes
  a b f n r t v \ ' ".
 */
module Literals {
  import opened Text

  /** The escape letters `get_char_value` knows, with the character each stands for. */
  function EscapeOf(x: char): (r: Option<char>) {
    match x
    case 'a' => Some(7 as char)
    case 'b' => Some(8 as char)
    case 'f' => Some(12 as char)
    case 'n' => Some(10 as char)
    case 'r' => Some(13 as char)
    case 't' => Some(9 as char)
    case 'v' => Some(11 as char)
    case '\\' => Some('\\')
    case '\'' => Some('\'')
    case '"' => Some('"')
    case _ => None
  }

  /** `get_char_value`: three characters give the middle one, four characters
      with a backslash second give the escape, anything else gives NUL. */
  function CharValue(part: string): (c: char)
    ensures c != Nul ==> |part| == 3 || (|part| == 4 && part[1] == '\\' && EscapeOf(part[2]).Some?)
  {
    if |part| <= 2 then Nul
    else if |part| == 3 then part[1]
    else if |part| == 4 && part[1] == '\\' && EscapeOf(part[2]).Some? then EscapeOf(part[2]).value
    else Nul
  }

  /** Decode the inside of a text literal: a backslash and the next character
      decode as that escape would in a character literal; a backslash with
      nothing after it leaves a NUL. */
  function Decode(t: string): string {
    if |t| == 0 then []
    else if t[0] != '\\' then [t[0]] + Decode(t[1..])
    else if |t| >= 2 then [CharValue(['\'', '\\', t[1], '\''])] + Decode(t[2..])
    else [Nul]
  }

  /** `get_string_value`, as the C string it leaves in a zeroed buffer: drop the
      first and last character and decode the rest. */
  function StringValue(part: string): (r: string)
    ensures Nul !in r
  {
    if |part| < 2 then [] else UntilNul(Decode(part[1..|part| - 1]))
  }

  /** The letter that escapes `c`, for the characters that need one. */
  function LetterOf(c: char): Option<char> {
    if c == 7 as char then Some('a')
    else if c == 8 as char then Some('b')
    else if c == 12 as char then Some('f')
    else if c == 10 as char then Some('n')
    else if c == 13 as char then Some('r')
    else if c == 9 as char then Some('t')
    else if c == 11 as char then Some('v')
    else if c == '\\' then Some('\\')
    else if c == '\'' then Some('\'')
    else if c == '"' then Some('"')
    else None
  }

  /** How a character is written inside a literal. */
  function Escaped(c: char): string {
    match LetterOf(c)
    case Some(x) => ['\\', x]
    case None => [c]
  }

  /** A character literal for `c`. */
  function CharLiteral(c: char): string {
    ['\''] + Escaped(c) + ['\'']
  }

  function EscapedText(s: string): string {
    if |s| == 0 then [] else Escaped(s[0]) + EscapedText(s[1..])
  }

  /** A text literal for `s`. */
  function TextLiteral(s: string): string {
    ['"'] + EscapedText(s) + ['"']
  }

  lemma LetterRoundTrip(c: char)
    ensures LetterOf(c).Some? ==> EscapeOf(LetterOf(c).value) == Some(c)
  {
  }

  /** Round trip: every character other than NUL reads back from its literal,
      and a four-character literal decodes only through a known escape. */
  lemma CharLiteralRoundTrip(c: char)
    requires c != Nul
    ensures CharValue(CharLiteral(c)) == c
  {
    LetterRoundTrip(c);
  }

  lemma {:induction false} DecodeEscaped(s: string)
    requires Nul !in s
    ensures Decode(EscapedText(s)) == s
  {
    if |s| > 0 {
      DecodeEscaped(s[1..]);
      var e := Escaped(s[0]);
      var rest := EscapedText(s[1..]);
      assert EscapedText(s) == e + rest;
      LetterRoundTrip(s[0]);
      match LetterOf(s[0])
      case Some(x) =>
        assert (e + rest)[0] == '\\' && (e + rest)[1] == x;
        assert (e + rest)[2..] == rest;
        assert CharValue(['\'', '\\', x, '\'']) == s[0];
      case None =>
        assert (e + rest)[1..] == rest;
      assert s == [s[0]] + s[1..];
    }
  }

  lemma {:induction false} UntilNulNoNul(s: string)
    requires Nul !in s
    ensures UntilNul(s) == s
  {
    if |s| > 0 {
      UntilNulNoNul(s[1..]);
      assert s == [s[0]] + s[1..];
    }
  }

  /** Round trip: a text without NUL reads back from its literal. */
  lemma TextLiteralRoundTrip(s: string)
    requires Nul !in s
    ensures StringValue(TextLiteral(s)) == s
  {
    var lit := TextLiteral(s);
    assert lit[1..|lit| - 1] == EscapedText(s);
    DecodeEscaped(s);
    UntilNulNoNul(s);
  }

  /** Text without backslashes decodes to itself. */
  lemma {:induction false} DecodePlain(t: string)
    requires '\\' !in t
    ensures Decode(t) == t
  {
    if |t| > 0 {
      DecodePlain(t[1..]);
      assert t == [t[0]] + t[1..];
    }
  }
}

=== FILE: registry.dfy ===
/**
  The program registry built before anything runs: declarations on a line
  (`find_vars_in_line`), function headers and their bodies (`find_functions`,
  `get_fun_finish`) and the global variables (`find_global_vars`).
 */
module Registry {
  import opened Text
  import opened Split
  import opened Values

  const MaxLines: int := 40
  const MaxFunctions: int := 4

  /** One declared name and the text of its initialiser, if any. */
  datatype Decl = Decl(name: string, init: Option<string>)

  /** The type keywords with their trailing space, in the order the
      interpreter tests them. */
  const Keywords: seq<(string, VarType)> :=
    [("int ", IntT), ("char ", CharT), ("string ", StringT), ("void ", VoidT)]

  /** The type keyword a line starts with, and its length with the space,
      trying the keywords from `k` on. The keywords differ in their first
      letter, so at most one matches and the C's independent tests agree
      with this first match. */
  function KeywordFrom(line: string, k: nat): (r: Option<(VarType, nat)>)
    requires k <= |Keywords|
    ensures r.Some? ==> r.value.1 <= |line|
    decreases |Keywords| - k
  {
    if k == |Keywords| then None
    else
      var (kw, t) := Keywords[k];
      if |line| >= |kw| && HasPrefix(line, kw) then Some((t, |kw|)) else KeywordFrom(line, k + 1)
  }

  function TypeKeyword(line: string): (r: Option<(VarType, nat)>)
    ensures r.Some? ==> r.value.1 <= |line|
  {
    KeywordFrom(line, 0)
  }

  /** The declaration keyword a line starts with, with its type and length;
      the rest of the line must have no parenthesis before its first '='. */
  function DeclKeyword(line: string): (r: Option<(VarType, nat)>)
    ensures r.Some? ==> r.value.0 != VoidT && r.value.1 <= |line| && IsVariable(line[r.value.1..])
    ensures r.Some? ==> TypeKeyword(line) == r
  {
    match TypeKeyword(line)
    case Some((t, n)) => if t != VoidT && IsVariable(line[n..]) then Some((t, n)) else None
    case None => None
  }

  /** One piece of a declaration list: no '=' gives a plain name, an '='
      gives the name and the text after it, and a piece of only '=' gives
      nothing. */
  function DeclOf(piece: string): (r: seq<Decl>)
    ensures |r| <= 1
    ensures '=' !in piece && piece != [] ==> r == [Decl(piece, None)]
    ensures forall k :: 0 <= k < |r| ==> r[k].name != []
  {
    var m := Split.Split(piece, '=');
    SplitPieces(piece, '=');
    if '=' !in piece then SplitWithoutDelimiter(piece, '='); DeclOfPieces(m)
    else DeclOfPieces(m)
  }

  function DeclOfPieces(m: seq<string>): (r: seq<Decl>)
    ensures |r| <= 1
    ensures AllNonEmpty(m) ==> forall k :: 0 <= k < |r| ==> r[k].name != []
  {
    if |m| == 0 then []
    else if |m| == 1 then [Decl(m[0], None)]
    else [Decl(m[0], Some(m[1]))]
  }

  function DeclsOf(pieces: seq<string>): (r: seq<Decl>)
    ensures |r| <= |pieces|
    ensures forall k :: 0 <= k < |r| ==> r[k].name != []
  {
    if |pieces| == 0 then [] else DeclOf(pieces[0]) + DeclsOf(pieces[1..])
  }

  /** `find_vars_in_line` as a parse: the type and the declared names with
      their initialisers, in order. */
  function Declarations(line: string): (r: Option<(VarType, seq<Decl>)>)
    ensures r.Some? ==> r.value.0 != VoidT
  {
    match DeclKeyword(line)
    case None => None
    case Some((t, k)) => Some((t, DeclsOf(Split.Split(line[k..], ','))))
  }

  /** Every declared name is non-empty. */
  lemma DeclarationsNamed(line: string)
    requires Declarations(line).Some?
    ensures forall k :: 0 <= k < |Declarations(line).value.1| ==> Declarations(line).value.1[k].name != []
  {
  }

  function Names(ds: seq<Decl>): seq<string> {
    if |ds| == 0 then [] else [ds[0].name] + Names(ds[1..])
  }

  lemma {:induction false} DeclsOfPlain(pieces: seq<string>)
    requires forall k :: 0 <= k < |pieces| ==> '=' !in pieces[k] && pieces[k] != []
    ensures Names(DeclsOf(pieces)) == pieces
    ensures forall k :: 0 <= k < |DeclsOf(pieces)| ==> DeclsOf(pieces)[k].init == None
  {
    if |pieces| > 0 {
      DeclsOfPlain(pieces[1..]);
      var ds := DeclsOf(pieces);
      assert ds == [Decl(pieces[0], None)] + DeclsOf(pieces[1..]);
      assert ds[1..] == DeclsOf(pieces[1..]);
      assert pieces == [pieces[0]] + pieces[1..];
    }
  }

  /** A declaration without initialisers declares exactly the pieces of its
      list: spelled in order they give the list with its unquoted commas
      removed. */
  lemma DeclarationsPlain(line: string)
    requires DeclKeyword(line).Some?
    requires '=' !in line[DeclKeyword(line).value.1..]
    ensures var (_, ds) := Declarations(line).value;
      && Concat(Names(ds)) == Kept(line[DeclKeyword(line).value.1..], ',')
      && forall k :: 0 <= k < |ds| ==> ds[k].init == None
  {
    var rest := line[DeclKeyword(line).value.1..];
    var pieces := Split.Split(rest, ',');
    SplitPieces(rest, ',');
    forall k | 0 <= k < |pieces|
      ensures '=' !in pieces[k] && pieces[k] != []
    {
      assert Within(pieces[k], rest);
    }
    DeclsOfPlain(pieces);
  }

  /** A body line that opens or closes a block: its first character. */
  predicate Opens(line: string) {
    |line| > 0 && line[0] == '{'
  }

  predicate Closes(line: string) {
    |line| > 0 && line[0] == '}'
  }

  /** Opening lines minus closing lines among `text[a..b]`. */
  function Depth(text: seq<string>, a: int, b: int): int
    requires 0 <= a <= b <= |text|
    decreases b - a
  {
    if a == b then 0
    else Depth(text, a, b - 1) + (if Opens(text[b - 1]) then 1 else if Closes(text[b - 1]) then -1 else 0)
  }

  /** Some line of `text[a..b]` opens or closes a block. */
  predicate Braced(text: seq<string>, a: int, b: int)
    requires 0 <= a <= b <= |text|
  {
    exists j :: a <= j < b && (Opens(text[j]) || Closes(text[j]))
  }

  /** Line `i` ends the body of the header at `start`: a brace has been seen
      and the braces after the header balance there. */
  predicate EndsBody(text: seq<string>, start: int, i: int)
    requires 0 <= start < i < |text|
  {
    Braced(text, start + 1, i + 1) && Depth(text, start + 1, i + 1) <= 0
  }

  /** The lines the registry reads: the script, up to its 40-line table. */
  function Limit(text: seq<string>): nat {
    if |text| < MaxLines then |text| else MaxLines
  }

  /** The loop of `get_fun_finish` from line `i`, with the running count and
      whether a brace has been seen. */
  function FinishFrom(text: seq<string>, i: nat, count: int, seen: bool): int
    decreases Limit(text) - i
  {
    if i >= Limit(text) || (seen && count <= 0) then i - 1
    else
      var c := count + (if Opens(text[i]) then 1 else 0) - (if Closes(text[i]) then 1 else 0);
      FinishFrom(text, i + 1, c, seen || Opens(text[i]) || Closes(text[i]))
  }

  /** `get_fun_finish`. */
  function FunFinish(text: seq<string>, start: nat): int {
    FinishFrom(text, start + 1, 0, false)
  }

  lemma {:induction false} FinishFromSpec(text: seq<string>, start: nat, i: nat)
    requires start < i <= Limit(text)
    requires forall j :: start < j < i - 1 ==> !EndsBody(text, start, j)
    ensures var r := FinishFrom(text, i, Depth(text, start + 1, i), Braced(text, start + 1, i));
      && start <= r < Limit(text)
      && (forall j :: start < j < r ==> !EndsBody(text, start, j))
      && (r == Limit(text) - 1 || (start < r && EndsBody(text, start, r)))
    decreases Limit(text) - i
  {
    var count := Depth(text, start + 1, i);
    var seen := Braced(text, start + 1, i);
    if i >= Limit(text) || (seen && count <= 0) {
      if i - 1 > start && seen && count <= 0 {
        assert EndsBody(text, start, i - 1);
      }
    } else {
      var c := count + (if Opens(text[i]) then 1 else 0) - (if Closes(text[i]) then 1 else 0);
      assert c == Depth(text, start + 1, i + 1);
      var seen' := seen || Opens(text[i]) || Closes(text[i]);
      assert seen' == Braced(text, start + 1, i + 1) by {
        if Braced(text, start + 1, i + 1) && !seen {
          var j :| start + 1 <= j < i + 1 && (Opens(text[j]) || Closes(text[j]));
          assert j == i;
        }
      }
      if i - 1 > start {
        assert !EndsBody(text, start, i - 1);
      }
      FinishFromSpec(text, start, i + 1);
    }
  }

  /** `get_fun_finish` returns the first line after the header at which a
      brace has been seen and the braces balance, or else the last line. */
  lemma FunFinishSpec(text: seq<string>, start: nat)
    requires start < Limit(text)
    ensures var r := FunFinish(text, start);
      && start <= r < Limit(text)
      && (forall j :: start < j < r ==> !EndsBody(text, start, j))
      && (r == Limit(text) - 1 || (start < r && EndsBody(text, start, r)))
  {
    FinishFromSpec(text, start, start + 1);
  }

  datatype Param = Param(t: VarType, name: string)

  /** A registered function: name, return type, parameters, header line and
      the line ending its body. */
  datatype Function = Function(name: string, retType: VarType, params: seq<Param>, start: nat, end: int)

  /** The header keyword of a line, when the rest of the line is call-shaped. */
  function HeaderKeyword(line: string): (r: Option<(VarType, nat)>)
    ensures r.Some? ==> r.value.1 <= |line| && IsFunction(line[r.value.1..])
    ensures r.Some? ==> TypeKeyword(line) == r
  {
    match TypeKeyword(line)
    case Some((t, n)) => if IsFunction(line[n..]) then Some((t, n)) else None
    case None => None
  }

  /** The parameters one declaration gives: its names, in order, each with
      the declared type. */
  function ParamsOfDecls(t: VarType, ds: seq<Decl>): (ps: seq<Param>)
    ensures |ps| == |ds| && forall j :: 0 <= j < |ds| ==> ps[j] == Param(t, ds[j].name)
  {
    if |ds| == 0 then [] else [Param(t, ds[0].name)] + ParamsOfDecls(t, ds[1..])
  }

  /** Some declaration carries an initialiser. */
  predicate HasInit(ds: seq<Decl>) {
    exists j :: 0 <= j < |ds| && ds[j].init.Some?
  }

  /** The parameters one piece of a header's list declares. */
  function PieceParams(piece: string): seq<Param> {
    match Declarations(piece)
    case None => []
    case Some((t, ds)) => ParamsOfDecls(t, ds)
  }

  /** The parameters a list of pieces declares, in order: the reference the
      parse of a header is checked against. */
  function DeclaredParams(pieces: seq<string>): seq<Param> {
    if |pieces| == 0 then [] else PieceParams(pieces[0]) + DeclaredParams(pieces[1..])
  }

  /** A piece declares a parameter with an initialiser. */
  predicate DeclaresInit(piece: string) {
    Declarations(piece).Some? && HasInit(Declarations(piece).value.1)
  }

  predicate ParamInitialised(pieces: seq<string>) {
    exists j :: 0 <= j < |pieces| && DeclaresInit(pieces[j])
  }

  lemma ParamInitialisedCons(pieces: seq<string>)
    requires |pieces| > 0
    ensures ParamInitialised(pieces) <==> DeclaresInit(pieces[0]) || ParamInitialised(pieces[1..])
  {
    var rest := pieces[1..];
    if ParamInitialised(rest) {
      var j :| 0 <= j < |rest| && DeclaresInit(rest[j]);
      assert rest[j] == pieces[j + 1];
    }
  }

  /** The parameters of a header, from the declarations between its first
      '(' and the next ')'; a parameter with an initialiser is an error (it
      would run with no frame), and so is a ninth parameter. */
  function ParamsOf(pieces: seq<string>, acc: seq<Param>): (r: Result<seq<Param>>)
    requires |acc| <= MaxVars
    ensures r.Ok? ==> |acc| <= |r.value| <= MaxVars && r.value[..|acc|] == acc
  {
    if |pieces| == 0 then Ok(acc)
    else
      match Declarations(pieces[0])
      case None => ParamsOf(pieces[1..], acc)
      case Some((t, ds)) =>
        match AddParams(t, ds, acc)
        case Fatal(e) => Fatal(e)
        case Ok(acc') => ParamsOf(pieces[1..], acc')
  }

  /** The parameter list fails exactly when a ninth parameter or an
      initialiser turns up. */
  lemma {:induction false} ParamsOfFails(pieces: seq<string>, acc: seq<Param>)
    requires |acc| <= MaxVars
    ensures ParamsOf(pieces, acc).Ok? <==>
      |acc| + |DeclaredParams(pieces)| <= MaxVars && !ParamInitialised(pieces)
  {
    if |pieces| > 0 {
      ParamInitialisedCons(pieces);
      var rest := pieces[1..];
      match Declarations(pieces[0])
      case None =>
        ParamsOfFails(rest, acc);
      case Some((t, ds)) =>
        AddParamsFails(t, ds, acc);
        if AddParams(t, ds, acc).Ok? {
          ParamsOfFails(rest, AddParams(t, ds, acc).value);
        }
    }
  }

  /** One step of the parameter loop adds the parameters of the first piece. */
  lemma ParamsOfStep(pieces: seq<string>, acc: seq<Param>) returns (acc': seq<Param>)
    requires |acc| <= MaxVars && |pieces| > 0 && ParamsOf(pieces, acc).Ok?
    ensures |acc'| <= MaxVars && acc' == acc + PieceParams(pieces[0])
    ensures ParamsOf(pieces, acc) == ParamsOf(pieces[1..], acc')
  {
    match Declarations(pieces[0])
    case None =>
      acc' := acc;
    case Some((t, ds)) =>
      AddParamsSpec(t, ds, acc);
      acc' := AddParams(t, ds, acc).value;
  }

  /** The parameter list is the declared parameters, in order, after those
      already read. */
  lemma {:induction false} ParamsOfSpec(pieces: seq<string>, acc: seq<Param>)
    requires |acc| <= MaxVars
    requires ParamsOf(pieces, acc).Ok?
    ensures ParamsOf(pieces, acc).value == acc + DeclaredParams(pieces)
  {
    if |pieces| > 0 {
      var acc' := ParamsOfStep(pieces, acc);
      var pp, rest := PieceParams(pieces[0]), DeclaredParams(pieces[1..]);
      ParamsOfSpec(pieces[1..], acc');
      assert DeclaredParams(pieces) == pp + rest;
      AppendAssoc(acc, pp, rest);
    }
  }

  function AddParams(t: VarType, ds: seq<Decl>, acc: seq<Param>): (r: Result<seq<Param>>)
    requires |acc| <= MaxVars
    ensures r.Ok? ==> |acc| <= |r.value| <= MaxVars && r.value[..|acc|] == acc
    ensures r.Ok? ==> |r.value| == |acc| + |ds|
  {
    if |ds| == 0 then Ok(acc)
    else if |acc| >= MaxVars then Fatal(TooManyVars)
    else if ds[0].init.Some? then Fatal(ParamInit)
    else
      var r := AddParams(t, ds[1..], acc + [Param(t, ds[0].name)]);
      if r.Ok? then assert (acc + [Param(t, ds[0].name)])[..|acc|] == acc; r else r
  }

  lemma AppendAssoc<T>(a: seq<T>, b: seq<T>, c: seq<T>)
    ensures (a + b) + c == a + (b + c)
  {
  }

  lemma AppendChain<T>(x: seq<T>, a: seq<T>, b: seq<T>, c: seq<T>, bc: seq<T>)
    requires x == (a + b) + c && bc == b + c
    ensures x == a + bc
  {
  }

  /** One declaration's parameters are accepted exactly when they fit in
      the eight slots and none carries an initialiser; an initialiser that
      fits is reported as such, and an overflow without one as too many. */
  lemma {:induction false} AddParamsFails(t: VarType, ds: seq<Decl>, acc: seq<Param>)
    requires |acc| <= MaxVars
    ensures AddParams(t, ds, acc).Ok? <==> |acc| + |ds| <= MaxVars && !HasInit(ds)
    ensures AddParams(t, ds, acc).Fatal? && |acc| + |ds| <= MaxVars ==> AddParams(t, ds, acc).err == ParamInit
    ensures AddParams(t, ds, acc).Fatal? && !HasInit(ds) ==> AddParams(t, ds, acc).err == TooManyVars
  {
    if |ds| == 0 {
    } else if |acc| >= MaxVars {
    } else if ds[0].init.Some? {
      assert HasInit(ds);
    } else {
      HasInitTail(ds);
      AddParamsFails(t, ds[1..], acc + [Param(t, ds[0].name)]);
    }
  }

  /** Accepted parameters are the declared names, in order, with the
      declaration's type. */
  lemma {:induction false} AddParamsSpec(t: VarType, ds: seq<Decl>, acc: seq<Param>)
    requires |acc| <= MaxVars && AddParams(t, ds, acc).Ok?
    ensures AddParams(t, ds, acc).value == acc + ParamsOfDecls(t, ds)
  {
    if |ds| > 0 {
      var head := [Param(t, ds[0].name)];
      var acc' := acc + head;
      AddParamsSpec(t, ds[1..], acc');
      var tail := ParamsOfDecls(t, ds[1..]);
      assert ParamsOfDecls(t, ds) == head + tail;
      AppendAssoc(acc, head, tail);
    }
  }

  /** The name of a header: the text from the end of its keyword up to the
      first '('. */
  function NameText(line: string, k: nat): (r: string)
    requires k <= |line|
    ensures '(' !in r
    ensures |line| < MaxLineLength ==> r == line[k..IndexFrom(line, '(', k)]
  {
    var pos1 := IndexFrom(line, '(', k);
    assert forall j :: 0 <= j < pos1 - k && k + j < |line| ==> line[k..][j] == line[k + j];
    StrcatN([], line[k..], pos1 - k)
  }

  /** The parameter list of a header: the text between the first '(' from
      `k` on and the next ')'. */
  function ParamText(line: string, k: nat): (r: string)
    requires k <= |line|
    ensures ')' !in r
    ensures |line| < MaxLineLength && IndexFrom(line, '(', k) < |line| ==>
      r == line[IndexFrom(line, '(', k) + 1..IndexFrom(line, ')', IndexFrom(line, '(', k) + 1)]
  {
    var pos1 := IndexFrom(line, '(', k);
    var pos2 := IndexFrom(line, ')', pos1 + 1);
    CopyAvoids(line, pos1, pos2, ')');
    StrcatN([], Drop(line, pos1 + 1), pos2 - pos1 - 1)
  }

  /** The function a header line declares. */
  function HeaderFunction(text: seq<string>, i: nat): (r: Option<Result<Function>>)
    requires i < |text|
    ensures r.Some? <==> HeaderKeyword(text[i]).Some?
    ensures r.Some? && r.value.Ok? ==> r.value.value.start == i && |r.value.value.params| <= MaxVars
  {
    var line := text[i];
    match HeaderKeyword(line)
    case None => None
    case Some((t, k)) =>
      match ParamsOf(Split.Split(ParamText(line, k), ','), [])
      case Fatal(e) => Some(Fatal(e))
      case Ok(ps) => Some(Ok(Function(NameText(line, k), t, ps, i, FunFinish(text, i))))
  }

  /** A header line `T name(list)` registers `name` with return type `T`, the
      parameters declared in `list`, and the lines from the header to the
      end of its body; it fails exactly when the list declares a ninth
      parameter or an initialiser. */
  lemma HeaderFunctionSpec(text: seq<string>, i: nat)
    requires i < |text| && HeaderKeyword(text[i]).Some?
    ensures var line := text[i];
      var (t, k) := HeaderKeyword(line).value;
      var ps := DeclaredParams(Split.Split(ParamText(line, k), ','));
      && (HeaderFunction(text, i).value.Ok? <==>
            |ps| <= MaxVars && !ParamInitialised(Split.Split(ParamText(line, k), ',')))
      && (HeaderFunction(text, i).value.Ok? ==>
            HeaderFunction(text, i).value.value == Function(NameText(line, k), t, ps, i, FunFinish(text, i)))
  {
    var (t, k) := HeaderKeyword(text[i]).value;
    var pieces := Split.Split(ParamText(text[i], k), ',');
    ParamsOfFails(pieces, []);
    if ParamsOf(pieces, []).Ok? {
      ParamsOfSpec(pieces, []);
    }
  }

  predicate IsHeader(line: string) {
    HeaderKeyword(line).Some?
  }

  /** What each line of the script gives as a header: nothing, a function,
      or the error its parameter list raises. */
  function Headers(text: seq<string>): (hs: seq<Option<Result<Function>>>)
    ensures |hs| == |text|
    ensures forall j :: 0 <= j < |text| ==> hs[j] == HeaderFunction(text, j)
  {
    seq(|text|, j requires 0 <= j < |text| => HeaderFunction(text, j))
  }

  /** Each function found sits at its own header line. */
  predicate Placed(hs: seq<Option<Result<Function>>>) {
    forall j :: 0 <= j < |hs| && hs[j].Some? && hs[j].value.Ok? ==> hs[j].value.value.start == j
  }

  /** The loop of `find_functions` from line `i`; a fifth header is an error. */
  function FunctionsFrom(hs: seq<Option<Result<Function>>>, i: nat, acc: seq<Function>): (r: Result<seq<Function>>)
    requires i <= |hs| && |acc| <= MaxFunctions && Placed(hs)
    ensures r.Ok? ==> |acc| <= |r.value| <= MaxFunctions && r.value[..|acc|] == acc
    ensures r.Ok? ==> forall k :: |acc| <= k < |r.value| ==>
      i <= r.value[k].start < |hs| && hs[r.value[k].start] == Some(Ok(r.value[k]))
    decreases |hs| - i
  {
    if i == |hs| then Ok(acc)
    else
      match hs[i]
      case None => FunctionsFrom(hs, i + 1, acc)
      case Some(Fatal(e)) => Fatal(e)
      case Some(Ok(f)) =>
        if |acc| >= MaxFunctions then Fatal(TooManyFunctions)
        else
          var r := FunctionsFrom(hs, i + 1, acc + [f]);
          if r.Ok? then
            assert (acc + [f])[..|acc|] == acc;
            assert r.value[..|acc| + 1][..|acc|] == r.value[..|acc|];
            assert r.value[|acc|] == f by {
              assert r.value[..|acc| + 1][|acc|] == f;
            }
            r
          else r
  }

  /** Every header line from `i` on is registered by the loop, in the order
      of the script. */
  lemma {:induction false} FunctionsFromCovers(hs: seq<Option<Result<Function>>>, i: nat, acc: seq<Function>)
    requires i <= |hs| && |acc| <= MaxFunctions && Placed(hs)
    requires FunctionsFrom(hs, i, acc).Ok?
    ensures var fs := FunctionsFrom(hs, i, acc).value;
      forall j :: i <= j < |hs| && hs[j].Some? ==>
        exists k :: |acc| <= k < |fs| && fs[k].start == j
    decreases |hs| - i
  {
    if i < |hs| {
      var fs := FunctionsFrom(hs, i, acc).value;
      match hs[i]
      case None =>
        FunctionsFromCovers(hs, i + 1, acc);
      case Some(Ok(f)) =>
        var acc' := acc + [f];
        FunctionsFromCovers(hs, i + 1, acc');
        assert fs == FunctionsFrom(hs, i + 1, acc').value;
        assert fs[|acc|] == f by {
          assert fs[..|acc'|] == acc';
          assert fs[..|acc'|][|acc|] == f;
        }
        forall j | i <= j < |hs| && hs[j].Some?
          ensures exists k :: |acc| <= k < |fs| && fs[k].start == j
        {
          if j == i {
            assert fs[|acc|].start == j;
          }
        }
    }
  }

  /** The loop registers the headers in the order of the script. */
  lemma {:induction false} FunctionsFromOrdered(hs: seq<Option<Result<Function>>>, i: nat, acc: seq<Function>)
    requires i <= |hs| && |acc| <= MaxFunctions && Placed(hs)
    requires FunctionsFrom(hs, i, acc).Ok?
    ensures var fs := FunctionsFrom(hs, i, acc).value;
      forall k, l :: |acc| <= k < l < |fs| ==> fs[k].start < fs[l].start
    decreases |hs| - i
  {
    if i < |hs| {
      var fs := FunctionsFrom(hs, i, acc).value;
      match hs[i]
      case None =>
        FunctionsFromOrdered(hs, i + 1, acc);
      case Some(Ok(f)) =>
        var acc' := acc + [f];
        FunctionsFromOrdered(hs, i + 1, acc');
        assert fs == FunctionsFrom(hs, i + 1, acc').value;
        assert fs[|acc|] == f by {
          assert fs[..|acc'|] == acc';
          assert fs[..|acc'|][|acc|] == f;
        }
        forall k, l | |acc| <= k < l < |fs|
          ensures fs[k].start < fs[l].start
        {
          assert i + 1 <= fs[l].start;
        }
    }
  }

  /** Every header line is registered, in the order of the script. */
  lemma FunctionsFromComplete(hs: seq<Option<Result<Function>>>, i: nat, acc: seq<Function>)
    requires i <= |hs| && |acc| <= MaxFunctions && Placed(hs)
    requires FunctionsFrom(hs, i, acc).Ok?
    ensures var fs := FunctionsFrom(hs, i, acc).value;
      && (forall j :: i <= j < |hs| && hs[j].Some? ==>
            exists k :: |acc| <= k < |fs| && fs[k].start == j)
      && (forall k, l :: |acc| <= k < l < |fs| ==> fs[k].start < fs[l].start)
  {
    FunctionsFromCovers(hs, i, acc);
    FunctionsFromOrdered(hs, i, acc);
  }

  lemma HeadersPlaced(text: seq<string>)
    ensures Placed(Headers(text))
  {
  }

  /** `find_functions`: one function per header line, in the order of the
      script, at most four. */
  function FindFunctions(text: seq<string>): (r: Result<seq<Function>>)
    ensures r.Ok? ==> |r.value| <= MaxFunctions
    ensures r.Ok? ==> forall k :: 0 <= k < |r.value| ==>
      r.value[k].start < |text| && IsHeader(text[r.value[k].start])
    ensures r.Ok? ==> forall f :: f in r.value ==> |f.params| <= MaxVars
  {
    HeadersPlaced(text);
    FunctionsFrom(Headers(text), 0, [])
  }

  /** The registered functions are exactly the header lines, in order. */
  lemma FindFunctionsComplete(text: seq<string>)
    requires FindFunctions(text).Ok?
    ensures var fs := FindFunctions(text).value;
      && (forall j :: 0 <= j < |text| && IsHeader(text[j]) ==>
            exists k :: 0 <= k < |fs| && fs[k].start == j)
      && (forall k, l :: 0 <= k < l < |fs| ==> fs[k].start < fs[l].start)
  {
    var hs := Headers(text);
    HeadersPlaced(text);
    FunctionsFromComplete(hs, 0, []);
    forall j | 0 <= j < |text| && IsHeader(text[j])
      ensures hs[j].Some?
    {
      assert hs[j] == HeaderFunction(text, j);
    }
  }

  /** Line `i` lies within the header-to-end range of some function. */
  predicate InFunction(funcs: seq<Function>, i: int) {
    exists k :: 0 <= k < |funcs| && funcs[k].start <= i <= funcs[k].end
  }

  /** The globals one declaration gives: each name at the zero of the type. */
  function ZeroVars(t: VarType, ds: seq<Decl>): (vs: seq<Var>)
    ensures |vs| == |ds| && forall j :: 0 <= j < |ds| ==> vs[j] == Var(ds[j].name, ZeroOf(t))
  {
    if |ds| == 0 then [] else [Var(ds[0].name, ZeroOf(t))] + ZeroVars(t, ds[1..])
  }

  /** The globals line `i` declares: none on a line of a function. */
  function LineGlobals(text: seq<string>, funcs: seq<Function>, i: nat): seq<Var>
    requires i < |text|
  {
    if InFunction(funcs, i) then []
    else
      match Declarations(text[i])
      case None => []
      case Some((t, ds)) => ZeroVars(t, ds)
  }

  /** The globals the lines from `i` on declare, in order: the reference the
      collection of globals is checked against. */
  function DeclaredGlobals(text: seq<string>, funcs: seq<Function>, i: nat): seq<Var>
    requires i <= |text|
    decreases |text| - i
  {
    if i == |text| then [] else LineGlobals(text, funcs, i) + DeclaredGlobals(text, funcs, i + 1)
  }

  /** Line `j` lies outside every function and declares `x` as a global. */
  predicate GlobalDeclaredAt(text: seq<string>, funcs: seq<Function>, j: int, x: Var)
    requires 0 <= j < |text|
  {
    && !InFunction(funcs, j)
    && Declarations(text[j]).Some?
    && var (t, ds) := Declarations(text[j]).value;
       exists d :: d in ds && x == Var(d.name, ZeroOf(t))
  }

  /** A line outside every function declares a global with an initialiser. */
  predicate GlobalInitialised(text: seq<string>, funcs: seq<Function>, i: nat) {
    exists j :: i <= j < |text| && InitAt(text, funcs, j)
  }

  lemma LineGlobalsAre(text: seq<string>, funcs: seq<Function>, i: nat)
    requires i < |text|
    ensures forall x :: x in LineGlobals(text, funcs, i) <==> GlobalDeclaredAt(text, funcs, i, x)
    ensures forall k :: 0 <= k < |LineGlobals(text, funcs, i)| ==> LineGlobals(text, funcs, i)[k].name != []
  {
    LineGlobalsNamed(text, funcs, i);
    if !InFunction(funcs, i) && Declarations(text[i]).Some? {
      var (t, ds) := Declarations(text[i]).value;
      forall x | GlobalDeclaredAt(text, funcs, i, x)
        ensures x in ZeroVars(t, ds)
      {
        var d :| d in ds && x == Var(d.name, ZeroOf(t));
        var j :| 0 <= j < |ds| && ds[j] == d;
        assert ZeroVars(t, ds)[j] == x;
      }
      forall x | x in ZeroVars(t, ds)
        ensures GlobalDeclaredAt(text, funcs, i, x)
      {
        var j :| 0 <= j < |ZeroVars(t, ds)| && ZeroVars(t, ds)[j] == x;
        assert ds[j] in ds;
      }
    }
  }

  /** The reference globals are exactly the globals of the lines from `i` on. */
  lemma {:induction false} DeclaredGlobalsLines(text: seq<string>, funcs: seq<Function>, i: nat)
    requires i <= |text|
    ensures forall x :: x in DeclaredGlobals(text, funcs, i) <==>
      exists j :: i <= j < |text| && x in LineGlobals(text, funcs, j)
    decreases |text| - i
  {
    if i < |text| {
      DeclaredGlobalsLines(text, funcs, i + 1);
      var here := LineGlobals(text, funcs, i);
      var later := DeclaredGlobals(text, funcs, i + 1);
      assert DeclaredGlobals(text, funcs, i) == here + later;
      forall x | exists j :: i <= j < |text| && x in LineGlobals(text, funcs, j)
        ensures x in here + later
      {
        var j :| i <= j < |text| && x in LineGlobals(text, funcs, j);
        if j > i {
          assert x in later;
        }
      }
    }
  }

  /** The reference globals are exactly those declared on lines from `i` on
      outside every function. */
  lemma DeclaredGlobalsAre(text: seq<string>, funcs: seq<Function>, i: nat)
    requires i <= |text|
    ensures forall x :: x in DeclaredGlobals(text, funcs, i) <==>
      exists j :: i <= j < |text| && GlobalDeclaredAt(text, funcs, j, x)
  {
    DeclaredGlobalsLines(text, funcs, i);
    forall x
      ensures x in DeclaredGlobals(text, funcs, i) <==>
        exists j :: i <= j < |text| && GlobalDeclaredAt(text, funcs, j, x)
    {
      if x in DeclaredGlobals(text, funcs, i) {
        var j :| i <= j < |text| && x in LineGlobals(text, funcs, j);
        LineGlobalsAre(text, funcs, j);
      }
      if exists j :: i <= j < |text| && GlobalDeclaredAt(text, funcs, j, x) {
        var j :| i <= j < |text| && GlobalDeclaredAt(text, funcs, j, x);
        LineGlobalsAre(text, funcs, j);
      }
    }
  }

  /** No reference global has an empty name. */
  lemma {:induction false} DeclaredGlobalsNamed(text: seq<string>, funcs: seq<Function>, i: nat)
    requires i <= |text|
    ensures forall k :: 0 <= k < |DeclaredGlobals(text, funcs, i)| ==> DeclaredGlobals(text, funcs, i)[k].name != []
    decreases |text| - i
  {
    if i < |text| {
      DeclaredGlobalsNamed(text, funcs, i + 1);
      LineGlobalsNamed(text, funcs, i);
      NamedJoin(LineGlobals(text, funcs, i), DeclaredGlobals(text, funcs, i + 1));
    }
  }

  lemma LineGlobalsNamed(text: seq<string>, funcs: seq<Function>, i: nat)
    requires i < |text|
    ensures forall k :: 0 <= k < |LineGlobals(text, funcs, i)| ==> LineGlobals(text, funcs, i)[k].name != []
  {
    if !InFunction(funcs, i) && Declarations(text[i]).Some? {
      DeclarationsNamed(text[i]);
    }
  }

  lemma NamedJoin(a: seq<Var>, b: seq<Var>)
    requires forall k :: 0 <= k < |a| ==> a[k].name != []
    requires forall k :: 0 <= k < |b| ==> b[k].name != []
    ensures forall k :: 0 <= k < |a + b| ==> (a + b)[k].name != []
  {
  }

  /** Add the variables of one declaration to a table of globals: a ninth is
      an error and so is an initialiser (it would run with no frame). */
  function AddGlobals(t: VarType, ds: seq<Decl>, acc: seq<Var>): (r: Result<seq<Var>>)
    requires t != VoidT
    ensures r.Ok? <==> (|ds| == 0 || |acc| + |ds| <= MaxVars) && !HasInit(ds)
    ensures r.Fatal? && |acc| + |ds| <= MaxVars ==> r.err == GlobalInit
    ensures r.Ok? ==> |r.value| == |acc| + |ds| && r.value[..|acc|] == acc
    ensures r.Ok? ==> forall k :: |acc| <= k < |r.value| ==> r.value[k] == Var(ds[k - |acc|].name, ZeroOf(t))
  {
    if |ds| == 0 then Ok(acc)
    else if |acc| >= MaxVars then Fatal(TooManyVars)
    else if ds[0].init.Some? then Fatal(GlobalInit)
    else
      HasInitTail(ds);
      var acc' := acc + [Var(ds[0].name, ZeroOf(t))];
      var r := AddGlobals(t, ds[1..], acc');
      if r.Ok? then
        assert acc'[..|acc|] == acc;
        assert r.value[..|acc'|][..|acc|] == r.value[..|acc|];
        r
      else r
  }

  lemma HasInitTail(ds: seq<Decl>)
    requires |ds| > 0 && ds[0].init.None?
    ensures HasInit(ds) <==> HasInit(ds[1..])
  {
    if HasInit(ds) {
      var j :| 0 <= j < |ds| && ds[j].init.Some?;
      assert ds[1..][j - 1] == ds[j];
    }
    if HasInit(ds[1..]) {
      var j :| 0 <= j < |ds[1..]| && ds[1..][j].init.Some?;
      assert ds[j + 1] == ds[1..][j];
    }
  }

  /** The loop of `find_global_vars` from line `i`, skipping function lines. */
  function GlobalsFrom(text: seq<string>, funcs: seq<Function>, i: nat, acc: seq<Var>): (r: Result<seq<Var>>)
    requires i <= |text| && |acc| <= MaxVars
    ensures r.Ok? ==> |acc| <= |r.value| <= MaxVars && r.value[..|acc|] == acc
    decreases |text| - i
  {
    if i == |text| then Ok(acc)
    else if InFunction(funcs, i) then GlobalsFrom(text, funcs, i + 1, acc)
    else
      match Declarations(text[i])
      case None => GlobalsFrom(text, funcs, i + 1, acc)
      case Some((t, ds)) =>
        match AddGlobals(t, ds, acc)
        case Fatal(e) => Fatal(e)
        case Ok(acc') =>
          var r := GlobalsFrom(text, funcs, i + 1, acc');
          if r.Ok? then
            assert r.value[..|acc'|][..|acc|] == r.value[..|acc|];
            r
          else r
  }

  /** Line `i` lies outside every function and declares an initialiser. */
  predicate InitAt(text: seq<string>, funcs: seq<Function>, i: nat)
    requires i < |text|
  {
    !InFunction(funcs, i) && DeclaresInit(text[i])
  }

  lemma GlobalInitialisedCons(text: seq<string>, funcs: seq<Function>, i: nat)
    requires i < |text|
    ensures GlobalInitialised(text, funcs, i) <==> InitAt(text, funcs, i) || GlobalInitialised(text, funcs, i + 1)
  {
  }

  /** What `AddGlobals` appends is the zero-valued variables of the declaration. */
  lemma AddGlobalsZero(t: VarType, ds: seq<Decl>, acc: seq<Var>)
    requires t != VoidT && AddGlobals(t, ds, acc).Ok?
    ensures AddGlobals(t, ds, acc).value == acc + ZeroVars(t, ds)
  {
  }

  /** One step of the loop of `find_global_vars` adds the globals of line `i`. */
  lemma GlobalsFromStep(text: seq<string>, funcs: seq<Function>, i: nat, acc: seq<Var>)
    requires i < |text| && |acc| <= MaxVars
    ensures GlobalsFrom(text, funcs, i, acc).Ok? <==>
      && |acc| + |LineGlobals(text, funcs, i)| <= MaxVars && !InitAt(text, funcs, i)
      && GlobalsFrom(text, funcs, i + 1, acc + LineGlobals(text, funcs, i)).Ok?
    ensures GlobalsFrom(text, funcs, i, acc).Ok? ==>
      GlobalsFrom(text, funcs, i, acc) == GlobalsFrom(text, funcs, i + 1, acc + LineGlobals(text, funcs, i))
  {
    if InFunction(funcs, i) {
      assert LineGlobals(text, funcs, i) == [];
      assert acc + [] == acc;
    } else {
      match Declarations(text[i])
      case None =>
        assert LineGlobals(text, funcs, i) == [];
        assert acc + [] == acc;
      case Some((t, ds)) =>
        assert LineGlobals(text, funcs, i) == ZeroVars(t, ds);
        assert DeclaresInit(text[i]) == HasInit(ds);
        if AddGlobals(t, ds, acc).Ok? {
          AddGlobalsZero(t, ds, acc);
        }
    }
  }

  /** The collection fails exactly when the lines from `i` on, outside every
      function, declare a ninth global or a global with an initialiser. */
  lemma {:induction false} GlobalsFromFails(text: seq<string>, funcs: seq<Function>, i: nat, acc: seq<Var>)
    requires i <= |text| && |acc| <= MaxVars
    ensures GlobalsFrom(text, funcs, i, acc).Ok? <==>
      |acc| + |DeclaredGlobals(text, funcs, i)| <= MaxVars && !GlobalInitialised(text, funcs, i)
    decreases |text| - i
  {
    if i < |text| {
      GlobalInitialisedCons(text, funcs, i);
      GlobalsFromStep(text, funcs, i, acc);
      var here := LineGlobals(text, funcs, i);
      assert |DeclaredGlobals(text, funcs, i)| == |here| + |DeclaredGlobals(text, funcs, i + 1)|;
      if |acc| + |here| <= MaxVars {
        GlobalsFromFails(text, funcs, i + 1, acc + here);
      }
    }
  }

  /** The collected globals are the reference globals, in order, after those
      already collected. */
  lemma {:induction false} GlobalsFromSpec(text: seq<string>, funcs: seq<Function>, i: nat, acc: seq<Var>)
    requires i <= |text| && |acc| <= MaxVars
    requires GlobalsFrom(text, funcs, i, acc).Ok?
    ensures GlobalsFrom(text, funcs, i, acc).value == acc + DeclaredGlobals(text, funcs, i)
    decreases |text| - i
  {
    if i < |text| {
      var here := LineGlobals(text, funcs, i);
      assert |acc| + |here| <= MaxVars && GlobalsFrom(text, funcs, i + 1, acc + here).Ok? by {
        GlobalsFromStep(text, funcs, i, acc);
      }
      assert GlobalsFrom(text, funcs, i + 1, acc + here).value == (acc + here) + DeclaredGlobals(text, funcs, i + 1) by {
        GlobalsFromSpec(text, funcs, i + 1, acc + here);
      }
      GlobalsFromLink(text, funcs, i, acc);
    } else {
      assert acc + DeclaredGlobals(text, funcs, i) == acc;
    }
  }

  /** One step of the induction above: what line `i` contributes comes
      right after those already collected. */
  lemma GlobalsFromLink(text: seq<string>, funcs: seq<Function>, i: nat, acc: seq<Var>)
    requires i < |text| && |acc| <= MaxVars
    requires GlobalsFrom(text, funcs, i, acc).Ok?
    requires |acc| + |LineGlobals(text, funcs, i)| <= MaxVars
    requires GlobalsFrom(text, funcs, i + 1, acc + LineGlobals(text, funcs, i)).Ok?
    requires GlobalsFrom(text, funcs, i + 1, acc + LineGlobals(text, funcs, i)).value
      == (acc + LineGlobals(text, funcs, i)) + DeclaredGlobals(text, funcs, i + 1)
    ensures GlobalsFrom(text, funcs, i, acc).value == acc + DeclaredGlobals(text, funcs, i)
  {
    GlobalsFromStep(text, funcs, i, acc);
    var here := LineGlobals(text, funcs, i);
    AppendChain(GlobalsFrom(text, funcs, i + 1, acc + here).value, acc, here,
      DeclaredGlobals(text, funcs, i + 1), DeclaredGlobals(text, funcs, i));
  }

  /** `find_global_vars`: the declarations outside every function, each
      variable starting at the zero of its type, deduplicated keeping the
      last declaration of a name. */
  function FindGlobalVars(text: seq<string>, funcs: seq<Function>): (r: Result<seq<Var>>)
    ensures r.Ok? ==> Distinct(r.value) && |r.value| <= MaxVars
  {
    match GlobalsFrom(text, funcs, 0, [])
    case Fatal(e) => Fatal(e)
    case Ok(gs) => DedupSpec(gs); Ok(Dedup(gs))
  }

  /** Some line outside every function declares `x` as a global. */
  ghost predicate DeclaredSomewhere(text: seq<string>, funcs: seq<Function>, x: Var) {
    exists j :: 0 <= j < |text| && GlobalDeclaredAt(text, funcs, j, x)
  }

  /** `vs` are globals declared on lines outside every function, each at the
      zero of its type and as the last declaration of its name among `gs`,
      and every name so declared is among them. */
  ghost predicate GlobalsOf(text: seq<string>, funcs: seq<Function>, gs: seq<Var>, vs: seq<Var>) {
    && (forall k :: 0 <= k < |vs| ==> DeclaredSomewhere(text, funcs, vs[k]))
    && (forall k :: 0 <= k < |vs| ==> LastEntry(gs, vs[k]))
    && (forall x :: DeclaredSomewhere(text, funcs, x) ==> Declares(vs, x.name))
  }

  /** The globals are declared on lines outside every function, each at the
      zero of its type and as the last declaration of its name; every name
      so declared is a global; and the collection fails exactly on a ninth
      global or an initialiser. */
  lemma FindGlobalVarsSpec(text: seq<string>, funcs: seq<Function>)
    ensures FindGlobalVars(text, funcs).Ok? <==>
      |DeclaredGlobals(text, funcs, 0)| <= MaxVars && !GlobalInitialised(text, funcs, 0)
    ensures FindGlobalVars(text, funcs).Ok? ==>
      GlobalsOf(text, funcs, DeclaredGlobals(text, funcs, 0), FindGlobalVars(text, funcs).value)
  {
    GlobalsFromFails(text, funcs, 0, []);
    if FindGlobalVars(text, funcs).Ok? {
      var gs := DeclaredGlobals(text, funcs, 0);
      GlobalsFromSpec(text, funcs, 0, []);
      DeclaredGlobalsNamed(text, funcs, 0);
      DeclaredGlobalsAre(text, funcs, 0);
      assert forall x :: x in gs <==> DeclaredSomewhere(text, funcs, x);
      DedupDeclared(text, funcs, gs);
    }
  }

  /** Deduplicating the declared globals keeps, for each name declared
      outside every function, its last declaration. */
  lemma DedupDeclared(text: seq<string>, funcs: seq<Function>, gs: seq<Var>)
    requires forall k :: 0 <= k < |gs| ==> gs[k].name != []
    requires forall x :: x in gs <==> DeclaredSomewhere(text, funcs, x)
    ensures GlobalsOf(text, funcs, gs, Dedup(gs))
  {
    TableWhole(gs);
    DedupSpec(gs);
    var vs := Dedup(gs);
    forall k | 0 <= k < |vs|
      ensures LastEntry(gs, vs[k]) && DeclaredSomewhere(text, funcs, vs[k])
    {
      var i :| 0 <= i < |gs| && IsLast(gs, i) && vs[k] == gs[i];
      assert gs[i] in gs;
    }
    forall x | DeclaredSomewhere(text, funcs, x)
      ensures Declares(vs, x.name)
    {
      assert x in gs;
      var i :| 0 <= i < |gs| && gs[i] == x;
    }
  }
}

=== FILE: split.dfy ===
/**
  `split`: cut a text at every occurrence of a delimiter that is not inside
  single or double quotes, dropping empty pieces. The delimiter is never a
  quote character.
 */
module Split {
  import opened Text

  /** Which kinds of quote are open. */
  datatype Quotes = Quotes(single: bool, double: bool) {
    predicate Inside() {
      single || double
    }
  }

  function Toggle(q: Quotes, c: char): Quotes {
    Quotes(if c == '\'' then !q.single else q.single,
           if c == '"' then !q.double else q.double)
  }

  /** The quote state after reading all of `s`. */
  function QuotesAfter(s: string): Quotes {
    if |s| == 0 then Quotes(false, false)
    else Toggle(QuotesAfter(s[..|s| - 1]), s[|s| - 1])
  }

  predicate Delimiter(p: char) {
    p != '\'' && p != '"'
  }

  /** Position `i` of `s` holds a delimiter outside every quote. */
  predicate IsCut(s: string, p: char, i: int)
    requires 0 <= i < |s|
  {
    s[i] == p && !QuotesAfter(s[..i]).Inside()
  }

  /** `s` with exactly its unquoted delimiters removed: the reference the
      pieces are checked against. */
  function Kept(s: string, p: char): (k: string)
    ensures |k| <= |s|
  {
    if |s| == 0 then []
    else Kept(s[..|s| - 1], p) + (if IsCut(s, p, |s| - 1) then [] else [s[|s| - 1]])
  }

  /** The concatenation of pieces in order. */
  function Concat(ps: seq<string>): string {
    if |ps| == 0 then [] else Concat(ps[..|ps| - 1]) + ps[|ps| - 1]
  }

  /** Pieces finished so far and the piece being collected. */
  datatype Progress = Progress(pieces: seq<string>, current: string)

  /** What `split` has produced after reading `s`: a cut finishes a non-empty
      current piece (an empty one is simply restarted), any other character
      extends it. */
  function Scan(s: string, p: char): Progress {
    if |s| == 0 then Progress([], [])
    else
      var st := Scan(s[..|s| - 1], p);
      var c := s[|s| - 1];
      if IsCut(s, p, |s| - 1) then
        if st.current != [] then Progress(st.pieces + [st.current], []) else st
      else Progress(st.pieces, st.current + [c])
  }

  function Finish(st: Progress): seq<string> {
    if st.current != [] then st.pieces + [st.current] else st.pieces
  }

  function Split(s: string, p: char): seq<string>
    requires Delimiter(p)
  {
    Finish(Scan(s, p))
  }

  predicate AllNonEmpty(ps: seq<string>) {
    forall k :: 0 <= k < |ps| ==> |ps[k]| > 0
  }

  /** Every character of `t` occurs in `s`. */
  predicate Within(t: string, s: string) {
    forall c :: c in t ==> c in s
  }

  predicate AllWithin(ps: seq<string>, s: string) {
    forall k :: 0 <= k < |ps| ==> Within(ps[k], s)
  }

  /** Concatenating one more piece appends it. */
  lemma ConcatSnoc(ps: seq<string>, x: string)
    ensures Concat(ps + [x]) == Concat(ps) + x
  {
    assert (ps + [x])[..|ps|] == ps;
  }

  lemma {:induction false} ScanConcat(s: string, p: char)
    ensures Concat(Scan(s, p).pieces) + Scan(s, p).current == Kept(s, p)
  {
    if |s| > 0 {
      var s' := s[..|s| - 1];
      ScanConcat(s', p);
      var st := Scan(s', p);
      if IsCut(s, p, |s| - 1) {
        if st.current != [] {
          ConcatSnoc(st.pieces, st.current);
        }
      } else {
        assert Concat(st.pieces) + (st.current + [s[|s| - 1]])
          == (Concat(st.pieces) + st.current) + [s[|s| - 1]];
      }
    }
  }

  lemma {:induction false} ScanNonEmpty(s: string, p: char)
    ensures AllNonEmpty(Scan(s, p).pieces)
  {
    if |s| > 0 {
      ScanNonEmpty(s[..|s| - 1], p);
    }
  }

  lemma WithinGrow(t: string, s: string)
    requires |s| > 0 && Within(t, s[..|s| - 1])
    ensures Within(t, s)
  {
    forall ch | ch in t
      ensures ch in s
    {
      var i :| 0 <= i < |s| - 1 && s[..|s| - 1][i] == ch;
      assert s[i] == ch;
    }
  }

  lemma {:induction false} ScanWithin(s: string, p: char)
    ensures AllWithin(Scan(s, p).pieces, s) && Within(Scan(s, p).current, s)
  {
    if |s| > 0 {
      var s' := s[..|s| - 1];
      var c := s[|s| - 1];
      ScanWithin(s', p);
      var st := Scan(s', p);
      forall k | 0 <= k < |st.pieces|
        ensures Within(st.pieces[k], s)
      {
        WithinGrow(st.pieces[k], s);
      }
      WithinGrow(st.current, s);
      if !IsCut(s, p, |s| - 1) {
        forall ch | ch in st.current + [c]
          ensures ch in s
        {
          if ch !in st.current {
            assert ch == c;
          }
        }
      }
    }
  }

  /** The specification of `split`: every piece is non-empty, the pieces in
      order spell the input with exactly its unquoted delimiters removed, and
      each piece is made of the input's characters. */
  lemma SplitPieces(s: string, p: char)
    requires Delimiter(p)
    ensures AllNonEmpty(Split(s, p))
    ensures Concat(Split(s, p)) == Kept(s, p)
    ensures AllWithin(Split(s, p), s)
  {
    ScanConcat(s, p);
    ScanNonEmpty(s, p);
    ScanWithin(s, p);
    var st := Scan(s, p);
    if st.current != [] {
      assert (st.pieces + [st.current])[..|st.pieces|] == st.pieces;
    }
  }

  /** A character that is absent from the input is absent from every piece. */
  lemma SplitAvoids(s: string, p: char, c: char)
    requires Delimiter(p) && c !in s
    ensures forall k :: 0 <= k < |Split(s, p)| ==> c !in Split(s, p)[k]
  {
    SplitPieces(s, p);
  }

  lemma {:induction false} ScanWithoutDelimiter(s: string, p: char)
    requires p !in s
    ensures Scan(s, p) == Progress([], s)
  {
    if |s| > 0 {
      ScanWithoutDelimiter(s[..|s| - 1], p);
      assert s == s[..|s| - 1] + [s[|s| - 1]];
    }
  }

  /** Text without the delimiter is one piece (or none when empty). */
  lemma SplitWithoutDelimiter(s: string, p: char)
    requires Delimiter(p) && p !in s
    ensures Split(s, p) == (if s == [] then [] else [s])
  {
    ScanWithoutDelimiter(s, p);
  }

  lemma {:induction false} ScanAppend(s: string, p: char, c: char)
    ensures Scan(s + [c], p) ==
      var st := Scan(s, p);
      if c == p && !QuotesAfter(s).Inside() then
        (if st.current != [] then Progress(st.pieces + [st.current], []) else st)
      else Progress(st.pieces, st.current + [c])
  {
    assert (s + [c])[..|s|] == s;
  }

  /** Text without quote characters leaves every quote closed. */
  lemma {:induction false} QuotesAfterPlain(s: string)
    requires '\'' !in s && '"' !in s
    ensures QuotesAfter(s) == Quotes(false, false)
  {
    if |s| > 0 {
      QuotesAfterPlain(s[..|s| - 1]);
    }
  }

  /** After a prefix that leaves every quote closed, the quote state is that
      of the rest alone. */
  lemma {:induction false} QuotesAfterClosed(s: string, t: string)
    requires QuotesAfter(s) == Quotes(false, false)
    ensures QuotesAfter(s + t) == QuotesAfter(t)
    decreases |t|
  {
    if |t| == 0 {
      assert s + t == s;
    } else {
      var t' := t[..|t| - 1];
      QuotesAfterClosed(s, t');
      assert (s + t)[..|s + t| - 1] == s + t';
    }
  }

  /** After a prefix that ends with a finished piece and closed quotes, the
      scan of the rest starts afresh. */
  lemma {:induction false} ScanAfterCut(s: string, t: string, p: char)
    requires Scan(s, p).current == [] && QuotesAfter(s) == Quotes(false, false)
    ensures Scan(s + t, p) == Progress(Scan(s, p).pieces + Scan(t, p).pieces, Scan(t, p).current)
    decreases |t|
  {
    if |t| == 0 {
      assert s + t == s;
    } else {
      var t' := t[..|t| - 1];
      var c := t[|t| - 1];
      ScanAfterCut(s, t', p);
      QuotesAfterClosed(s, t');
      assert s + t == (s + t') + [c];
      assert t == t' + [c];
      ScanAppend(s + t', p, c);
      ScanAppend(t', p, c);
    }
  }

  /** A first piece without quotes or delimiters, followed by the delimiter,
      is split off whole, and the rest is split on its own. */
  lemma SplitFirst(a: string, p: char, b: string)
    requires Delimiter(p) && a != [] && p !in a && '\'' !in a && '"' !in a
    ensures Split(a + [p] + b, p) == [a] + Split(b, p)
  {
    ScanWithoutDelimiter(a, p);
    QuotesAfterPlain(a);
    ScanAppend(a, p, p);
    assert (a + [p])[..|a|] == a;
    var s := a + [p];
    assert Scan(s, p) == Progress([a], []);
    assert QuotesAfter(s) == Toggle(QuotesAfter(a), p);
    ScanAfterCut(s, b, p);
  }

  /** The loop of `split` as written: one pass, toggling the quote flags on
      every character that is not a cut, collecting pieces. */
  method SplitLoop(src: string, p: char) returns (number: nat, result: seq<string>)
    requires Delimiter(p)
    ensures result == Split(src, p)
    ensures number == |result|
  {
    var q := Quotes(false, false);
    var pieces: seq<string> := [];
    var current: string := [];
    var i := 0;
    while i < |src|
      invariant 0 <= i <= |src|
      invariant q == QuotesAfter(src[..i])
      invariant Scan(src[..i], p) == Progress(pieces, current)
    {
      var c := src[i];
      ScanAppend(src[..i], p, c);
      assert src[..i + 1] == src[..i] + [c];
      if c == p && !q.Inside() {
        if current != [] {
          pieces := pieces + [current];
          current := [];
        }
      } else {
        q := Toggle(q, c);
        current := current + [c];
      }
      i := i + 1;
    }
    assert src[..i] == src;
    if current != [] {
      pieces := pieces + [current];
    }
    result := pieces;
    number := |pieces|;
  }
}

=== FILE: text.dfy ===
/**
  String primitives of the interpreter. A script line lives in a buffer of
  `MaxLineLength` bytes, so it holds at most 31 characters; positions past
  the end of a line read as NUL.
 */
module Text {
  import opened CInt

  const MaxLineLength: int := 32
  const MaxNameLength: int := 24
  const Nul: char := 0 as char

  datatype Option<T> = None | Some(value: T)

  /** Text made of non-NUL bytes, as every line of a script is. */
  predicate CText(s: string) {
    forall i :: 0 <= i < |s| ==> 0 < s[i] as int < 256
  }

  /** The character at `i`, NUL past the end (the zeroed rest of a buffer). */
  function At(s: string, i: int): char {
    if 0 <= i < |s| then s[i] else Nul
  }

  /** A C string read out of a buffer: everything before the first NUL. */
  function UntilNul(s: string): (r: string)
    ensures |r| <= |s| && r == s[..|r|]
    ensures Nul !in r
    ensures |r| < |s| ==> s[|r|] == Nul
  {
    if |s| == 0 || s[0] == Nul then [] else [s[0]] + UntilNul(s[1..])
  }

  /** Least index `j >= from` with `s[j] == c`, or `|s|` when there is none. */
  function IndexFrom(s: string, c: char, from: nat): (j: nat)
    ensures from <= |s| ==> from <= j <= |s|
    ensures from > |s| ==> j == from
    ensures j < |s| ==> s[j] == c
    ensures forall k :: from <= k < j && k < |s| ==> s[k] != c
    decreases |s| - from
  {
    if from >= |s| then from
    else if s[from] == c then from
    else IndexFrom(s, c, from + 1)
  }

  function IndexOf(s: string, c: char): (j: nat)
    ensures j <= |s|
    ensures j < |s| <==> c in s
  {
    IndexFrom(s, c, 0)
  }

  /** `strcat_n`: append the first `len` characters of `src` to `dest`, but
      only when the result still fits a line buffer; otherwise nothing. */
  function StrcatN(dest: string, src: string, len: int): (r: string)
    ensures r == dest || (0 < len && |dest| + len < MaxLineLength && r == dest + src[..Min(len, |src|)])
    ensures |dest| < MaxLineLength ==> |r| < MaxLineLength
    ensures 0 < len <= |src| && |dest| + len < MaxLineLength ==> r == dest + src[..len]
    ensures len <= 0 || |dest| + len >= MaxLineLength ==> r == dest
  {
    if len <= 0 then dest
    else if len + |dest| >= MaxLineLength then dest
    else dest + src[..Min(len, |src|)]
  }

  /** The text starting at `n` (C's `line + n`); empty past the end, where
      the zeroed buffer reads as an empty string. */
  function Drop(s: string, n: nat): (r: string)
    ensures n <= |s| ==> s == s[..n] + r
    ensures n >= |s| ==> r == []
  {
    if n <= |s| then s[n..] else []
  }

  /** Character `m` of a piece copied out of `s` from `n` on is character
      `n + m` of `s`. */
  lemma CopiedAt(s: string, n: nat, len: int, m: nat)
    requires m < |StrcatN([], Drop(s, n), len)|
    ensures m < len && StrcatN([], Drop(s, n), len)[m] == At(s, n + m)
  {
    assert n + m < |s|;
  }

  /** A piece copied out of `s` from just after `from` up to `j`, where no
      `c` occurs between `from` and `j`, holds no `c`. */
  lemma CopyAvoids(s: string, from: nat, j: int, c: char)
    requires forall k :: from <= k < j ==> At(s, k) != c
    ensures c !in StrcatN([], Drop(s, from + 1), j - from - 1)
  {
    var inner := StrcatN([], Drop(s, from + 1), j - from - 1);
    forall m | 0 <= m < |inner|
      ensures inner[m] != c
    {
      CopiedAt(s, from + 1, j - from - 1, m);
    }
  }

  function Min(a: int, b: int): int {
    if a < b then a else b
  }

  /** `strcmp_n`: compare the first `n` characters as signed chars, reading NUL
      past either end; -1, 0 or 1. */
  function StrcmpN(a: string, b: string, n: int): (r: int)
    ensures -1 <= r <= 1
    decreases n
  {
    if n <= 0 then 0
    else if SignedOf(At(a, 0)) < SignedOf(At(b, 0)) then -1
    else if SignedOf(At(a, 0)) > SignedOf(At(b, 0)) then 1
    else StrcmpN(Tail(a), Tail(b), n - 1)
  }

  function Tail(s: string): string {
    if |s| == 0 then s else s[1..]
  }

  /** The keyword test `strcmp_n(line, kw, |kw|) == 0`. */
  predicate HasPrefix(line: string, kw: string) {
    StrcmpN(line, kw, |kw|) == 0
  }

  lemma {:induction false} SignedOfInjective(x: char, y: char)
    requires x as int < 256 && y as int < 256
    requires SignedOf(x) == SignedOf(y)
    ensures x == y
  {
    CharOfSignedOf(x);
    CharOfSignedOf(y);
  }

  /** On script text the keyword test is exactly a prefix test. */
  lemma {:induction false} HasPrefixIff(line: string, kw: string)
    requires CText(line) && CText(kw)
    ensures HasPrefix(line, kw) <==> |kw| <= |line| && line[..|kw|] == kw
    decreases |kw|
  {
    if |kw| > 0 {
      if |line| == 0 {
        assert SignedOf(At(line, 0)) == 0;
        assert SignedOf(At(kw, 0)) != 0;
      } else {
        if line[0] == kw[0] {
          HasPrefixIff(line[1..], kw[1..]);
          assert kw == [kw[0]] + kw[1..];
          if |kw| <= |line| {
            assert line[..|kw|] == [line[0]] + line[1..][..|kw| - 1];
          }
        } else {
          if SignedOf(line[0]) == SignedOf(kw[0]) {
            SignedOfInjective(line[0], kw[0]);
          }
        }
      }
    }
  }

  /** xv6 `strcmp` (ulib): compare as unsigned bytes up to the first
      difference or the end of the first text; the sign orders the texts. */
  function Strcmp(p: string, q: string): int
    decreases |p|
  {
    if |p| == 0 || ByteOf(p[0]) != ByteOf(At(q, 0)) then ByteOf(At(p, 0)) - ByteOf(At(q, 0))
    else Strcmp(p[1..], Tail(q))
  }

  /** On script text `strcmp` reports equality exactly when the texts are equal. */
  lemma {:induction false} StrcmpZeroIff(p: string, q: string)
    requires CText(p) && CText(q)
    ensures Strcmp(p, q) == 0 <==> p == q
    decreases |p|
  {
    if |p| == 0 {
      if |q| > 0 {
        assert ByteOf(q[0]) != 0;
      }
    } else if |q| == 0 {
      assert ByteOf(p[0]) != 0;
    } else if ByteOf(p[0]) != ByteOf(q[0]) {
      assert p[0] != q[0];
    } else {
      assert p[0] == q[0];
      StrcmpZeroIff(p[1..], q[1..]);
      assert p == [p[0]] + p[1..];
      assert q == [q[0]] + q[1..];
    }
  }

  /** Reversing the operands reverses the order `strcmp` reports. */
  lemma {:induction false} StrcmpAntisymmetric(p: string, q: string)
    requires CText(p) && CText(q)
    ensures Strcmp(p, q) == -Strcmp(q, p)
    decreases |p|
  {
    if |p| > 0 && |q| > 0 && ByteOf(p[0]) == ByteOf(q[0]) {
      StrcmpAntisymmetric(p[1..], q[1..]);
    }
  }

  /** `is_function`: a first character other than '(' or ')', then an '(' and
      a later ')'. */
  predicate IsFunction(part: string) {
    && |part| > 0 && part[0] != '(' && part[0] != ')'
    && var i := IndexFrom(part, '(', 1);
       i < |part| && IndexFrom(part, ')', i + 1) < |part|
  }

  /** A text is call-shaped exactly when it has an '(' after its first character
      and a ')' after that, and does not start with a parenthesis. */
  lemma IsFunctionIff(part: string)
    ensures IsFunction(part) <==>
      && |part| > 0 && part[0] != '(' && part[0] != ')'
      && exists i, j :: 1 <= i < j < |part| && part[i] == '(' && part[j] == ')'
  {
    if |part| > 0 && part[0] != '(' && part[0] != ')' {
      if exists i, j :: 1 <= i < j < |part| && part[i] == '(' && part[j] == ')' {
        var i, j :| 1 <= i < j < |part| && part[i] == '(' && part[j] == ')';
        var i0 := IndexFrom(part, '(', 1);
        assert i0 <= i;
        assert IndexFrom(part, ')', i0 + 1) <= j;
      }
      if IsFunction(part) {
        var i0 := IndexFrom(part, '(', 1);
        var j0 := IndexFrom(part, ')', i0 + 1);
        assert 1 <= i0 < j0 < |part| && part[i0] == '(' && part[j0] == ')';
      }
    }
  }

  /** Text without any ')' is never call-shaped. */
  lemma NoCloseNotFunction(part: string)
    requires ')' !in part
    ensures !IsFunction(part)
  {
  }

  /** `is_variable`: non-empty and no parenthesis before the first '='. */
  predicate IsVariable(part: string) {
    && |part| > 0
    && var e := IndexOf(part, '=');
       forall k :: 0 <= k < e ==> part[k] != '(' && part[k] != ')'
  }

  /** Declaration names never contain a parenthesis; call-shaped text without an
      '=' is therefore not a declaration. */
  lemma CallIsNotVariable(part: string)
    requires IsFunction(part) && '=' !in part
    ensures !IsVariable(part)
  {
    var i0 := IndexFrom(part, '(', 1);
    assert part[i0] == '(';
  }
}

=== FILE: values.dfy ===
/**
  Values and variables of a script, the two scopes a name is looked up in,
  reading an operand (`get_var`), the coercing assignment (`set_var`) and the
  keep-last deduplication of a variable table (`remove_duplicate_variables`).
 */
module Values {
  import opened CInt
  import opened Text
  import opened Literals

  const MaxVars: int := 8

  /** The type tags VOID, INT, CHAR and STRING. */
  datatype VarType = VoidT | IntT | CharT | StringT

  /** A tagged value that owns its payload: a 32-bit int, a signed 8-bit char
      or the C string held in a 32-byte buffer. */
  datatype Value = Void | IntV(i: Int32) | CharV(c: SChar) | StrV(s: string)

  function TypeOf(v: Value): VarType {
    match v
    case Void => VoidT
    case IntV(_) => IntT
    case CharV(_) => CharT
    case StrV(_) => StringT
  }

  /** The value a declaration without initialiser starts with. */
  function ZeroOf(t: VarType): (v: Value)
    ensures TypeOf(v) == t
  {
    match t
    case VoidT => Void
    case IntT => IntV(0)
    case CharT => CharV(0)
    case StringT => StrV([])
  }

  datatype Var = Var(name: string, val: Value)

  /** Why a run stops: each stands for one `printf` and `exit` of the
      interpreter, or for a path on which the C code has undefined behaviour. */
  datatype Error =
    | UnknownVariable      // a name found in neither scope
    | TypeError            // an assignment, argument or `system` operand of the wrong type
    | ReturnTypeError      // a returned value whose type is not the declared one
    | UnknownFunction      // a call to a name that is not registered
    | NotFunction          // a call whose text has no '(' after its first character
    | UnknownLine          // a line no statement form accepts
    | CompareError         // a condition comparing text with a number
    | CharRightOperand     // a condition whose right operand is a CHAR
    | StackOverflow        // a ninth frame
    | TooManyVars          // a ninth variable in a table
    | TooManyFunctions     // a fifth function header
    | EmptyOperand         // an operand that is empty or missing
    | DivByZero
    | Overflow             // a 32-bit result out of range
    | MissingReturn        // a body that ends without `return`
    | GlobalInit           // an initialiser on a global declaration
    | ParamInit            // an initialiser on a parameter
    | NoFrame              // a variable read while no frame is on the stack
    | NullLine             // a read of a line past the end of the script

  datatype Result<T> = Ok(value: T) | Fatal(err: Error)

  /** The locals of the running frame and the globals. */
  datatype Scope = Scope(locals: seq<Var>, globals: seq<Var>)

  /** Index of the first variable called `name`, or `|vars|`. */
  function FirstNamed(vars: seq<Var>, name: string): (k: nat)
    ensures k <= |vars|
    ensures k < |vars| ==> vars[k].name == name
    ensures forall j :: 0 <= j < k ==> vars[j].name != name
  {
    if |vars| == 0 then 0
    else if vars[0].name == name then 0
    else 1 + FirstNamed(vars[1..], name)
  }

  /** Index of the last variable called `name`, or -1. */
  function LastNamed(vars: seq<Var>, name: string): (k: int)
    ensures -1 <= k < |vars|
    ensures k >= 0 ==> vars[k].name == name
    ensures forall j :: k < j < |vars| ==> vars[j].name != name
  {
    if |vars| == 0 then -1
    else if vars[|vars| - 1].name == name then |vars| - 1
    else LastNamed(vars[..|vars| - 1], name)
  }

  predicate Declares(vars: seq<Var>, name: string) {
    exists k :: 0 <= k < |vars| && vars[k].name == name
  }

  /** Text that `get_var` resolves as a name rather than as a literal. */
  predicate IsName(part: string) {
    |part| > 0 && !IsDigit(part[0]) && part[0] != '\'' && part[0] != '"'
  }

  /** `get_var`: an integer literal (the C test is `atoi` nonzero or a leading
      '0'), a character literal, a text literal, else the first local of that
      name, else the first global. Empty text has no value. */
  function GetVar(part: string, sc: Scope): (r: Result<Value>)
    ensures IsName(part) ==>
      (r.Fatal? <==> !Declares(sc.locals, part) && !Declares(sc.globals, part))
    ensures IsName(part) && Declares(sc.locals, part) ==>
      r.Ok? && exists k :: 0 <= k < |sc.locals| && sc.locals[k].name == part && r.value == sc.locals[k].val
    ensures IsName(part) && !Declares(sc.locals, part) && Declares(sc.globals, part) ==>
      r.Ok? && exists k :: 0 <= k < |sc.globals| && sc.globals[k].name == part && r.value == sc.globals[k].val
    ensures |part| > 0 && IsDigit(part[0]) ==> r.Fatal? || TypeOf(r.value) == IntT
    ensures |part| > 0 && part[0] == '\'' ==> r.Ok? && TypeOf(r.value) == CharT
    ensures |part| > 0 && part[0] == '"' ==> r.Ok? && TypeOf(r.value) == StringT
  {
    if |part| == 0 then Fatal(EmptyOperand)
    else if Atoi(part) != 0 || part[0] == '0' then
      IntLiteralTest(part);
      if Atoi(part) > IntMax then Fatal(Overflow) else Ok(IntV(Atoi(part)))
    else
      IntLiteralTest(part);
      if part[0] == '\'' then Ok(CharV(SignedOf(CharValue(part))))
      else if part[0] == '"' then Ok(StrV(StringValue(part)))
      else
        var i := FirstNamed(sc.locals, part);
        if i < |sc.locals| then Ok(sc.locals[i].val)
        else
          var j := FirstNamed(sc.globals, part);
          if j < |sc.globals| then Ok(sc.globals[j].val) else Fatal(UnknownVariable)
  }

  /** Locals shadow globals, and among equal names the first one is read. */
  lemma GetVarShadowing(part: string, sc: Scope, k: nat)
    requires IsName(part)
    requires k < |sc.locals| && sc.locals[k].name == part
    requires forall j :: 0 <= j < k ==> sc.locals[j].name != part
    ensures GetVar(part, sc) == Ok(sc.locals[k].val)
  {
  }

  /** Round trips through the literal forms `get_var` accepts. */
  lemma GetVarLiterals(n: int, c: char, s: string, sc: Scope)
    requires 0 < n <= IntMax && c != Nul && Nul !in s
    ensures GetVar(Itoa(n), sc) == Ok(IntV(n))
    ensures GetVar(CharLiteral(c), sc) == Ok(CharV(SignedOf(c)))
    ensures GetVar(TextLiteral(s), sc) == Ok(StrV(s))
  {
    AtoiItoa(n);
    ItoaDigits(n);
    CharLiteralRoundTrip(c);
    TextLiteralRoundTrip(s);
    var cl := CharLiteral(c);
    assert cl[0] == '\'';
    IntLiteralTest(cl);
    var tl := TextLiteral(s);
    assert tl[0] == '"';
    IntLiteralTest(tl);
  }

  /** The assignments `set_var` accepts, as a table of target and source types. */
  predicate Assignable(target: VarType, source: VarType) {
    match target
    case IntT => source == IntT || source == CharT
    case CharT => source == IntT || source == CharT
    case StringT => source != VoidT
    case VoidT => false
  }

  /** The value a variable holding `prior` takes when `v` is assigned: INT from
      CHAR widens, CHAR from INT keeps the low byte, text from INT is what
      `itoa` writes (nothing for 0) and text from CHAR is that one character. */
  function Coerce(prior: Value, v: Value): (r: Result<Value>)
    ensures r.Ok? <==> Assignable(TypeOf(prior), TypeOf(v))
    ensures r.Ok? ==> TypeOf(r.value) == TypeOf(prior)
    ensures r.Ok? && TypeOf(v) == TypeOf(prior) ==> r.value == v
    ensures r.Ok? && prior.IntV? && v.CharV? ==> r.value.i == v.c
    ensures r.Ok? && prior.CharV? && v.IntV? ==> (v.i - r.value.c) % 256 == 0
    ensures r.Ok? && prior.StrV? && v.IntV? ==>
      && (r.value.s == [] <==> v.i == 0)
      && Atoi(r.value.s) == if v.i > 0 then v.i else 0
    ensures r.Ok? && prior.StrV? && v.CharV? && v.c != 0 ==> r.value.s == [CharOf(v.c)]
  {
    match (prior, v)
    case (IntV(_), IntV(n)) => Ok(IntV(n))
    case (IntV(_), CharV(c)) => Ok(IntV(c))
    case (CharV(_), IntV(n)) => Ok(CharV(Narrow(n)))
    case (CharV(_), CharV(c)) => Ok(CharV(c))
    case (StrV(_), IntV(n)) => ItoaAsWrittenReadBack(n); Ok(StrV(ItoaAsWritten(n)))
    case (StrV(_), CharV(c)) => Ok(StrV(UntilNul([CharOf(c)])))
    case (StrV(_), StrV(t)) => Ok(StrV(t))
    case _ => Fatal(TypeError)
  }

  /** `set_var`: assign to the last local called `name`, else to the last
      global of that name; nothing else changes and the variable keeps its type. */
  function SetVar(sc: Scope, name: string, v: Value): (r: Result<Scope>)
    ensures !Declares(sc.locals, name) && !Declares(sc.globals, name) ==> r == Fatal(UnknownVariable)
    ensures r.Ok? ==>
      || (exists k, nv :: 0 <= k < |sc.locals| && sc.locals[k].name == name
            && (forall j :: k < j < |sc.locals| ==> sc.locals[j].name != name)
            && Coerce(sc.locals[k].val, v) == Ok(nv)
            && r.value == Scope(sc.locals[k := Var(name, nv)], sc.globals))
      || (&& !Declares(sc.locals, name)
          && exists k, nv :: 0 <= k < |sc.globals| && sc.globals[k].name == name
               && (forall j :: k < j < |sc.globals| ==> sc.globals[j].name != name)
               && Coerce(sc.globals[k].val, v) == Ok(nv)
               && r.value == Scope(sc.locals, sc.globals[k := Var(name, nv)]))
  {
    var i := LastNamed(sc.locals, name);
    if i >= 0 then
      match Coerce(sc.locals[i].val, v)
      case Ok(nv) => Ok(Scope(sc.locals[i := Var(name, nv)], sc.globals))
      case Fatal(e) => Fatal(e)
    else
      var j := LastNamed(sc.globals, name);
      if j >= 0 then
        match Coerce(sc.globals[j].val, v)
        case Ok(nv) => Ok(Scope(sc.locals, sc.globals[j := Var(name, nv)]))
        case Fatal(e) => Fatal(e)
      else Fatal(UnknownVariable)
  }

  /** Two variable tables with the same names and types in the same places;
      only the values may differ. */
  predicate SameShape(a: seq<Var>, b: seq<Var>) {
    && |a| == |b|
    && forall k :: 0 <= k < |a| ==> a[k].name == b[k].name && TypeOf(a[k].val) == TypeOf(b[k].val)
  }

  lemma UpdateShape(vars: seq<Var>, k: int, nv: Value)
    requires 0 <= k < |vars| && TypeOf(nv) == TypeOf(vars[k].val)
    ensures SameShape(vars[k := Var(vars[k].name, nv)], vars)
  {
  }

  /** Assignment keeps the names and types of both tables. */
  lemma SetVarShape(sc: Scope, name: string, v: Value)
    requires SetVar(sc, name, v).Ok?
    ensures SameShape(SetVar(sc, name, v).value.locals, sc.locals)
    ensures SameShape(SetVar(sc, name, v).value.globals, sc.globals)
  {
    var i := LastNamed(sc.locals, name);
    if i >= 0 {
      UpdateShape(sc.locals, i, Coerce(sc.locals[i].val, v).value);
    } else {
      var j := LastNamed(sc.globals, name);
      UpdateShape(sc.globals, j, Coerce(sc.globals[j].val, v).value);
    }
  }

  /** No two variables share a name. */
  predicate Distinct(vars: seq<Var>) {
    forall i, j :: 0 <= i < j < |vars| ==> vars[i].name != vars[j].name
  }

  /** With distinct names, reading a name back after assigning to it gives the
      coerced value. */
  lemma SetThenGet(sc: Scope, name: string, v: Value)
    requires IsName(name) && Distinct(sc.locals) && Distinct(sc.globals)
    requires SetVar(sc, name, v).Ok?
    ensures Coerce(LookupOld(sc, name), v).Ok?
    ensures GetVar(name, SetVar(sc, name, v).value) == Coerce(LookupOld(sc, name), v)
  {
    var sc' := SetVar(sc, name, v).value;
    var i := LastNamed(sc.locals, name);
    if i >= 0 {
      var nv := Coerce(sc.locals[i].val, v).value;
      UpdateFirst(sc.locals, i, sc.locals[i].val);
      assert sc.locals[i := Var(name, sc.locals[i].val)] == sc.locals;
      UpdateFirst(sc.locals, i, nv);
      GetVarShadowing(name, sc', i);
    } else {
      var j := LastNamed(sc.globals, name);
      var nv := Coerce(sc.globals[j].val, v).value;
      UpdateFirst(sc.globals, j, sc.globals[j].val);
      assert sc.globals[j := Var(name, sc.globals[j].val)] == sc.globals;
      UpdateFirst(sc.globals, j, nv);
      assert sc'.locals == sc.locals;
      GetVarGlobal(name, sc', j);
    }
  }

  /** In a table without duplicates, the entry at `k` is the first of its
      name, also after its value changes. */
  lemma UpdateFirst(vars: seq<Var>, k: nat, nv: Value)
    requires Distinct(vars) && k < |vars|
    ensures FirstNamed(vars[k := Var(vars[k].name, nv)], vars[k].name) == k
  {
    var vars' := vars[k := Var(vars[k].name, nv)];
    var f := FirstNamed(vars', vars[k].name);
    assert vars'[k].name == vars[k].name;
    assert f <= k;
    assert forall j :: 0 <= j < k ==> vars'[j] == vars[j];
  }

  /** Without a local of that name, a name reads the first global of it. */
  lemma GetVarGlobal(part: string, sc: Scope, k: nat)
    requires IsName(part) && !Declares(sc.locals, part)
    requires k < |sc.globals| && sc.globals[k].name == part
    requires forall j :: 0 <= j < k ==> sc.globals[j].name != part
    ensures GetVar(part, sc) == Ok(sc.globals[k].val)
  {
  }

  /** The value `name` currently has (locals first), VOID when undeclared. */
  function LookupOld(sc: Scope, name: string): Value {
    var i := FirstNamed(sc.locals, name);
    if i < |sc.locals| then sc.locals[i].val
    else
      var j := FirstNamed(sc.globals, name);
      if j < |sc.globals| then sc.globals[j].val else Void
  }

  /** Entry `i` is the last one with its name. */
  predicate IsLast(vars: seq<Var>, i: int)
    requires 0 <= i < |vars|
  {
    forall j :: i < j < |vars| ==> vars[j].name != vars[i].name
  }

  /** Keep each entry whose name does not occur again later, in order. */
  function KeepLast(vars: seq<Var>): (r: seq<Var>)
    ensures |r| <= |vars|
  {
    if |vars| == 0 then []
    else (if Declares(vars[1..], vars[0].name) then [] else [vars[0]]) + KeepLast(vars[1..])
  }

  /** Index of the first entry with an empty name (the end of a C table). */
  function TableEnd(vars: seq<Var>): (n: nat)
    ensures n <= |vars|
    ensures forall k :: 0 <= k < n ==> vars[k].name != []
    ensures n < |vars| ==> vars[n].name == []
  {
    if |vars| == 0 || vars[0].name == [] then 0 else 1 + TableEnd(vars[1..])
  }

  /** The entries before the first empty name: the part of a C table in use. */
  function Table(vars: seq<Var>): (t: seq<Var>)
    ensures |t| <= |vars|
    ensures forall k :: 0 <= k < |t| ==> t[k] == vars[k] && t[k].name != []
  {
    vars[..TableEnd(vars)]
  }

  /** A table without an empty name is in use to its end. */
  lemma {:induction false} TableWhole(vars: seq<Var>)
    requires forall k :: 0 <= k < |vars| ==> vars[k].name != []
    ensures Table(vars) == vars
  {
    if |vars| > 0 {
      TableWhole(vars[1..]);
      assert TableEnd(vars) == 1 + TableEnd(vars[1..]);
    }
  }

  /** `remove_duplicate_variables`. */
  function Dedup(vars: seq<Var>): seq<Var> {
    KeepLast(Table(vars))
  }

  /** `x` is the last entry of its name in `vars`. */
  predicate LastEntry(vars: seq<Var>, x: Var) {
    exists i :: 0 <= i < |vars| && IsLast(vars, i) && x == vars[i]
  }

  /** Every entry `KeepLast` keeps is the last entry of its name in the input. */
  lemma {:induction false} KeepLastFrom(vars: seq<Var>)
    ensures forall k :: 0 <= k < |KeepLast(vars)| ==> LastEntry(vars, KeepLast(vars)[k])
  {
    if |vars| > 0 {
      var rest := vars[1..];
      KeepLastFrom(rest);
      var r := KeepLast(vars);
      var head: seq<Var> := if Declares(rest, vars[0].name) then [] else [vars[0]];
      assert r == head + KeepLast(rest);
      forall k | 0 <= k < |r|
        ensures LastEntry(vars, r[k])
      {
        if k < |head| {
          assert IsLast(vars, 0) && r[k] == vars[0];
        } else {
          assert LastEntry(rest, KeepLast(rest)[k - |head|]);
          var i :| 0 <= i < |rest| && IsLast(rest, i) && KeepLast(rest)[k - |head|] == rest[i];
          assert IsLast(vars, i + 1) && r[k] == vars[i + 1];
        }
      }
    }
  }

  /** Every last entry of its name in the input is kept. */
  lemma {:induction false} KeepLastKeeps(vars: seq<Var>)
    ensures forall i :: 0 <= i < |vars| && IsLast(vars, i) ==> vars[i] in KeepLast(vars)
  {
    if |vars| > 0 {
      var rest := vars[1..];
      KeepLastKeeps(rest);
      var r := KeepLast(vars);
      var head: seq<Var> := if Declares(rest, vars[0].name) then [] else [vars[0]];
      assert r == head + KeepLast(rest);
      forall i | 0 <= i < |vars| && IsLast(vars, i)
        ensures vars[i] in r
      {
        if i == 0 {
          assert vars[0] in head;
        } else {
          assert IsLast(rest, i - 1);
          assert rest[i - 1] in KeepLast(rest);
        }
      }
    }
  }

  /** `KeepLast` leaves no two entries with the same name. */
  lemma {:induction false} KeepLastUnique(vars: seq<Var>)
    ensures Distinct(KeepLast(vars))
  {
    if |vars| > 0 {
      var rest := vars[1..];
      KeepLastUnique(rest);
      KeepLastFrom(rest);
      var head: seq<Var> := if Declares(rest, vars[0].name) then [] else [vars[0]];
      assert KeepLast(vars) == head + KeepLast(rest);
      if head != [] {
        forall k | 0 <= k < |KeepLast(rest)|
          ensures KeepLast(rest)[k].name != vars[0].name
        {
          assert LastEntry(rest, KeepLast(rest)[k]);
          var i :| 0 <= i < |rest| && IsLast(rest, i) && KeepLast(rest)[k] == rest[i];
        }
      }
    }
  }

  lemma KeepLastSpec(vars: seq<Var>)
    ensures Distinct(KeepLast(vars))
    ensures forall k :: 0 <= k < |KeepLast(vars)| ==> LastEntry(vars, KeepLast(vars)[k])
    ensures forall i :: 0 <= i < |vars| && IsLast(vars, i) ==> vars[i] in KeepLast(vars)
  {
    KeepLastFrom(vars);
    KeepLastKeeps(vars);
    KeepLastUnique(vars);
  }

  /** Every name of the input is still declared after `KeepLast`. */
  lemma KeepLastNames(vars: seq<Var>)
    ensures forall i :: 0 <= i < |vars| ==> Declares(KeepLast(vars), vars[i].name)
  {
    KeepLastSpec(vars);
    forall i | 0 <= i < |vars|
      ensures Declares(KeepLast(vars), vars[i].name)
    {
      var l := LastNamed(vars, vars[i].name);
      assert IsLast(vars, l);
      assert vars[l] in KeepLast(vars);
    }
  }

  /** The deduplicated table: names are pairwise distinct, every entry is the
      last entry of its name in the table in use, and every name of that table
      survives. */
  lemma DedupSpec(vars: seq<Var>)
    ensures Distinct(Dedup(vars))
    ensures forall k :: 0 <= k < |Dedup(vars)| ==>
      exists i :: 0 <= i < |Table(vars)| && IsLast(Table(vars), i) && Dedup(vars)[k] == Table(vars)[i]
    ensures forall i :: 0 <= i < |Table(vars)| ==> Declares(Dedup(vars), Table(vars)[i].name)
  {
    KeepLastSpec(Table(vars));
    KeepLastNames(Table(vars));
  }

  /** Survivors keep their relative order. */
  lemma {:induction false} KeepLastOrder(vars: seq<Var>, p: nat, q: nat)
    requires p < q < |KeepLast(vars)|
    ensures exists i, j :: 0 <= i < j < |vars| && KeepLast(vars)[p] == vars[i] && KeepLast(vars)[q] == vars[j]
  {
    var rest := vars[1..];
    var head: seq<Var> := if Declares(rest, vars[0].name) then [] else [vars[0]];
    var r := KeepLast(vars);
    assert r == head + KeepLast(rest);
    if p < |head| {
      var j := KeptAfterHead(vars, q - 1);
      assert r[p] == head[0] == vars[0];
      assert r[q] == KeepLast(rest)[q - 1] == vars[j];
    } else {
      var p', q' := p - |head|, q - |head|;
      KeepLastOrder(rest, p', q');
      var i, j :| 0 <= i < j < |rest| && KeepLast(rest)[p'] == rest[i] && KeepLast(rest)[q'] == rest[j];
      assert r[p] == KeepLast(rest)[p'] == vars[i + 1];
      assert r[q] == KeepLast(rest)[q'] == vars[j + 1];
    }
  }

  /** Entry `k` of what `KeepLast` keeps of the tail is an entry after the head. */
  lemma KeptAfterHead(vars: seq<Var>, k: nat) returns (j: nat)
    requires |vars| > 0 && k < |KeepLast(vars[1..])|
    ensures 1 <= j < |vars| && KeepLast(vars[1..])[k] == vars[j]
  {
    var rest := vars[1..];
    KeepLastFrom(rest);
    assert LastEntry(rest, KeepLast(rest)[k]);
    var j' :| 0 <= j' < |rest| && IsLast(rest, j') && KeepLast(rest)[k] == rest[j'];
    j := j' + 1;
  }

  lemma {:induction false} KeepLastDistinct(vars: seq<Var>)
    requires Distinct(vars)
    ensures KeepLast(vars) == vars
  {
    if |vars| > 0 {
      KeepLastDistinct(vars[1..]);
      assert !Declares(vars[1..], vars[0].name) by {
        forall k | 0 <= k < |vars[1..]|
          ensures vars[1..][k].name != vars[0].name
        {
          assert vars[1..][k] == vars[k + 1];
        }
      }
      assert vars == [vars[0]] + vars[1..];
    }
  }

  /** Deduplicating twice is deduplicating once. */
  lemma DedupIdempotent(vars: seq<Var>)
    ensures Dedup(Dedup(vars)) == Dedup(vars)
  {
    var d := Dedup(vars);
    var t := Table(vars);
    KeepLastSpec(t);
    forall k | 0 <= k < |d|
      ensures d[k].name != []
    {
      var i :| 0 <= i < |t| && IsLast(t, i) && d[k] == t[i];
    }
    assert TableEnd(d) == |d|;
    assert Table(d) == d;
    KeepLastDistinct(d);
  }
}
